=== FILE: README.md ===
# Road Accident Report – AI Assistant, modelled in Dafny

The application guides two drivers through an accident report. They pick a
country profile and upload evidence files: scene photos and videos,
documents, and audio statements. An AI service turns the files into a
report draft, the drivers correct the draft, answer the AI's follow-up
questions and sign. An evidence package is then produced.

This project models the session logic behind those screens:

- the session hook's state record and its handlers, as pure transitions on an
  `AppState` record;
- the two ways the hook merges a report: the first-pass seeding of an
  extracted report over the default skeleton, and the clarification merge;
- the report form's dynamic path setter, the alleged-violation toggle,
  witness append and remove, the country catalog switch and the
  confirmation guard;
- the upload screen's file classification, owner normalisation, removal and
  submit guard;
- how the AI service groups the files and composes its prompts, how it looks
  vehicles up by label, and how it maps failures to user messages;
- the default report and the four violation catalogs, and the types and
  response schema.

The report is a JSON-like value (`JsonValue.Json`: null, boolean, string,
array, object map). The path setter can give a report any shape, so the
report is modelled as such a value. Every operation returns a new value,
so the deep copy the setter makes is implicit, and a previous record can
never change.

The network calls, the file reader and `JSON.parse` of the AI's replies
are oracles. They are the function-valued fields of `GeminiService.Services`,
so the model shows exactly which request each call receives. The outcomes
of the three asynchronous calls are parameters: of the settle functions and
of the events of `AppShell`.

Each asynchronous handler is split in two:

- the part before its `await` (`AppLogic.BeginProcessing`,
  `BeginClarification`, `BeginPackaging`);
- the part that runs when the call settles (`SettleProcessing`,
  `SettleClarification`, `SettlePackaging`).

`AppShell` closes the loop. It models the page in `App.tsx`: which overlay
covers it, which controls can be reached, and the session as a state machine
over user events and settling calls. It proves an invariant of every
reachable session.

Modules, one file each:

- `Base`: Option/Result, `find`, `filter`, `trim`, `includes`, `join`.
- `JsonValue`: the value type, truthiness and canonical array-index keys.
- `Types`: the types and the extraction response schema.
- `Constants`: the default report and the catalogs.
- `MediaUploader`: the upload screen.
- `ReportPaths`: the path setter.
- `ReportView`: the report form.
- `GeminiService`: the AI service.
- `AppLogic`: the session hook.
- `AppShell`: the page and the event machine.

Two behaviours of the code are kept as written:

- A failure of the diagram or the sketch call fails the whole analysis.
  The two calls are joined with `Promise.all`.
- A late answer is never discarded. There is no cancellation, and a settling
  call always updates the session.

The seeding replaces the `accident` section wholesale with the AI's. The
response schema marks no property as required, so an AI accident without
`geo` is a valid reply, and the seeded report then has no `accident.geo`.
The report form reads `reportData.accident.geo.address` unguarded
(components/ReportView.tsx:178), so in the application that form throws
while rendering and the page goes blank. The model keeps the seeding as
written; it does not model render errors (see `AppShell.CorrectedNeverStuck`
under "Left out").

## Model

| member | source | states |
|---|---|---|
| Base.FirstWhere | hooks/useAppLogic.ts:74 | `find` yields an element satisfying the predicate with none before it, and nothing exactly when no element satisfies it |
| Base.FirstWhereOrderIndependent | hooks/useAppLogic.ts:44-49 | when at most one element can match, the order of the array does not change what `find` returns |
| Base.Filter | hooks/useAppLogic.ts:77 | `filter` keeps exactly the elements that satisfy the predicate and drops the rest |
| Base.RemoveAll | components/ReportView.tsx:92 | removing an id drops every occurrence and keeps every other element |
| Base.RemoveAt | components/MediaUploader.tsx:105 | filtering out index i gives the elements before i followed by those after it; an index past the end changes nothing |
| Base.TrimEmptyIffAllSpace | components/ReportView.tsx:57 | a text trims to the empty string exactly when it is all white space |
| Base.TrimIdempotent | services/geminiService.ts:152 | trimming twice is trimming once |
| JsonValue.DecimalValueOfNatToDecimal | components/ReportView.tsx:95 | an index written into a path reads back as the same number |
| JsonValue.ArrayIndexOfDecimal | components/ReportView.tsx:76 | the canonical decimal key of an index selects that array element |
| JsonValue.Prop | components/ReportView.tsx:320 | reading a property throws a TypeError exactly on null; otherwise it yields the property, if any |
| Types.SixSteps | types.ts:4-11 | there are exactly six steps, with distinct names |
| Types.ConfigCodes | types.ts:13-16 | the locale is one of TR/UK/CA/NY, the language one of TR/EN, and distinct locales have distinct codes |
| Types.VehicleFields | types.ts:105-117 | a parsed vehicle has only schema properties, and a label exactly when the reply gave one |
| Types.PartialFields | types.ts:88-155 | a parsed extraction reply has only the schema's five top-level properties, each present exactly when the reply gave it |
| Types.SchemaCoverage | types.ts:88-155 | the schema has no witnesses, diagram, signatures, consent or locale and no `alleged_offences`; its sections other than questions are report sections |
| Constants.InitialReportKeys | constants.ts:4-32 | the default report has exactly the nine report sections |
| Constants.InitialReportBlank | constants.ts:5-29 | the default locale is UK, there are no witnesses, and there is no sketch |
| Constants.InitialReportUnsigned | constants.ts:30-31 | both default signatures are null and both consent flags false |
| Constants.InitialVehicleSlots | constants.ts:12-15 | the default vehicles are labelled A and B in that order, and there is no third |
| Constants.InitialDriverSlots | constants.ts:16-19 | the default drivers refer to vehicles A and B in that order |
| Constants.InitialInsuranceSlots | constants.ts:20-23 | the default policies refer to vehicles A and B in that order |
| Constants.DefaultSlotsEmpty | constants.ts:12-23 | every default text field is empty and every list of offences is empty |
| Constants.NumberedDistinct | constants.ts:34-64 | a catalog numbered from its prefix has pairwise distinct ids |
| Constants.NumberedDisjoint | constants.ts:34-64 | two catalogs numbered from different prefixes of equal length share no id |
| Constants.CatalogsNumbered | constants.ts:34-64 | each catalog has five entries numbered `<prefix>_1` to `<prefix>_5`, with prefixes uk, ca, ny and tr |
| MediaUploader.Classify | components/MediaUploader.tsx:44-48 | image or video MIME types are scene material, audio types audio, everything else a document, each exactly |
| MediaUploader.DefaultOwner | components/MediaUploader.tsx:53 | a new file has no owner exactly when it is scene material; otherwise its owner is driver A |
| MediaUploader.Arrive | components/MediaUploader.tsx:50-55 | an arriving file keeps its name and type, is classified by type, and is owned unless it is scene material |
| MediaUploader.Ingest | components/MediaUploader.tsx:39-59 | new files are appended in order after the existing ones, each classified and owned by A unless scene; no file list changes nothing |
| MediaUploader.UpdateFile | components/MediaUploader.tsx:90-102 | a selector change alters only its file: choosing scene drops the owner, any other change keeps the owner or gives driver A; an index past the end is outside the model (see Left out) |
| MediaUploader.UpdateKeepsOwnership | components/MediaUploader.tsx:90-102 | the kind selector and the owner selector (offered only for non-scene files) keep "owner present iff not scene" |
| MediaUploader.OwnerOnSceneBreaksOwnership | components/MediaUploader.tsx:246-249 | an owner change on scene material, which the screen does not offer, would break that rule |
| MediaUploader.SceneRoundTripResetsOwner | components/MediaUploader.tsx:94-99 | turning a file into scene material and back leaves driver A as its owner |
| MediaUploader.RemoveFile | components/MediaUploader.tsx:104-106 | removing index i drops exactly that file and keeps the rest in order |
| MediaUploader.RemoveKeepsOwnership | components/MediaUploader.tsx:104-106 | removal keeps the ownership rule of the remaining files |
| MediaUploader.IngestKeepsOwnership | components/MediaUploader.tsx:53-59 | ingesting keeps the ownership rule of the list |
| MediaUploader.SubmitDisabled | components/MediaUploader.tsx:130 | "Start Analysis" is disabled exactly when there are no files |
| MediaUploader.ApplyLocation | components/MediaUploader.tsx:108-128 | a position replaces the stored location; a refusal or a missing location service keeps it |
| ReportPaths.SplitPath | components/ReportView.tsx:66 | every key of a split path is non-empty and free of `.`, `[` and `]` |
| ReportPaths.SplitPathAtSeparator | components/ReportView.tsx:66 | splitting at a separator splits the two sides independently, so runs of separators act as one |
| ReportPaths.SplitPathOfKey | components/ReportView.tsx:66 | a single key splits to itself |
| ReportPaths.SplitJoinRoundTrip | components/ReportView.tsx:66 | splitting keys joined with dots gives the keys back |
| ReportPaths.SplitIndexedPath | components/ReportView.tsx:66 | `list[i].field` splits to the list name, the index and the field |
| ReportPaths.SplitDottedPath | components/ReportView.tsx:66 | `section.field` splits to the section and the field |
| ReportPaths.Fresh | components/ReportView.tsx:72-75 | a missing intermediate container is an array exactly when the next key parses as an integer, otherwise an object, and it is empty |
| ReportPaths.Assign | components/ReportView.tsx:79-80 | an assignment reads back its value and adds the key to an object; on null, a boolean or a string it throws |
| ReportPaths.SetPath | components/ReportView.tsx:69-80 | the walk keeps the container kind of the root, adds the first key to an object, and throws on a scalar root |
| ReportPaths.EffectiveKeys | components/ReportView.tsx:66-79 | the keys used are the split path; an empty split writes the property named "undefined" |
| ReportPaths.HandleUpdate | components/ReportView.tsx:62-84 | a falsy report (none, null, false or the empty string) becomes no report; otherwise the edit succeeds exactly when the walk does, the new report reads the value back at the path, and an object stays an object |
| ReportPaths.SetPathReadBack | components/ReportView.tsx:67-82 | after a successful update, reading the path yields the written value |
| ReportPaths.SetPathExtension | components/ReportView.tsx:67-82 | below the written path the report holds exactly what the written value holds |
| ReportPaths.FreshIsEmpty | components/ReportView.tsx:72-75 | a created container holds nothing at any path |
| ReportPaths.SetPathFrame | components/ReportView.tsx:67-82 | every path that diverges from the written one reads the same before and after the update |
| ReportPaths.SetPathOnExistingParent | components/ReportView.tsx:69-80 | when the parent exists, the update succeeds exactly when the parent can take the key, and a null parent throws |
| ReportView.ViolationsFor | components/ReportView.tsx:46-54 | the catalog is one of the four, and UK when there is no configuration |
| ReportView.CatalogMatchesLocale | components/ReportView.tsx:46-54 | each locale selects the catalog whose ids carry its own lower-case prefix: TR Turkish, CA California, NY New York, UK UK |
| ReportView.Toggle | components/ReportView.tsx:89-93 | toggling flips membership of the id, keeps membership of every other id, appends an absent id at the end, and removes every copy of a present id |
| ReportView.ToggleKeepsOrder | components/ReportView.tsx:91-93 | unchecking an id removes it from each part of the list in place, so the other ids keep their relative order |
| ReportView.ToggleTwice | components/ReportView.tsx:91-93 | toggling an absent id twice restores the list |
| ReportView.ToggleStaysInCatalog | components/ReportView.tsx:91-93 | a list of catalog ids toggled with a catalog id holds only catalog ids |
| ReportView.Spread | components/ReportView.tsx:93 | spreading an array yields its items, a string the one-character strings of its characters in order, and anything else throws |
| ReportView.ToggledOffences | components/ReportView.tsx:88-93 | a missing or falsy list becomes the one id; an array is toggled; a boolean or object throws |
| ReportView.OffencesOf | components/ReportView.tsx:87-88 | the current offences are read at `vehicles[i].alleged_offences`, without error when the vehicle is an object |
| ReportView.OffencesPathKeys | components/ReportView.tsx:95 | the update path of a vehicle's offences splits to vehicles, the index and `alleged_offences` |
| ReportView.HandleViolationChange | components/ReportView.tsx:86-96 | a successful checkbox change stores the toggled list at the vehicle's offences |
| ReportView.ViolationChangeToggles | components/ReportView.tsx:86-96 | on a vehicle with an offence list the change succeeds, stores the toggled list, and leaves every diverging path as it was |
| ReportView.AddWitness | components/ReportView.tsx:98-101 | an existing witness list gains one blank witness at the end; a missing or null list throws |
| ReportView.RemoveWitness | components/ReportView.tsx:103-106 | removing witness i drops exactly that entry and keeps the order of the rest |
| ReportView.AddWitnessAppends | components/ReportView.tsx:98-101 | on a report holding a witness array, adding writes that array plus the blank witness back under `witnesses` and changes no other section |
| ReportView.RemoveWitnessStores | components/ReportView.tsx:103-106 | on a report holding a witness array, removing writes the shortened array back under `witnesses` and changes no other section |
| ReportView.RemoveAddedWitness | components/ReportView.tsx:98-106 | removing the witness just added gives the report back unchanged |
| ReportView.ConfirmationDisabled | components/ReportView.tsx:320 | confirmation is disabled exactly when neither signature is truthy or either consent flag is falsy |
| ReportView.ConsentMissing | components/ReportView.tsx:320 | the consent half of the guard is true exactly when a flag is falsy, and throws exactly without a consent object |
| ReportView.ConfirmationOnWellFormedReport | components/ReportView.tsx:320 | on a report with signature and consent objects the guard never throws and enables exactly on one signature and both consents |
| ReportView.ConfirmationThrows | components/ReportView.tsx:320 | a report without signatures, or with a signature but no consent, makes the guard throw |
| ReportView.InitialReportNeedsSignatureAndConsent | components/ReportView.tsx:320 | the default report cannot be confirmed |
| ReportView.Edit | components/ReportView.tsx:62-84 | a form edit succeeds exactly when the path setter does; on a falsy report it leaves a null report, otherwise it reads the value back at the path |
| ReportView.EditDotted | components/ReportView.tsx:177 | an edit of `section.field` on an existing section object replaces just that field |
| ReportView.SigningAndConsentingEnablesConfirmation | components/ReportView.tsx:281-320 | signing as A and ticking both consent boxes, in that order, enables confirmation |
| ReportView.SignStep | components/ReportView.tsx:281 | driver A's signature pad stores the signature in `signatures.A` and nothing else |
| ReportView.ConsentStep | components/ReportView.tsx:296-305 | a consent box sets that driver's flag and nothing else |
| ReportView.SignedAndConsented | components/ReportView.tsx:320 | a report with A's signature and both consents can be confirmed |
| ReportView.HandleSubmitChat | components/ReportView.tsx:56-60 | an answer is sent exactly when it is not all white space, and then the box is cleared; otherwise the box keeps it |
| ReportView.PrivateAgreementNoticeShown | components/ReportView.tsx:337 | the private-agreement notice shows exactly on the verification step for the UK, CA and NY profiles |
| GeminiService.KeyNameInjective | services/geminiService.ts:75 | distinct groups get distinct key names |
| GeminiService.MembersAreKeyed | services/geminiService.ts:74-79 | a file is in a group exactly when it is uploaded and its key is that group's key |
| GeminiService.GroupFiles | services/geminiService.ts:74-79 | the grouping has exactly the keys of the uploaded files |
| GeminiService.GroupIsMembers | services/geminiService.ts:74-79 | each group holds the files with its key, and a group exists exactly when such a file does |
| GeminiService.Names | services/geminiService.ts:38 | the listed names are the files' names in order |
| GeminiService.ListedIffSceneOrOwned | services/geminiService.ts:37-51 | a file's group is one of the five the prompt lists exactly when it is scene material or has an owner |
| GeminiService.PromptNamesListedFiles | services/geminiService.ts:37-51 | the extraction prompt names every file whose group is listed |
| GeminiService.PromptCarriesConfig | services/geminiService.ts:27-28 | the prompt always states the country profile and the response language |
| GeminiService.PromptCarriesLocation | services/geminiService.ts:52-54 | with a location the prompt carries its coordinates |
| GeminiService.FindVehicle | services/geminiService.ts:112 | the vehicle lookup yields a reply vehicle with that label, and nothing exactly when there is none |
| GeminiService.OrElse | services/geminiService.ts:112 | `text \|\| fallback` yields the fallback exactly for missing or empty text, and otherwise the text |
| GeminiService.Interpolated | services/geminiService.ts:114 | a missing value prints as "undefined" |
| GeminiService.DiagramBriefWithoutVehicle | services/geminiService.ts:109-114 | without a vehicle of that label the diagram prompt says "Not specified" for its manoeuvre and "undefined" for its impact |
| GeminiService.SketchBriefWithoutVehicle | services/geminiService.ts:130-135 | without a vehicle of that label the sketch prompt says "driving" and "undefined" |
| GeminiService.ScenePhotosAreSceneImages | services/geminiService.ts:104-106 | the diagram call receives exactly the uploaded scene files with an image type |
| GeminiService.AnalysisMessage | services/geminiService.ts:158-163 | a failure mentioning `API_KEY` gives the invalid-key message, and every other failure the connection message |
| GeminiService.BothSettled | services/geminiService.ts:150 | the joined calls succeed exactly when both do; otherwise the first rejection is the failure |
| GeminiService.ExtractReport | services/geminiService.ts:94-102 | an extraction succeeds exactly when the reply text is not blank and parses; a blank reply raises the empty-response error |
| GeminiService.Illustrate | services/geminiService.ts:104-153 | a failure of the diagram or sketch call fails the illustration; on success the diagram is the trimmed diagram reply and the sketch is the first image |
| GeminiService.Analyse | services/geminiService.ts:69-156 | a successful analysis read every file, took its questions from the reply (none when missing) and its drawings from the two side calls |
| GeminiService.ProcessMediaWithAI | services/geminiService.ts:64-165 | the service fails only with the invalid-key or the connection message, and on success returns the reply's questions or none |
| GeminiService.OwnMessagesLackKey | services/geminiService.ts:96 | the service's own errors never mention `API_KEY`, so they surface as the connection message |
| GeminiService.BlankExtractionFails | services/geminiService.ts:94-97 | a blank extraction reply fails the analysis with the connection message |
| GeminiService.SideCallFailureFailsAnalysis | services/geminiService.ts:150 | a failed diagram or sketch call fails the whole analysis |
| GeminiService.IllustrationFailureFailsAnalysis | services/geminiService.ts:150 | a failed illustration fails the analysis |
| GeminiService.AnalysisRequests | services/geminiService.ts:85-153 | a successful analysis had a non-blank parsed reply and successful diagram and sketch calls, its diagram is the trimmed diagram reply, and its sketch is the first image |
| GeminiService.QuestionList | services/geminiService.ts:182 | the question list starts with a bullet |
| GeminiService.QuestionListShowsEach | services/geminiService.ts:182 | the clarification prompt lists every pending question |
| GeminiService.ClarifyReportWithAI | services/geminiService.ts:167-211 | clarification succeeds exactly on a non-blank reply that parses, and fails only with its one message |
| AppLogic.ErrorText | hooks/useAppLogic.ts:85 | `message \|\| fallback` shows the message unless it is empty |
| AppLogic.StartApp | hooks/useAppLogic.ts:20-22 | starting moves to the country selector and changes nothing else |
| AppLogic.SetAppConfig | hooks/useAppLogic.ts:24-27 | choosing a country stores the configuration, moves to the upload step, and changes nothing else |
| AppLogic.ProceedToVerification | hooks/useAppLogic.ts:92-95 | continuing clears the warning, moves to verification, and changes nothing else |
| AppLogic.ReturnToUploadStep | hooks/useAppLogic.ts:97-100 | re-uploading clears the warning, moves to upload, and changes nothing else |
| AppLogic.GoBackToUpload | hooks/useAppLogic.ts:102-104 | going back changes only the step |
| AppLogic.Overlay | hooks/useAppLogic.ts:57 | a shallow spread over a default takes every property of the found entry and keeps the default's other properties |
| AppLogic.FindDriver | hooks/useAppLogic.ts:46-47 | the driver lookup yields a reply driver of that vehicle, and nothing exactly when there is none |
| AppLogic.FindInsurance | hooks/useAppLogic.ts:48-49 | the policy lookup yields a reply policy of that vehicle, and nothing exactly when there is none |
| AppLogic.FoundVehicleLabelled | hooks/useAppLogic.ts:44-45 | a vehicle found for a slot carries that slot's label and only schema properties |
| AppLogic.VehicleSlot | hooks/useAppLogic.ts:56-59 | a vehicle slot keeps the default's properties and label, takes every property of the reply vehicle with its label, and has no offences |
| AppLogic.DriverSlot | hooks/useAppLogic.ts:60-63 | a driver slot keeps the default's properties and vehicle, and takes every property of the reply driver of that vehicle |
| AppLogic.InsuranceSlot | hooks/useAppLogic.ts:64-67 | a policy slot keeps the default's properties and vehicle, and takes every property of the reply policy of that vehicle |
| AppLogic.SeededDiagram | hooks/useAppLogic.ts:55 | the seeded diagram is the generated SVG, the sketch when there is one, and the note "AI generated" |
| AppLogic.SeededFields | hooks/useAppLogic.ts:51-70 | the seeded report has every report section, and besides them only the reply's questions |
| AppLogic.SeededKeysOf | hooks/useAppLogic.ts:51-70 | the seeded report's properties are the report sections plus the reply's properties |
| AppLogic.SeededKeyWins | hooks/useAppLogic.ts:54-69 | the sections the seeding writes explicitly win over the reply and the default |
| AppLogic.SeedWritesLocale | hooks/useAppLogic.ts:54-69 | after seeding, the locale is the configured one and consent and signatures are the defaults |
| AppLogic.SeedWritesDiagram | hooks/useAppLogic.ts:55 | after seeding, the diagram is the generated one |
| AppLogic.SeedWritesSlots | hooks/useAppLogic.ts:56-67 | after seeding, vehicles, drivers and policies are exactly the A slot followed by the B slot |
| AppLogic.SeedCarriesQuestions | hooks/useAppLogic.ts:53 | the seeded report carries a questions property exactly when the reply had one |
| AppLogic.SeedHasNoWitnesses | hooks/useAppLogic.ts:52-53 | the seeded report has no witnesses |
| AppLogic.SeedCanLackGeo | hooks/useAppLogic.ts:52-53 | a reply accident without `geo` leaves the seeded report with an accident but no `accident.geo` |
| AppLogic.SeedTakesAccident | hooks/useAppLogic.ts:52-53 | the seeded accident is the reply's, taken wholesale, or the default when the reply has none |
| AppLogic.SeedKeepsSlots | hooks/useAppLogic.ts:56-67 | after seeding, slot 0 is labelled A, slot 1 B, there is no slot 2, and drivers and policies refer to A and B |
| AppLogic.VehicleSlotTakesLabelledEntry | hooks/useAppLogic.ts:44-58 | a slot holds every property of the one reply vehicle with its label |
| AppLogic.SeedTakesLabelledEntry | hooks/useAppLogic.ts:44-59 | the seeded report holds, in slot 0 for A and slot 1 for B, every property of the reply vehicle with that label |
| AppLogic.VehicleSlotsIgnoreOrder | hooks/useAppLogic.ts:44-45 | the vehicle slots do not depend on the order of the reply's vehicles when each label occurs once |
| AppLogic.SeedThroughSlots | hooks/useAppLogic.ts:51-70 | two replies that agree on the slots and on everything but the vehicles seed the same report |
| AppLogic.SeedIgnoresVehicleOrder | hooks/useAppLogic.ts:44-67 | reordering the reply's vehicles, each label occurring once, seeds the same report |
| AppLogic.BeginProcessing | hooks/useAppLogic.ts:30-39 | the warning is cleared; no files sets the upload error and keeps the step; otherwise the error is cleared, the loading message set and the step is processing |
| AppLogic.WarningOf | hooks/useAppLogic.ts:76 | the stored warning is the question's text, or `undefined` when it has none, and never null |
| AppLogic.SettleProcessing | hooks/useAppLogic.ts:42-89 | the loading message is cleared; a failure sets its message and returns to upload; a success stores the seeded report |
| AppLogic.QualityQuestionPauses | hooks/useAppLogic.ts:74-77 | with a quality question the step stays, the warning is the first one's text, and the stored questions are exactly the others, in their order |
| AppLogic.NoQualityQuestionOpensForm | hooks/useAppLogic.ts:78-81 | without a quality question all questions are stored and the step is verification |
| AppLogic.SettledAnalysisWarnsOrOpensForm | hooks/useAppLogic.ts:72-81 | a successful analysis stores an object report and either warns on the same step or opens the form |
| AppLogic.AnalysisOutcome | hooks/useAppLogic.ts:42 | the analysis fails only with the service's two messages, and without a configuration it fails |
| AppLogic.ServiceMessagesShown | hooks/useAppLogic.ts:85 | the service's messages are shown as they are |
| AppLogic.EmptyUploadRefused | hooks/useAppLogic.ts:33-36 | with no files, the handler sets the upload error and changes neither step, report, questions nor loading message |
| AppLogic.FailedAnalysisReturnsToUpload | hooks/useAppLogic.ts:83-89 | a failed analysis shows its message and returns to upload; the report and questions are untouched and loading is cleared |
| AppLogic.BlankReplyReturnsToUpload | hooks/useAppLogic.ts:83-89 | a blank extraction reply returns to upload with the connection message |
| AppLogic.AnalysedReportStored | hooks/useAppLogic.ts:72 | a successful analysis stores the seeded report, with no error and no loading message |
| AppLogic.IndexedProps | hooks/useAppLogic.ts:116 | spreading an array yields exactly its index keys with its items |
| AppLogic.OwnProps | hooks/useAppLogic.ts:115-116 | an object spreads its properties, an array its indexed items, a string its characters, null and booleans nothing |
| AppLogic.Restore | hooks/useAppLogic.ts:118-120 | restoring one property takes it from the previous report and leaves every other property alone |
| AppLogic.RestoreKept | hooks/useAppLogic.ts:118-120 | signatures, consent and diagram come from the previous report and every other property from the merge |
| AppLogic.MergeClarification | hooks/useAppLogic.ts:114-121 | signatures, consent and diagram are the previous report's; any other property is the reply's when it has it, else the previous one's |
| AppLogic.MergeIdempotent | hooks/useAppLogic.ts:114-121 | merging the same reply again changes nothing |
| AppLogic.ScalarReplyKeepsReport | hooks/useAppLogic.ts:116 | a null or boolean reply leaves the report as it was |
| AppLogic.StringReplySpreadsCharacters | hooks/useAppLogic.ts:116 | a string reply adds one property per character, keyed by its index |
| AppLogic.ReplyReplacesSectionWholesale | hooks/useAppLogic.ts:114-121 | a reply's section replaces the previous one whole, without matching vehicles by label |
| AppLogic.BeginClarification | hooks/useAppLogic.ts:107-110 | an answer starts a clarification exactly with a report and pending questions, clearing the error and setting the flag |
| AppLogic.SettleClarification | hooks/useAppLogic.ts:111-128 | the flag ends cleared; a failure only sets its message; a success stores the merged report and clears the questions |
| AppLogic.AnswerNeedsReportAndQuestions | hooks/useAppLogic.ts:107 | without a report or questions an answer changes nothing |
| AppLogic.FailedAnswerOnlySetsError | hooks/useAppLogic.ts:123-128 | a failed clarification only sets its message and clears the flag |
| AppLogic.AnswerMergesReply | hooks/useAppLogic.ts:111-128 | a clarified report is the merge with signatures, consent and diagram kept; the questions are cleared and the flag is off |
| AppLogic.BeginPackaging | hooks/useAppLogic.ts:131-134 | packaging starts exactly with a report, clearing the error and setting the loading message |
| AppLogic.SettlePackaging | hooks/useAppLogic.ts:135-143 | success moves to the generated step, failure sets the package error; loading is cleared and the report is untouched |
| AppLogic.PackagingOutcome | hooks/useAppLogic.ts:131-144 | a package request keeps report, files and questions, clears loading, and ends on the generated step or with the error |
| AppShell.OpeningInv | hooks/useAppLogic.ts:9-18 | the opening session satisfies the invariant |
| AppShell.NextKeepsInv | App.tsx:38-103 | every event keeps the invariant: the spinner is up exactly while the analysis or the package is in flight, a warning only on processing, and the form always has an object report |
| AppShell.RunKeepsInv | App.tsx:38-103 | every sequence of events keeps the invariant |
| AppShell.CorrectedNeverStuck | App.tsx:38-103 | with the modal shown for every stored warning, every reachable session has a usable control or a call in flight |
| AppShell.ToAnalysisReaches | App.tsx:40-53 | start, a country, a file and "Start Analysis" lead to an analysis in flight with that configuration |
| AppShell.DeadEndAsWritten | App.tsx:71-103 | on the processing step with an empty or undefined warning and nothing in flight, no event is possible |
| AppShell.StuckAsWritten | App.tsx:96-103 | an analysis whose first quality question has no text leaves processing with no spinner, no modal and no possible event |
| AppShell.CorrectedShowsWarning | App.tsx:97-103 | with the corrected guard, any quality question shows the modal with both of its buttons |
| AppShell.StuckReachable | App.tsx:97-103 | as written, a dead end is reachable from the opening session |
| AppShell.SubmitGuardMatchesHandler | hooks/useAppLogic.ts:29-39 | whenever "Start Analysis" is clickable, the hook skips its empty-files branch, starts the analysis and clears the error |
| AppShell.LocatedPositionReachesPrompt | services/geminiService.ts:52-53 | a reported position is stored, and the extraction prompt built from the stored location carries its coordinates |
| AppShell.SendDisabledWhileClarifying | components/ReportView.tsx:163-165 | no answer can be sent while a clarification is in flight, and the clarification can settle |

## Left out

- The network calls, the file reader, `JSON.parse` and the image bytes are oracles. They are the fields of `GeminiService.Services`.
- The outcomes of the three asynchronous calls are event parameters. A settled analysis, a settled clarification, and whether the package was produced all arrive as events.
- The packaging itself is not modelled. That covers the zip file, the download and the HTML template, which is presentation and foreign libraries. Only its success or failure is modelled.
- The diagram editor, the signature pad, previews, drag-over highlighting and the "getting location" button state are not modelled. They are DOM and canvas work. A signature is only an optional string.
- The prompts keep only their structure. Each keeps the lines that carry data: profile, language, the five media lines, the location, and the vehicle items. The fixed instruction prose is abbreviated.
- `JSON.stringify` of the report in the clarification prompt is not modelled. The clarification oracle receives the report value itself.
- Only the shape the response schema allows is parsed from an extraction reply. A reply outside the schema is left out.
- Numbers are not represented in `JsonValue.Json`. The clarification reply is any JSON value without numbers; the code does not constrain it further. A reply or a report that carries a number is outside the model, and the fact that the report holds no number stops holding once the application merges such a reply.
- Coordinates are kept as the text that reaches the prompt. Floating point is not modelled.
- The wall-clock default timestamp is an opaque text parameter, `loadedAt`.
- A kept section that was `undefined` in the previous report is stored as an absent property. A spread of `undefined` cannot be told apart from absence once the report is serialised.
- A clarification that settles without a previous report, or with a null one, leaves the report unchanged. There the code's updater would throw inside React, which is not modelled.
- A path edit that the path setter rejects changes nothing in `AppShell.Next`. The rejections are of two kinds. A `TypeError` is a case where the application throws inside the state updater: a write into `null`, a string or a boolean, or a step through an array's `length`. An `Unrepresentable` is a case where the application writes silently but the result has no `JsonValue.Json` form: an index past the end of an array gives a sparse array, a key that is not an index gives a named property on an array, and assigning `length` truncates or pads the array.
- ReportPaths.SetPath: inherited keys such as `constructor` or `__proto__` are not modelled. For them `current[key] === undefined` is false in the application, so it steps into the inherited value; the model treats them as ordinary missing keys.
- AppLogic.OwnProps: spreading a string in the application gives one property per UTF-16 code unit. The model gives one per Dafny character, so a character outside the Basic Multilingual Plane counts once here and twice there. `AppLogic.StringReplySpreadsCharacters` inherits this difference.
- JsonValue.Prop: a string's `length` and index keys, an array's `length`, and inherited keys all read as absent. The application would read a number, a one-character string, or an inherited member.
- An `undefined` sketch is treated as an absent one.
- The empty-files guard of `processMedia` is modelled. The page never reaches it, because the submit button is disabled without files; `AppShell.SubmitGuardMatchesHandler` proves this.
- Rendering errors of the form on a malformed report are not modelled. Neither are console logging and the alert boxes.
- AppShell.CorrectedNeverStuck: holds only for pages that render. The form events are enabled on any truthy report, but a report whose `accident` has no `geo` object makes the form throw while rendering (components/ReportView.tsx:178), and the page is blank under both wirings. `AppLogic.SeedCanLackGeo` shows that the seeding produces such a report from a schema-valid reply whose accident has no `geo`.
- MediaUploader.UpdateFile: an index past the end of the list is an error here. The application writes `{...undefined, ...updates}` at that index, which gives an entry with no file and owner `A`, with holes before it for a larger index; a list with holes or a file-less entry is not representable. The page only offers selectors for existing files, so `AppShell` never makes such a call.
- Async interleaving and React batching are not modelled. Each settling call is one atomic transition, and there is no stale-answer discard, as in the code.
- GeminiService.PromptNamesListedFiles: this lemma proves only that every listed file's name appears. It does not prove that an empty group adds no line, or that the lines follow the fixed order; the fixed order is the constant `MediaOrder`.
- GeminiService.PromptCarriesLocation: proves only that a given location appears. It does not prove that no location line appears without one.
- GeminiService.MembersAreKeyed: states group membership. It does not state that a group keeps the upload order.

## Findings

| source | as written | input that shows it | evidently intended | confidence | as-written member | corrected member |
|---|---|---|---|---|---|---|
| App.tsx:97 | the readability modal is rendered only while the stored warning is truthy, but the hook stores the quality question's text, which may be missing or empty, and leaves the step on processing | an extraction reply whose first `document_quality` question has an empty or missing `question` | show the modal whenever a warning was stored (`blurryDocumentWarning !== null`), so the user can continue or re-upload | not executed | AppShell.StuckReachable | AppShell.CorrectedNeverStuck |

=== FILE: app_logic.dfy ===
/** The session hook: the application state record and its handlers. Each
    asynchronous handler is split into the part that runs before its `await`
    (`Begin...`) and the part that runs when the awaited call settles
    (`Settle...`); the two merges of the session, the first-pass seeding of
    an extracted report and the clarification merge, are modelled as the
    shallow spreads the code writes. */
module AppLogic {
  import opened Base
  import opened JsonValue
  import opened Types
  import opened Constants
  import GeminiService

  /** A state that holds `null`, `undefined` or a string. */
  datatype NullableText = NullText | UndefinedText | Text(s: string)

  /** The ten pieces of state of the hook. The location is kept as the text
      of its coordinates; no report is `None`. */
  datatype AppState = AppState(
    step: AppStep,
    config: Option<AppConfig>,
    files: seq<UploadedFile>,
    report: Option<Json>,
    questions: seq<AIQuestion>,
    loading: Option<string>,
    error: Option<string>,
    warning: NullableText,
    location: Option<Location>,
    clarifying: bool)

  const Initial: AppState := AppState(LandingPage, None, [], None, [], None, None, NullText, None, false)

  const NoFilesMessage: string := "Please upload at least one file before proceeding."
  const AnalysingMessage: string := "AI is analyzing data..."
  const ProcessingFallback: string := "An error occurred while processing data with the AI."
  const ClarificationFallback: string := "An error occurred while processing your answer with the AI."
  const PackagingMessage: string := "Creating evidence package..."
  const PackagingFailure: string := "An error occurred while creating the report package."
  /** The message of the `TypeError` that reading `locale` of a missing
      configuration throws. */
  const NullLocaleText: string := "Cannot read properties of null (reading 'locale')"

  /** The outcome of the synchronous part of a handler: the new state, and
      whether the handler went on to its asynchronous call. */
  datatype Begun = Begun(state: AppState, started: bool)

  /** `(error as Error).message || fallback`. */
  function ErrorText(message: string, fallback: string): (r: string)
    ensures r == message <==> message != "" || fallback == ""
    ensures r != message ==> r == fallback
  {
    if message != "" then message else fallback
  }

  // ---------------------------------------------------------------------------
  // Navigation
  // ---------------------------------------------------------------------------

  /** The landing page's start button: on to choosing a country, nothing
      else changes. */
  function StartApp(st: AppState): (r: AppState)
    ensures r.step == SelectCountry
    ensures r.(step := st.step) == st
  {
    st.(step := SelectCountry)
  }

  /** Choosing a country and language stores them and opens the upload
      screen. */
  function SetAppConfig(st: AppState, config: AppConfig): (r: AppState)
    ensures r.config == Some(config) && r.step == UploadMedia
    ensures r.(config := st.config, step := st.step) == st
  {
    st.(config := Some(config), step := UploadMedia)
  }

  /** "Continue Anyway" on the readability warning. */
  function ProceedToVerification(st: AppState): (r: AppState)
    ensures r.warning == NullText && r.step == Verification
    ensures r.(warning := st.warning, step := st.step) == st
  {
    st.(warning := NullText, step := Verification)
  }

  /** "Re-upload" on the readability warning. */
  function ReturnToUploadStep(st: AppState): (r: AppState)
    ensures r.warning == NullText && r.step == UploadMedia
    ensures r.(warning := st.warning, step := st.step) == st
  {
    st.(warning := NullText, step := UploadMedia)
  }

  /** "Change/Add Files" on the report form: only the step changes. */
  function GoBackToUpload(st: AppState): (r: AppState)
    ensures r.step == UploadMedia
    ensures r.(step := st.step) == st
  {
    st.(step := UploadMedia)
  }

  // ---------------------------------------------------------------------------
  // Seeding the report from an analysis
  // ---------------------------------------------------------------------------

  /** `{...defaults, ...found}`: the default slot overlaid with the entry the
      reply gave for it, when there is one (spreading `undefined` adds
      nothing). */
  function Overlay(defaults: map<string, Json>, found: Option<map<string, Json>>): (r: map<string, Json>)
    ensures found.None? ==> r == defaults
    ensures found.Some? ==> r.Keys == defaults.Keys + found.value.Keys
    ensures found.Some? ==> forall k :: k in found.value ==> r[k] == found.value[k]
    ensures found.Some? ==> forall k :: k in defaults && k !in found.value ==> r[k] == defaults[k]
  {
    if found.Some? then defaults + found.value else defaults
  }

  /** `report.drivers?.find(d => d.vehicle === vehicle)`. */
  function FindDriver(drivers: Option<seq<PartialDriver>>, vehicle: string): (r: Option<PartialDriver>)
    ensures r.Some? ==> drivers.Some? && r.value in drivers.value && r.value.vehicle == Some(vehicle)
    ensures r.None? <==> drivers.None? || forall i :: 0 <= i < |drivers.value| ==> drivers.value[i].vehicle != Some(vehicle)
  {
    match drivers
    case None => None
    case Some(ds) => FirstWhere(ds, (d: PartialDriver) => d.vehicle == Some(vehicle))
  }

  /** `report.insurance?.find(i => i.vehicle === vehicle)`. */
  function FindInsurance(insurance: Option<seq<PartialInsurance>>, vehicle: string): (r: Option<PartialInsurance>)
    ensures r.Some? ==> insurance.Some? && r.value in insurance.value && r.value.vehicle == Some(vehicle)
    ensures r.None? <==> insurance.None? || forall i :: 0 <= i < |insurance.value| ==> insurance.value[i].vehicle != Some(vehicle)
  {
    match insurance
    case None => None
    case Some(ins) => FirstWhere(ins, (i: PartialInsurance) => i.vehicle == Some(vehicle))
  }

  /** The vehicle entry the reply gave for `slot`, as an object. */
  function FoundVehicle(report: PartialReport, slot: string): Option<map<string, Json>> {
    match GeminiService.FindVehicle(report, slot)
    case None => None
    case Some(v) => Some(VehicleFields(v))
  }

  function FoundDriver(drivers: Option<seq<PartialDriver>>, slot: string): Option<map<string, Json>> {
    match FindDriver(drivers, slot)
    case None => None
    case Some(d) => Some(DriverFields(d))
  }

  function FoundInsurance(insurance: Option<seq<PartialInsurance>>, slot: string): Option<map<string, Json>> {
    match FindInsurance(insurance, slot)
    case None => None
    case Some(i) => Some(InsuranceFields(i))
  }

  /** The entry found for `slot` carries that label and no offences. */
  lemma FoundVehicleLabelled(report: PartialReport, slot: string)
    ensures FoundVehicle(report, slot).Some? ==>
              FoundVehicle(report, slot).value.Keys <= SchemaVehicleProps
              && FoundVehicle(report, slot).value["label"] == JStr(slot)
  {
  }

  /** A seeded vehicle slot: it keeps the default slot's properties and its
      label, takes every property the reply's entry labelled `slot` gives,
      and has no alleged offences, which the reply cannot carry. */
  function VehicleSlot(report: PartialReport, slot: string): (r: map<string, Json>)
    ensures r.Keys == DefaultVehicle(slot).Keys
    ensures r["label"] == JStr(slot)
    ensures r["alleged_offences"] == JArr([])
    ensures FoundVehicle(report, slot).Some? ==>
              forall k :: k in FoundVehicle(report, slot).value ==> r[k] == FoundVehicle(report, slot).value[k]
    ensures forall k :: k in r && (FoundVehicle(report, slot).None? || k !in FoundVehicle(report, slot).value) ==>
              r[k] == DefaultVehicle(slot)[k]
  {
    FoundVehicleLabelled(report, slot);
    Overlay(DefaultVehicle(slot), FoundVehicle(report, slot))
  }

  /** A seeded driver slot: it still belongs to vehicle `slot`. */
  function DriverSlot(drivers: Option<seq<PartialDriver>>, slot: string): (r: map<string, Json>)
    ensures r.Keys == DefaultDriver(slot).Keys
    ensures r["vehicle"] == JStr(slot)
    ensures FoundDriver(drivers, slot).Some? ==>
              forall k :: k in FoundDriver(drivers, slot).value ==> r[k] == FoundDriver(drivers, slot).value[k]
    ensures forall k :: k in r && (FoundDriver(drivers, slot).None? || k !in FoundDriver(drivers, slot).value) ==>
              r[k] == DefaultDriver(slot)[k]
  {
    Overlay(DefaultDriver(slot), FoundDriver(drivers, slot))
  }

  /** A seeded insurance slot: it still belongs to vehicle `slot`. */
  function InsuranceSlot(insurance: Option<seq<PartialInsurance>>, slot: string): (r: map<string, Json>)
    ensures r.Keys == DefaultInsurance(slot).Keys
    ensures r["vehicle"] == JStr(slot)
    ensures FoundInsurance(insurance, slot).Some? ==>
              forall k :: k in FoundInsurance(insurance, slot).value ==> r[k] == FoundInsurance(insurance, slot).value[k]
    ensures forall k :: k in r && (FoundInsurance(insurance, slot).None? || k !in FoundInsurance(insurance, slot).value) ==>
              r[k] == DefaultInsurance(slot)[k]
  {
    Overlay(DefaultInsurance(slot), FoundInsurance(insurance, slot))
  }

  /** The diagram section of a seeded report. A sketch whose bytes are
      undefined leaves the property out. */
  function SeededDiagram(a: GeminiService.Analysis): (r: map<string, Json>)
    ensures r.Keys == {"svg", "notes"} + (if a.sketch.Some? then {"sketch_base64"} else {})
    ensures r["svg"] == JStr(a.diagram) && r["notes"] == JStr("AI generated")
    ensures a.sketch.Some? ==> r["sketch_base64"] == JStr(a.sketch.value)
  {
    map["svg" := JStr(a.diagram), "notes" := JStr("AI generated")]
    + (if a.sketch.Some? then map["sketch_base64" := JStr(a.sketch.value)] else map[])
  }

  /** Section `key` of `{...skeleton, ...reply, <the sections the seeding
      writes>}`: a section written by the seeding wins over the reply's,
      which wins over the skeleton's. */
  function SeedSection(loadedAt: string, a: GeminiService.Analysis, config: AppConfig, key: string): Json
    requires key in ReportSections || key in PartialFields(a.report)
  {
    if SeededKey(key) then SeededValue(a, config, key)
    else if key in PartialFields(a.report) then PartialFields(a.report)[key]
    else InitialReportFields(loadedAt)[key]
  }

  /** The sections the seeding writes itself. */
  predicate SeededKey(key: string) {
    key == "locale" || key == "diagram" || key == "vehicles" || key == "drivers"
    || key == "insurance" || key == "consent" || key == "signatures"
  }

  function SeededValue(a: GeminiService.Analysis, config: AppConfig, key: string): Json
    requires SeededKey(key)
  {
    if key == "locale" then JStr(LocaleCode(config.locale))
    else if key == "diagram" then JObj(SeededDiagram(a))
    else if key == "vehicles" then JArr([JObj(VehicleSlot(a.report, "A")), JObj(VehicleSlot(a.report, "B"))])
    else if key == "drivers" then JArr([JObj(DriverSlot(a.report.drivers, "A")), JObj(DriverSlot(a.report.drivers, "B"))])
    else if key == "insurance" then JArr([JObj(InsuranceSlot(a.report.insurance, "A")), JObj(InsuranceSlot(a.report.insurance, "B"))])
    else if key == "consent" then DefaultConsent
    else DefaultSignatures
  }

  /** The first-pass report has every report section and, besides them,
      only the reply's `questions`. */
  function SeededFields(loadedAt: string, a: GeminiService.Analysis, config: AppConfig): (r: map<string, Json>)
    ensures forall k :: k in ReportSections ==> k in r
    ensures forall k :: k in r ==> k in ReportSections || k == "questions"
  {
    map k | k in ReportSections + PartialFields(a.report).Keys :: SeedSection(loadedAt, a, config, k)
  }

  function Seed(loadedAt: string, a: GeminiService.Analysis, config: AppConfig): Json {
    JObj(SeededFields(loadedAt, a, config))
  }

  /** A section the seeding writes holds what the seeding wrote, whatever
      the reply held. */
  lemma SeededKeyWins(loadedAt: string, a: GeminiService.Analysis, config: AppConfig, key: string)
    requires SeededKey(key)
    ensures key in SeededFields(loadedAt, a, config)
    ensures SeededFields(loadedAt, a, config)[key] == SeededValue(a, config, key)
  {
    assert key in ReportSections;
    assert SeededFields(loadedAt, a, config)[key] == SeedSection(loadedAt, a, config, key);
  }

  /** The locale is the configured one; consent and signatures are the
      empty defaults. */
  lemma SeedWritesLocale(loadedAt: string, a: GeminiService.Analysis, config: AppConfig)
    ensures var r := SeededFields(loadedAt, a, config);
            r["locale"] == JStr(LocaleCode(config.locale))
            && r["consent"] == DefaultConsent && r["signatures"] == DefaultSignatures
  {
    SeededKeyWins(loadedAt, a, config, "locale");
    SeededKeyWins(loadedAt, a, config, "consent");
    SeededKeyWins(loadedAt, a, config, "signatures");
  }

  /** The diagram is the analysis's drawing and sketch. */
  lemma SeedWritesDiagram(loadedAt: string, a: GeminiService.Analysis, config: AppConfig)
    ensures SeededFields(loadedAt, a, config)["diagram"] == JObj(SeededDiagram(a))
  {
    SeededKeyWins(loadedAt, a, config, "diagram");
  }

  /** Vehicles, drivers and insurance are the A and B slots. */
  lemma SeedWritesSlots(loadedAt: string, a: GeminiService.Analysis, config: AppConfig)
    ensures var r := SeededFields(loadedAt, a, config);
            r["vehicles"] == JArr([JObj(VehicleSlot(a.report, "A")), JObj(VehicleSlot(a.report, "B"))])
            && r["drivers"] == JArr([JObj(DriverSlot(a.report.drivers, "A")), JObj(DriverSlot(a.report.drivers, "B"))])
            && r["insurance"] == JArr([JObj(InsuranceSlot(a.report.insurance, "A")), JObj(InsuranceSlot(a.report.insurance, "B"))])
  {
    SeededKeyWins(loadedAt, a, config, "vehicles");
    SeededKeyWins(loadedAt, a, config, "drivers");
    SeededKeyWins(loadedAt, a, config, "insurance");
  }

  lemma QuestionsNotASection()
    ensures "questions" !in ReportSections
  {
    assert "questions"[0] == 'q';
  }

  /** The reply's `questions` property is carried into the report. */
  lemma SeedCarriesQuestions(loadedAt: string, a: GeminiService.Analysis, config: AppConfig)
    ensures "questions" in SeededFields(loadedAt, a, config) <==> a.report.questions.Some?
  {
    var r := SeededFields(loadedAt, a, config);
    var reply := PartialFields(a.report);
    QuestionsNotASection();
    assert "questions" in reply <==> a.report.questions.Some?;
    assert "questions" in r <==> "questions" in ReportSections + reply.Keys;
  }

  /** The witnesses stay the skeleton's empty list: the reply cannot hold
      any. */
  lemma SeedHasNoWitnesses(loadedAt: string, a: GeminiService.Analysis, config: AppConfig)
    ensures SeededFields(loadedAt, a, config)["witnesses"] == JArr([])
  {
    SchemaCoverage(a.report, PartialVehicle(None, None, None, None, None));
    var key := "witnesses";
    assert key in ReportSections && key !in PartialFields(a.report);
    var s := SeedSection(loadedAt, a, config, key);
    assert s == InitialReportFields(loadedAt)[key];
    assert SeededFields(loadedAt, a, config)[key] == s;
  }

  /** The reply's accident section is taken wholesale when it gave one (so
      a reply without a `geo` part drops the skeleton's), and the
      skeleton's is kept otherwise. */
  lemma SeedTakesAccident(loadedAt: string, a: GeminiService.Analysis, config: AppConfig)
    ensures a.report.accident.Some? ==>
              SeededFields(loadedAt, a, config)["accident"] == JObj(AccidentFields(a.report.accident.value))
    ensures a.report.accident.None? ==> SeededFields(loadedAt, a, config)["accident"] == DefaultAccident(loadedAt)
  {
    var key := "accident";
    assert key in ReportSections && !SeededKey(key);
    var s := SeedSection(loadedAt, a, config, key);
    assert s == if key in PartialFields(a.report) then PartialFields(a.report)[key] else InitialReportFields(loadedAt)[key];
    assert SeededFields(loadedAt, a, config)[key] == s;
  }

  /** The response schema requires no property, so a reply may give an
      accident without `geo`; the seeded report then has no
      `accident.geo`, which the report form reads unguarded. */
  lemma SeedCanLackGeo(loadedAt: string, a: GeminiService.Analysis, config: AppConfig)
    requires a.report.accident.Some? && a.report.accident.value.geo.None?
    ensures GetPath(Seed(loadedAt, a, config), ["accident"]).Some?
    ensures GetPath(Seed(loadedAt, a, config), ["accident", "geo"]).None?
  {
    SeedTakesAccident(loadedAt, a, config);
    assert "geo" !in AccidentFields(a.report.accident.value);
    assert ["accident", "geo"][1..] == ["geo"];
  }

  /** Whatever order the reply lists vehicles, drivers and insurance in,
      the seeded slots are labelled A then B and belong to A then B. */
  lemma SeedKeepsSlots(loadedAt: string, a: GeminiService.Analysis, config: AppConfig)
    ensures GetPath(Seed(loadedAt, a, config), ["vehicles", "0", "label"]) == Some(JStr("A"))
    ensures GetPath(Seed(loadedAt, a, config), ["vehicles", "1", "label"]) == Some(JStr("B"))
    ensures GetPath(Seed(loadedAt, a, config), ["vehicles", "2"]) == None
    ensures GetPath(Seed(loadedAt, a, config), ["drivers", "0", "vehicle"]) == Some(JStr("A"))
    ensures GetPath(Seed(loadedAt, a, config), ["drivers", "1", "vehicle"]) == Some(JStr("B"))
    ensures GetPath(Seed(loadedAt, a, config), ["insurance", "0", "vehicle"]) == Some(JStr("A"))
    ensures GetPath(Seed(loadedAt, a, config), ["insurance", "1", "vehicle"]) == Some(JStr("B"))
  {
    var m := SeededFields(loadedAt, a, config);
    SeedWritesSlots(loadedAt, a, config);
    PairSlotPaths(m, "vehicles", VehicleSlot(a.report, "A"), VehicleSlot(a.report, "B"), "label");
    PairSlotPaths(m, "drivers", DriverSlot(a.report.drivers, "A"), DriverSlot(a.report.drivers, "B"), "vehicle");
    PairSlotPaths(m, "insurance", InsuranceSlot(a.report.insurance, "A"), InsuranceSlot(a.report.insurance, "B"), "vehicle");
  }

  /** The array index of a driver's slot. */
  function SlotIndex(o: Owner): string {
    if o == A then "0" else "1"
  }

  /** A vehicle slot takes every property of the one reply entry carrying
      its label, wherever that entry stands in the reply. */
  lemma VehicleSlotTakesLabelledEntry(report: PartialReport, slot: string, i: nat, k: string)
    requires report.vehicles.Some? && i < |report.vehicles.value|
    requires report.vehicles.value[i].vehicleLabel == Some(slot)
    requires forall j :: 0 <= j < |report.vehicles.value| && j != i ==>
               report.vehicles.value[j].vehicleLabel != Some(slot)
    requires k in VehicleFields(report.vehicles.value[i])
    ensures k in VehicleSlot(report, slot)
    ensures VehicleSlot(report, slot)[k] == VehicleFields(report.vehicles.value[i])[k]
  {
    var vs := report.vehicles.value;
    var found := GeminiService.FindVehicle(report, slot);
    assert found == Some(vs[i]) by {
      var f := found.value;
      assert f in vs;
    }
  }

  /** The seeded report's vehicle A (at index 0) or B (at index 1) takes
      every property of the one reply entry carrying that label. */
  lemma SeedTakesLabelledEntry(loadedAt: string, a: GeminiService.Analysis, config: AppConfig, o: Owner, i: nat, k: string)
    requires a.report.vehicles.Some? && i < |a.report.vehicles.value|
    requires a.report.vehicles.value[i].vehicleLabel == Some(OwnerName(o))
    requires forall j :: 0 <= j < |a.report.vehicles.value| && j != i ==>
               a.report.vehicles.value[j].vehicleLabel != Some(OwnerName(o))
    requires k in VehicleFields(a.report.vehicles.value[i])
    ensures GetPath(Seed(loadedAt, a, config), ["vehicles", SlotIndex(o), k])
            == Some(VehicleFields(a.report.vehicles.value[i])[k])
  {
    VehicleSlotTakesLabelledEntry(a.report, OwnerName(o), i, k);
    SeedVehicleField(loadedAt, a, config, o, k);
  }

  /** Reading a property of a seeded vehicle slot. */
  lemma SeedVehicleField(loadedAt: string, a: GeminiService.Analysis, config: AppConfig, o: Owner, k: string)
    requires k in VehicleSlot(a.report, OwnerName(o))
    ensures GetPath(Seed(loadedAt, a, config), ["vehicles", SlotIndex(o), k]) == Some(VehicleSlot(a.report, OwnerName(o))[k])
  {
    var x, y := VehicleSlot(a.report, "A"), VehicleSlot(a.report, "B");
    var m := SeededFields(loadedAt, a, config);
    SeedVehicles(loadedAt, a, config);
    assert Seed(loadedAt, a, config) == JObj(m);
    match o
    case A => SlotFieldPath(m, "vehicles", x, y, k, false);
    case B => SlotFieldPath(m, "vehicles", x, y, k, true);
  }

  lemma SeedVehicles(loadedAt: string, a: GeminiService.Analysis, config: AppConfig)
    ensures "vehicles" in SeededFields(loadedAt, a, config)
    ensures SeededFields(loadedAt, a, config)["vehicles"]
            == JArr([JObj(VehicleSlot(a.report, "A")), JObj(VehicleSlot(a.report, "B"))])
  {
    SeededKeyWins(loadedAt, a, config, "vehicles");
  }

  /** Reading a field of the first or the second slot of a two-slot
      section. */
  lemma SlotFieldPath(m: map<string, Json>, section: string, x: map<string, Json>, y: map<string, Json>, field: string, second: bool)
    requires section in m && m[section] == JArr([JObj(x), JObj(y)])
    requires field in (if second then y else x)
    ensures GetPath(JObj(m), [section, if second then "1" else "0", field]) == Some((if second then y else x)[field])
  {
    var slot := if second then y else x;
    var index := if second then "1" else "0";
    PairPath(JObj(x), JObj(y), [field]);
    SectionStep(m, section, [index, field]);
    assert [section, index, field] == [section] + [index, field];
    assert [index, field] == [index] + [field];
    assert [field] == [field] + [];
    assert GetPath(slot[field], []) == Some(slot[field]);
  }

  /** The vehicle slots do not depend on the order of the reply's vehicle
      list when each label is given by one entry. */
  lemma VehicleSlotsIgnoreOrder(p: PartialReport, q: PartialReport)
    requires p.vehicles.Some? && q.vehicles.Some?
    requires forall v :: v in p.vehicles.value <==> v in q.vehicles.value
    requires forall v, w :: (v in p.vehicles.value && w in p.vehicles.value && v.vehicleLabel == w.vehicleLabel
                             && (v.vehicleLabel == Some("A") || v.vehicleLabel == Some("B"))) ==> v == w
    ensures VehicleSlot(p, "A") == VehicleSlot(q, "A") && VehicleSlot(p, "B") == VehicleSlot(q, "B")
  {
    var isA := (v: PartialVehicle) => v.vehicleLabel == Some("A");
    var isB := (v: PartialVehicle) => v.vehicleLabel == Some("B");
    FirstWhereOrderIndependent(p.vehicles.value, q.vehicles.value, isA);
    FirstWhereOrderIndependent(p.vehicles.value, q.vehicles.value, isB);
    assert GeminiService.FindVehicle(p, "A") == GeminiService.FindVehicle(q, "A");
    assert GeminiService.FindVehicle(p, "B") == GeminiService.FindVehicle(q, "B");
    assert FoundVehicle(p, "A") == FoundVehicle(q, "A");
    assert FoundVehicle(p, "B") == FoundVehicle(q, "B");
  }

  /** Two replies that differ only in their vehicle list spread the same
      properties apart from `vehicles`. */
  lemma RepliesAgreeOffVehicles(p: PartialReport, q: PartialReport)
    requires p.vehicles.Some? && q.vehicles.Some?
    requires q == p.(vehicles := q.vehicles)
    ensures PartialFields(p).Keys == PartialFields(q).Keys
    ensures forall k :: k in PartialFields(p) && k != "vehicles" ==> PartialFields(p)[k] == PartialFields(q)[k]
  {
    assert forall k :: k != "vehicles" ==> SectionValue(p, k) == SectionValue(q, k);
  }

  /** The seeded report depends on the reply's vehicle list only through
      the two vehicle slots. */
  lemma SeedThroughSlots(loadedAt: string, a: GeminiService.Analysis, b: GeminiService.Analysis, config: AppConfig)
    requires a.diagram == b.diagram && a.sketch == b.sketch
    requires VehicleSlot(a.report, "A") == VehicleSlot(b.report, "A") && VehicleSlot(a.report, "B") == VehicleSlot(b.report, "B")
    requires a.report.drivers == b.report.drivers && a.report.insurance == b.report.insurance
    requires PartialFields(a.report).Keys == PartialFields(b.report).Keys
    requires forall k :: k in PartialFields(a.report) && k != "vehicles" ==>
               PartialFields(a.report)[k] == PartialFields(b.report)[k]
    ensures Seed(loadedAt, a, config) == Seed(loadedAt, b, config)
  {
    var ma, mb := SeededFields(loadedAt, a, config), SeededFields(loadedAt, b, config);
    SeededKeysOf(loadedAt, a, config);
    SeededKeysOf(loadedAt, b, config);
    forall k | k in ma ensures k in mb && ma[k] == mb[k] {
      SeededAt(loadedAt, a, config, k);
      SeededAt(loadedAt, b, config, k);
      SeedSectionsAgree(loadedAt, a, b, config, k);
    }
    SameMaps(ma, mb);
  }

  lemma SeededAt(loadedAt: string, a: GeminiService.Analysis, config: AppConfig, k: string)
    requires k in SeededFields(loadedAt, a, config)
    ensures k in ReportSections || k in PartialFields(a.report)
    ensures SeededFields(loadedAt, a, config)[k] == SeedSection(loadedAt, a, config, k)
  {
    SeededKeysOf(loadedAt, a, config);
  }

  /** Two maps with the same keys and the same value at every key are
      equal. */
  lemma SameMaps<K, V>(m: map<K, V>, n: map<K, V>)
    requires forall k :: k in m <==> k in n
    requires forall k :: k in m ==> m[k] == n[k]
    ensures m == n
  {
    assert m.Keys == n.Keys;
  }

  lemma SeededKeysOf(loadedAt: string, a: GeminiService.Analysis, config: AppConfig)
    ensures SeededFields(loadedAt, a, config).Keys == ReportSections + PartialFields(a.report).Keys
  {
  }

  lemma SeedSectionsAgree(loadedAt: string, a: GeminiService.Analysis, b: GeminiService.Analysis, config: AppConfig, k: string)
    requires a.diagram == b.diagram && a.sketch == b.sketch
    requires VehicleSlot(a.report, "A") == VehicleSlot(b.report, "A") && VehicleSlot(a.report, "B") == VehicleSlot(b.report, "B")
    requires a.report.drivers == b.report.drivers && a.report.insurance == b.report.insurance
    requires PartialFields(a.report).Keys == PartialFields(b.report).Keys
    requires forall k :: k in PartialFields(a.report) && k != "vehicles" ==>
               PartialFields(a.report)[k] == PartialFields(b.report)[k]
    requires k in ReportSections || k in PartialFields(a.report)
    ensures SeedSection(loadedAt, a, config, k) == SeedSection(loadedAt, b, config, k)
  {
    if k == "locale" || k == "diagram" || k == "vehicles" || k == "drivers" || k == "insurance"
       || k == "consent" || k == "signatures" {
    } else if k in PartialFields(a.report) {
      assert SeedSection(loadedAt, a, config, k) == PartialFields(a.report)[k];
      assert SeedSection(loadedAt, b, config, k) == PartialFields(b.report)[k];
    } else {
      assert SeedSection(loadedAt, a, config, k) == InitialReportFields(loadedAt)[k];
      assert SeedSection(loadedAt, b, config, k) == InitialReportFields(loadedAt)[k];
    }
  }

  /** The seeded report does not depend on the order in which the reply
      lists its vehicles, when each label is given by one entry. */
  lemma SeedIgnoresVehicleOrder(loadedAt: string, a: GeminiService.Analysis, config: AppConfig, vs: seq<PartialVehicle>)
    requires a.report.vehicles.Some?
    requires forall v :: v in vs <==> v in a.report.vehicles.value
    requires forall v, w :: (v in vs && w in vs && v.vehicleLabel == w.vehicleLabel
                             && (v.vehicleLabel == Some("A") || v.vehicleLabel == Some("B"))) ==> v == w
    ensures var b := a.(report := a.report.(vehicles := Some(vs)));
            Seed(loadedAt, b, config) == Seed(loadedAt, a, config)
  {
    var b := a.(report := a.report.(vehicles := Some(vs)));
    VehicleSlotsIgnoreOrder(b.report, a.report);
    RepliesAgreeOffVehicles(b.report, a.report);
    SeedThroughSlots(loadedAt, b, a, config);
  }

  // ---------------------------------------------------------------------------
  // Processing the evidence
  // ---------------------------------------------------------------------------

  /** The synchronous part of "Start Analysis": the error and the warning
      are cleared; with no files the error asks for one and nothing else
      changes; otherwise the spinner shows and the step becomes
      `Processing`. */
  function BeginProcessing(st: AppState): (r: Begun)
    ensures r.started <==> st.files != []
    ensures r.state.warning == NullText
    ensures !r.started ==> r.state.error == Some(NoFilesMessage) && r.state.step == st.step
                           && r.state == st.(error := r.state.error, warning := NullText)
    ensures r.started ==> r.state.error == None && r.state.step == Processing
                          && r.state.loading == Some(AnalysingMessage)
                          && r.state == st.(error := None, warning := NullText, loading := r.state.loading, step := Processing)
  {
    var cleared := st.(error := None, warning := NullText);
    if |st.files| == 0 then Begun(cleared.(error := Some(NoFilesMessage)), false)
    else Begun(cleared.(loading := Some(AnalysingMessage), step := Processing), true)
  }

  /** A follow-up question about the readability of a document. */
  predicate IsQualityQuestion(q: AIQuestion) {
    q.field == Some("document_quality")
  }

  predicate NotQuality(q: AIQuestion) {
    !IsQualityQuestion(q)
  }

  /** `q.question` stored as the warning: `undefined` when the question has
      no text. Either way the warning is no longer `null`. */
  function WarningOf(q: AIQuestion): (w: NullableText)
    ensures w != NullText
    ensures q.question.Some? <==> w.Text?
    ensures q.question.Some? ==> w.s == q.question.value
  {
    match q.question
    case None => UndefinedText
    case Some(t) => Text(t)
  }

  /** The continuation of "Start Analysis" once the analysis settles. A
      failure shows its message (or a fallback for an empty one) and goes
      back to the upload screen, leaving report and questions alone. A
      success stores the seeded report; reading the configuration's locale
      throws when there is no configuration. The spinner goes in every
      case. */
  function SettleProcessing(loadedAt: string, st: AppState, outcome: Result<GeminiService.Analysis, string>): (r: AppState)
    ensures r.loading == None
    ensures r.files == st.files && r.config == st.config && r.location == st.location
            && r.clarifying == st.clarifying
    ensures outcome.Err? ==>
              r == st.(error := Some(ErrorText(outcome.error, ProcessingFallback)), step := UploadMedia, loading := None)
    ensures outcome.Ok? && st.config.None? ==>
              r == st.(error := Some(NullLocaleText), step := UploadMedia, loading := None)
    ensures outcome.Ok? && st.config.Some? ==>
              r.report == Some(Seed(loadedAt, outcome.value, st.config.value)) && r.error == st.error
  {
    match outcome
    case Err(message) => st.(error := Some(ErrorText(message, ProcessingFallback)), step := UploadMedia, loading := None)
    case Ok(a) =>
      match st.config
      case None => st.(error := Some(NullLocaleText), step := UploadMedia, loading := None)
      case Some(config) =>
        TriageQuestions(st.(report := Some(Seed(loadedAt, a, config)), loading := None), a.questions)
  }

  /** What the questions of a settled analysis do to the session: the
      first readability question becomes the warning and the others are
      stored; without one, all are stored and the form opens. */
  function TriageQuestions(st: AppState, qs: seq<AIQuestion>): AppState {
    match FirstWhere(qs, IsQualityQuestion)
    case Some(q) => st.(warning := WarningOf(q), questions := Filter(qs, NotQuality))
    case None => st.(questions := qs, step := Verification)
  }

  /** A readability question pauses the session: the step stays where it
      was, the warning is the first such question's text, and the stored
      questions are all the others, none of them about readability. */
  lemma QualityQuestionPauses(loadedAt: string, st: AppState, a: GeminiService.Analysis)
    requires st.config.Some?
    requires exists i :: 0 <= i < |a.questions| && IsQualityQuestion(a.questions[i])
    ensures var r := SettleProcessing(loadedAt, st, Ok(a));
            r.step == st.step
            && (exists i :: 0 <= i < |a.questions| && IsQualityQuestion(a.questions[i])
                            && (forall j :: 0 <= j < i ==> !IsQualityQuestion(a.questions[j]))
                            && r.warning == WarningOf(a.questions[i]))
            && (forall j :: 0 <= j < |r.questions| ==> !IsQualityQuestion(r.questions[j]))
            && (forall j :: 0 <= j < |a.questions| && !IsQualityQuestion(a.questions[j]) ==> a.questions[j] in r.questions)
    ensures SettleProcessing(loadedAt, st, Ok(a)).questions == Filter(a.questions, NotQuality)
    ensures forall q :: q in SettleProcessing(loadedAt, st, Ok(a)).questions <==> q in a.questions && !IsQualityQuestion(q)
  {
    var seeded := st.(report := Some(Seed(loadedAt, a, st.config.value)), loading := None);
    assert SettleProcessing(loadedAt, st, Ok(a)) == TriageQuestions(seeded, a.questions);
    TriagePauses(seeded, a.questions);
  }

  lemma TriagePauses(st: AppState, qs: seq<AIQuestion>)
    requires exists i :: 0 <= i < |qs| && IsQualityQuestion(qs[i])
    ensures var r := TriageQuestions(st, qs);
            r.step == st.step
            && (exists i :: 0 <= i < |qs| && IsQualityQuestion(qs[i])
                            && (forall j :: 0 <= j < i ==> !IsQualityQuestion(qs[j]))
                            && r.warning == WarningOf(qs[i]))
            && (forall j :: 0 <= j < |r.questions| ==> !IsQualityQuestion(r.questions[j]))
            && (forall j :: 0 <= j < |qs| && !IsQualityQuestion(qs[j]) ==> qs[j] in r.questions)
    ensures TriageQuestions(st, qs).questions == Filter(qs, NotQuality)
    ensures forall q :: q in TriageQuestions(st, qs).questions <==> q in qs && !IsQualityQuestion(q)
  {
    var found := FirstWhere(qs, IsQualityQuestion);
    assert found.Some?;
    var i :| 0 <= i < |qs| && qs[i] == found.value && forall j :: 0 <= j < i ==> !IsQualityQuestion(qs[j]);
    assert IsQualityQuestion(qs[i]);
  }

  /** Without a readability question every question is stored and the
      form opens. */
  lemma NoQualityQuestionOpensForm(loadedAt: string, st: AppState, a: GeminiService.Analysis)
    requires st.config.Some?
    requires forall i :: 0 <= i < |a.questions| ==> !IsQualityQuestion(a.questions[i])
    ensures var r := SettleProcessing(loadedAt, st, Ok(a));
            r.step == Verification && r.questions == a.questions && r.warning == st.warning
  {
    assert FirstWhere(a.questions, IsQualityQuestion).None?;
  }

  /** A settled analysis either stops on the readability warning, still on
      the step it had, or opens the form with the warning untouched; the
      report is then an object. */
  lemma SettledAnalysisWarnsOrOpensForm(loadedAt: string, st: AppState, a: GeminiService.Analysis)
    requires st.config.Some?
    ensures var r := SettleProcessing(loadedAt, st, Ok(a));
            r.report.Some? && r.report.value.JObj?
            && ((r.warning != NullText && r.step == st.step) || (r.warning == st.warning && r.step == Verification))
  {
    if exists i :: 0 <= i < |a.questions| && IsQualityQuestion(a.questions[i]) {
      QualityQuestionPauses(loadedAt, st, a);
    } else {
      NoQualityQuestionOpensForm(loadedAt, st, a);
    }
  }

  /** What `processMediaWithAI` answers for the session's files,
      configuration and location; without a configuration, building the
      prompt throws inside the service, which reports a connection
      failure. */
  function AnalysisOutcome(s: GeminiService.Services, st: AppState): (r: Result<GeminiService.Analysis, string>)
    ensures r.Err? ==> r.error == GeminiService.InvalidKeyMessage || r.error == GeminiService.ConnectionMessage
    ensures st.config.None? ==> r == Err(GeminiService.ConnectionMessage)
  {
    match st.config
    case None => Err(GeminiService.ConnectionMessage)
    case Some(c) => GeminiService.ProcessMediaWithAI(s, st.files, c, st.location)
  }

  /** `processMedia` from the click to the settled analysis, with nothing
      else happening in between. */
  function ProcessMedia(loadedAt: string, s: GeminiService.Services, st: AppState): AppState {
    var b := BeginProcessing(st);
    if !b.started then b.state else SettleProcessing(loadedAt, b.state, AnalysisOutcome(s, b.state))
  }

  /** Both messages of the service are non-empty, so they are shown as
      they are. */
  lemma ServiceMessagesShown(m: string)
    requires m == GeminiService.InvalidKeyMessage || m == GeminiService.ConnectionMessage
    ensures ErrorText(m, ProcessingFallback) == m
  {
    assert |GeminiService.InvalidKeyMessage| > 0;
    assert |"Could not connect"| > 0;
  }

  /** Without files, "Start Analysis" only asks for one: the step, the
      report and the spinner stay as they were. */
  lemma EmptyUploadRefused(loadedAt: string, s: GeminiService.Services, st: AppState)
    requires st.files == []
    ensures var r := ProcessMedia(loadedAt, s, st);
            r.error == Some(NoFilesMessage) && r.step == st.step && r.report == st.report
            && r.questions == st.questions && r.loading == st.loading && r.warning == NullText
  {
  }

  /** A failed analysis returns to the upload screen with the service's
      message, leaves the report and the questions as they were, and
      removes the spinner. */
  lemma FailedAnalysisReturnsToUpload(loadedAt: string, s: GeminiService.Services, st: AppState)
    requires st.files != [] && AnalysisOutcome(s, st).Err?
    ensures var r := ProcessMedia(loadedAt, s, st);
            r.step == UploadMedia && r.error == Some(AnalysisOutcome(s, st).error)
            && (r.error == Some(GeminiService.InvalidKeyMessage) || r.error == Some(GeminiService.ConnectionMessage))
            && r.report == st.report && r.questions == st.questions
            && r.loading == None && r.warning == NullText
  {
    var b := BeginProcessing(st);
    assert AnalysisOutcome(s, b.state) == AnalysisOutcome(s, st);
    ServiceMessagesShown(AnalysisOutcome(s, st).error);
  }

  /** A blank extraction reply sends the user back to the upload screen
      with the connection message. */
  lemma BlankReplyReturnsToUpload(loadedAt: string, s: GeminiService.Services, st: AppState)
    requires st.files != [] && st.config.Some?
    requires forall i :: 0 <= i < |st.files| ==> s.readable(st.files[i])
    requires var reply := s.extract(GeminiService.ExtractionRequestFor(st.files, st.config.value, st.location));
             reply.Ok? && reply.value.Some? && AllSpace(reply.value.value)
    ensures ProcessMedia(loadedAt, s, st).step == UploadMedia
    ensures ProcessMedia(loadedAt, s, st).error == Some(GeminiService.ConnectionMessage)
  {
    GeminiService.BlankExtractionFails(s, st.files, st.config.value, st.location);
    FailedAnalysisReturnsToUpload(loadedAt, s, st);
  }

  /** A successful analysis stores the seeded report, with no error and no
      spinner left. */
  lemma AnalysedReportStored(loadedAt: string, s: GeminiService.Services, st: AppState)
    requires st.files != [] && st.config.Some? && AnalysisOutcome(s, st).Ok?
    ensures var r := ProcessMedia(loadedAt, s, st);
            r.report == Some(Seed(loadedAt, AnalysisOutcome(s, st).value, st.config.value))
            && r.error == None && r.loading == None
  {
    var b := BeginProcessing(st);
    assert AnalysisOutcome(s, b.state) == AnalysisOutcome(s, st);
  }

  // ---------------------------------------------------------------------------
  // Clarifying the report
  // ---------------------------------------------------------------------------

  /** The spellings of the indices `0 <= i < n`. */
  function IndexKeys(n: nat): set<string> {
    set i | 0 <= i < n :: NatToDecimal(i)
  }

  lemma IndexKeysDecode(n: nat)
    ensures forall k :: k in IndexKeys(n) ==> AllDigits(k) && DecimalValue(k) < n
  {
    forall k | k in IndexKeys(n) ensures AllDigits(k) && DecimalValue(k) < n {
      var i :| 0 <= i < n && k == NatToDecimal(i);
      DecimalValueOfNatToDecimal(i);
    }
  }

  /** The own enumerable properties of a list of elements: one per index,
      keyed by the index's decimal spelling. */
  function IndexedProps(items: seq<Json>): (r: map<string, Json>)
    ensures forall i :: 0 <= i < |items| ==> NatToDecimal(i) in r && r[NatToDecimal(i)] == items[i]
    ensures forall k :: k in r ==> AllDigits(k) && exists i :: 0 <= i < |items| && k == NatToDecimal(i)
  {
    IndexKeysDecode(|items|);
    var r := map k | k in IndexKeys(|items|) :: items[DecimalValue(k)];
    assert forall i :: 0 <= i < |items| ==> NatToDecimal(i) in r && r[NatToDecimal(i)] == items[i] by {
      forall i | 0 <= i < |items| ensures NatToDecimal(i) in r && r[NatToDecimal(i)] == items[i] {
        DecimalValueOfNatToDecimal(i);
      }
    }
    r
  }

  /** What `{...v}` copies out of a value: an object's properties, an
      array's elements or a string's characters under their index keys,
      and nothing from `null` or a boolean. */
  function OwnProps(v: Json): (r: map<string, Json>)
    ensures v.JObj? ==> r == v.fields
    ensures v.JNull? || v.JBool? ==> r == map[]
    ensures v.JArr? ==> r == IndexedProps(v.items)
    ensures v.JStr? ==> r == IndexedProps(seq(|v.s|, i requires 0 <= i < |v.s| => JStr([v.s[i]])))
  {
    match v
    case JObj(m) => m
    case JArr(items) => IndexedProps(items)
    case JStr(text) => IndexedProps(seq(|text|, i requires 0 <= i < |text| => JStr([text[i]])))
    case _ => map[]
  }

  /** The sections an answer never overwrites: the user's signatures,
      consent and diagram. */
  predicate IsKept(key: string) {
    key == "signatures" || key == "consent" || key == "diagram"
  }

  /** `{...m, [key]: prev[key]}`: the property is set to the earlier value;
      an earlier `undefined` leaves the key out. */
  function Restore(m: map<string, Json>, prev: map<string, Json>, key: string): (r: map<string, Json>)
    ensures key in r <==> key in prev
    ensures key in prev ==> r[key] == prev[key]
    ensures forall k :: k != key ==> (k in r <==> k in m)
    ensures forall k :: k != key && k in m ==> r[k] == m[k]
  {
    if key in prev then m[key := prev[key]] else m - {key}
  }

  /** The report after an answer: `{...prev, ...reply, signatures, consent,
      diagram}` with the last three read from `prev`. The kept sections are
      those of `prev`; every other property the reply carries wins; the
      rest is `prev`'s. */
  function MergeClarification(prev: Json, reply: Json): (r: map<string, Json>)
    ensures forall k :: IsKept(k) ==> (k in r <==> k in OwnProps(prev))
    ensures forall k :: IsKept(k) && k in OwnProps(prev) ==> r[k] == OwnProps(prev)[k]
    ensures forall k :: !IsKept(k) && k in OwnProps(reply) ==> k in r && r[k] == OwnProps(reply)[k]
    ensures forall k :: !IsKept(k) && k !in OwnProps(reply) ==> (k in r <==> k in OwnProps(prev))
    ensures forall k :: !IsKept(k) && k !in OwnProps(reply) && k in OwnProps(prev) ==> r[k] == OwnProps(prev)[k]
  {
    var before := OwnProps(prev);
    RestoreKept(before + OwnProps(reply), before)
  }

  /** The three kept sections set back to their earlier values. */
  function RestoreKept(m: map<string, Json>, before: map<string, Json>): (r: map<string, Json>)
    ensures forall k :: IsKept(k) ==> (k in r <==> k in before)
    ensures forall k :: IsKept(k) && k in before ==> r[k] == before[k]
    ensures forall k :: !IsKept(k) ==> (k in r <==> k in m)
    ensures forall k :: !IsKept(k) && k in m ==> r[k] == m[k]
  {
    Restore(Restore(Restore(m, before, "signatures"), before, "consent"), before, "diagram")
  }

  /** Merging the same answer twice changes nothing more. */
  lemma MergeIdempotent(prev: Json, reply: Json)
    ensures MergeClarification(JObj(MergeClarification(prev, reply)), reply) == MergeClarification(prev, reply)
  {
    var once := MergeClarification(prev, reply);
    var twice := MergeClarification(JObj(once), reply);
    var news := OwnProps(reply);
    assert OwnProps(JObj(once)) == once;
    forall k | IsKept(k) ensures (k in twice <==> k in once) && (k in once ==> twice[k] == once[k]) {
    }
    forall k | !IsKept(k) && k in news ensures k in twice && k in once && twice[k] == once[k] {
    }
    forall k | !IsKept(k) && k !in news ensures (k in twice <==> k in once) && (k in once ==> twice[k] == once[k]) {
    }
    SameMaps(twice, once);
  }

  /** An answer whose reply is `null` or a boolean leaves an object report
      as it was. */
  lemma ScalarReplyKeepsReport(prev: map<string, Json>, reply: Json)
    requires reply.JNull? || reply.JBool?
    ensures MergeClarification(JObj(prev), reply) == prev
  {
    var r := MergeClarification(JObj(prev), reply);
    forall k ensures (k in r <==> k in prev) && (k in prev ==> r[k] == prev[k]) {
      if IsKept(k) {
      } else {
      }
    }
    SameMaps(r, prev);
  }

  /** A reply that is a string spreads its characters into the report under
      the keys "0", "1", ...; none of them is a section. */
  lemma StringReplySpreadsCharacters(prev: map<string, Json>, text: string, i: nat)
    requires i < |text|
    ensures NatToDecimal(i) in MergeClarification(JObj(prev), JStr(text))
    ensures MergeClarification(JObj(prev), JStr(text))[NatToDecimal(i)] == JStr([text[i]])
  {
    var chars := seq(|text|, j requires 0 <= j < |text| => JStr([text[j]]));
    assert OwnProps(JStr(text))[NatToDecimal(i)] == chars[i];
    assert !IsKept(NatToDecimal(i)) by {
      var k := NatToDecimal(i);
      assert AllDigits(k);
      assert IsDigit(k[0]);
    }
  }

  /** The reply's sections replace the report's wholesale and are not
      matched by label: a reply that lists only vehicle B leaves vehicle B
      as the first entry and no vehicle A at all. */
  lemma ReplyReplacesSectionWholesale(prev: map<string, Json>, a: Json, b: Json)
    requires "vehicles" in prev && prev["vehicles"] == JArr([a, b])
    ensures var r := MergeClarification(JObj(prev), JObj(map["vehicles" := JArr([b])]));
            "vehicles" in r && r["vehicles"] == JArr([b])
  {
    assert !IsKept("vehicles");
    assert "vehicles" in OwnProps(JObj(map["vehicles" := JArr([b])]));
  }

  /** The synchronous part of answering the chat: nothing happens without a
      report or without questions; otherwise the error is cleared and the
      chat is busy. */
  function BeginClarification(st: AppState): (r: Begun)
    ensures r.started <==> TruthyOpt(st.report) && st.questions != []
    ensures !r.started ==> r.state == st
    ensures r.started ==> r.state.error == None && r.state.clarifying
                          && r.state == st.(error := None, clarifying := true)
  {
    if !TruthyOpt(st.report) || |st.questions| == 0 then Begun(st, false)
    else Begun(st.(error := None, clarifying := true), true)
  }

  /** The continuation once the clarification settles: an answer is merged
      into the current report and the questions are cleared; a failure
      only shows its message. The chat is free again in both cases. */
  function SettleClarification(st: AppState, outcome: Result<Json, string>): (r: AppState)
    ensures !r.clarifying
    ensures r.step == st.step && r.files == st.files && r.loading == st.loading && r.warning == st.warning
    ensures outcome.Err? ==> r == st.(error := Some(ErrorText(outcome.error, ClarificationFallback)), clarifying := false)
    ensures outcome.Ok? ==> r.questions == [] && r.error == st.error
    ensures outcome.Ok? && st.report.Some? && !st.report.value.JNull? ==>
              r.report == Some(JObj(MergeClarification(st.report.value, outcome.value)))
    ensures outcome.Ok? && (st.report.None? || st.report.value.JNull?) ==> r.report == st.report
  {
    match outcome
    case Err(message) => st.(error := Some(ErrorText(message, ClarificationFallback)), clarifying := false)
    case Ok(reply) =>
      var report := match st.report
                    case Some(prev) => if prev.JNull? then st.report else Some(JObj(MergeClarification(prev, reply)))
                    case None => None;
      st.(report := report, questions := [], clarifying := false)
  }

  /** `handleAiChatResponse` from the click to the settled clarification,
      with nothing else happening in between. */
  function HandleAiChatResponse(s: GeminiService.Services, st: AppState, answer: string): AppState {
    var b := BeginClarification(st);
    if !b.started then st
    else SettleClarification(b.state, GeminiService.ClarifyReportWithAI(s, st.report.value, st.questions, answer))
  }

  /** Without a report or without questions an answer does nothing. */
  lemma AnswerNeedsReportAndQuestions(s: GeminiService.Services, st: AppState, answer: string)
    requires !TruthyOpt(st.report) || st.questions == []
    ensures HandleAiChatResponse(s, st, answer) == st
  {
  }

  /** A failed clarification shows the service's message and changes
      nothing else: the report and the questions stay. */
  lemma FailedAnswerOnlySetsError(s: GeminiService.Services, st: AppState, answer: string)
    requires TruthyOpt(st.report) && st.questions != []
    requires GeminiService.ClarifyReportWithAI(s, st.report.value, st.questions, answer).Err?
    ensures HandleAiChatResponse(s, st, answer)
            == st.(error := Some(GeminiService.ClarificationMessage), clarifying := false)
  {
    assert |GeminiService.ClarificationMessage| > 0;
  }

  /** An answered clarification merges the reply, keeps the user's
      signatures, consent and diagram, and clears the questions and the
      error. */
  lemma AnswerMergesReply(s: GeminiService.Services, st: AppState, answer: string)
    requires TruthyOpt(st.report) && st.questions != []
    requires GeminiService.ClarifyReportWithAI(s, st.report.value, st.questions, answer).Ok?
    ensures var reply := GeminiService.ClarifyReportWithAI(s, st.report.value, st.questions, answer).value;
            var r := HandleAiChatResponse(s, st, answer);
            r.report == Some(JObj(MergeClarification(st.report.value, reply)))
            && r.questions == [] && r.error == None && !r.clarifying
            && (forall k :: IsKept(k) ==> (k in r.report.value.fields <==> k in OwnProps(st.report.value)))
  {
  }

  // ---------------------------------------------------------------------------
  // Packaging
  // ---------------------------------------------------------------------------

  /** The synchronous part of "Confirm & Download": nothing happens without
      a report; otherwise the error is cleared and the spinner shows. */
  function BeginPackaging(st: AppState): (r: Begun)
    ensures r.started <==> TruthyOpt(st.report)
    ensures !r.started ==> r.state == st
    ensures r.started ==> r.state == st.(error := None, loading := Some(PackagingMessage))
  {
    if !TruthyOpt(st.report) then Begun(st, false)
    else Begun(st.(error := None, loading := Some(PackagingMessage)), true)
  }

  /** The continuation once the package is written (`packaged`) or has
      failed: success opens the final screen, failure shows a fixed
      message; the spinner goes either way. */
  function SettlePackaging(st: AppState, packaged: bool): (r: AppState)
    ensures r.loading == None && r.report == st.report && r.files == st.files
    ensures packaged ==> r == st.(step := ReportGenerated, loading := None)
    ensures !packaged ==> r == st.(error := Some(PackagingFailure), loading := None)
  {
    if packaged then st.(step := ReportGenerated, loading := None)
    else st.(error := Some(PackagingFailure), loading := None)
  }

  /** `generateAndDownloadReport` from the click to the settled package. */
  function GenerateAndDownloadReport(st: AppState, packaged: bool): AppState {
    var b := BeginPackaging(st);
    if !b.started then st else SettlePackaging(b.state, packaged)
  }

  /** Packaging never touches the report or the files; it ends on the final
      screen with no error, or where it was with the failure message, and
      without a spinner. */
  lemma PackagingOutcome(st: AppState, packaged: bool)
    requires TruthyOpt(st.report)
    ensures var r := GenerateAndDownloadReport(st, packaged);
            r.report == st.report && r.files == st.files && r.questions == st.questions && r.loading == None
            && (packaged ==> r.step == ReportGenerated && r.error == None)
            && (!packaged ==> r.step == st.step && r.error == Some(PackagingFailure))
  {
  }
}

=== FILE: app_shell.dfy ===
/** The screen around the session hook: which overlay covers the page,
    which controls a user can reach, and the events that change the
    session, namely the user's clicks and the settling of the three
    asynchronous calls. `Wiring` selects how the readability warning is
    shown: as the page is written, or with the guard that shows it whenever
    the hook stored one. */
module AppShell {
  import opened Base
  import opened JsonValue
  import opened Types
  import opened AppLogic
  import GeminiService
  import MediaUploader
  import ReportPaths
  import ReportView

  /** The hook's state with the calls in flight. A clarification is in
      flight exactly when the hook's own `clarifying` flag is set. */
  datatype Session = Session(app: AppState, analysing: bool, packaging: bool)

  const Opening: Session := Session(Initial, false, false)

  datatype Wiring = AsWritten | Corrected

  /** The spinner overlay: shown while the loading message is truthy. */
  predicate SpinnerShown(s: Session) {
    s.app.loading.Some? && s.app.loading.value != ""
  }

  /** The readability overlay. As written it is shown while the warning is
      truthy, so an `undefined` or empty warning is never shown; corrected,
      it is shown whenever a warning was stored. */
  predicate ModalShown(w: Wiring, s: Session) {
    match w
    case AsWritten => s.app.warning.Text? && s.app.warning.s != ""
    case Corrected => s.app.warning != NullText
  }

  /** Both overlays cover the whole page, so nothing under them can be
      clicked. */
  predicate Covered(w: Wiring, s: Session) {
    SpinnerShown(s) || ModalShown(w, s)
  }

  predicate ErrorShown(s: Session) {
    s.app.error.Some? && s.app.error.value != ""
  }

  datatype Event =
    | StartClicked
    | CountryChosen(config: AppConfig)
    | FilesAdded(incoming: Option<seq<MediaUploader.IncomingFile>>)
    | FileChanged(index: nat, update: MediaUploader.FileUpdate)
    | FileRemoved(index: nat)
    | Located(position: MediaUploader.LocationAnswer)
    | AnalysisRequested
    | AnalysisSettled(loadedAt: string, analysis: Result<GeminiService.Analysis, string>)
    | ContinueAnyway
    | Reupload
    | ErrorDismissed
    | FieldEdited(path: string, value: Json)
    | AnswerSent(answer: string)
    | ClarificationSettled(reply: Result<Json, string>)
    | PackageRequested
    | PackageSettled(packaged: bool)
    | BackToUpload

  /** Whether the control behind `e` is on the page and usable, or, for a
      settling event, whether that call is in flight. The steps render the
      landing page, the country selector, the upload screen and the report
      form; the processing step renders nothing of its own. */
  predicate Enabled(w: Wiring, s: Session, e: Event) {
    var st := s.app;
    var live := !Covered(w, s);
    match e
    case StartClicked => live && st.step == LandingPage
    case CountryChosen(_) => live && st.step == SelectCountry
    case FilesAdded(_) => live && st.step == UploadMedia
    case FileChanged(i, u) =>
      live && st.step == UploadMedia && i < |st.files| && (u.SetOwner? ==> st.files[i].kind != Scene)
    case FileRemoved(i) => live && st.step == UploadMedia && i < |st.files|
    case Located(_) => live && st.step == UploadMedia
    case AnalysisRequested => live && st.step == UploadMedia && !MediaUploader.SubmitDisabled(st.files)
    case AnalysisSettled(_, _) => s.analysing
    case ContinueAnyway => ModalShown(w, s)
    case Reupload => ModalShown(w, s)
    case ErrorDismissed => live && ErrorShown(s)
    case FieldEdited(_, _) => live && st.step == Verification && TruthyOpt(st.report)
    case AnswerSent(answer) =>
      live && st.step == Verification && TruthyOpt(st.report) && st.questions != [] && !st.clarifying
      && ReportView.HandleSubmitChat(answer).sent.Some?
    case ClarificationSettled(_) => st.clarifying
    case PackageRequested =>
      live && TruthyOpt(st.report)
      && ((st.step == Verification && ReportView.ConfirmationDisabled(st.report.value) == Ok(false))
          || st.step == ReportGenerated)
    case PackageSettled(_) => s.packaging
    case BackToUpload => live && st.step == Verification && TruthyOpt(st.report) && st.questions != []
  }

  /** The session after `e`; an event whose control is not usable changes
      nothing. An edit the setter rejects is left out. */
  function Next(w: Wiring, s: Session, e: Event): Session {
    var st := s.app;
    if !Enabled(w, s, e) then s
    else
      match e
      case StartClicked => s.(app := StartApp(st))
      case CountryChosen(c) => s.(app := SetAppConfig(st, c))
      case FilesAdded(incoming) => s.(app := st.(files := MediaUploader.Ingest(st.files, incoming)))
      case FileChanged(i, u) => s.(app := st.(files := MediaUploader.UpdateFile(st.files, i, u).value))
      case FileRemoved(i) => s.(app := st.(files := MediaUploader.RemoveFile(st.files, i)))
      case Located(answer) => s.(app := st.(location := MediaUploader.ApplyLocation(st.location, answer)))
      case AnalysisRequested =>
        var b := BeginProcessing(st);
        Session(b.state, b.started, s.packaging)
      case AnalysisSettled(loadedAt, outcome) => Session(SettleProcessing(loadedAt, st, outcome), false, s.packaging)
      case ContinueAnyway => s.(app := ProceedToVerification(st))
      case Reupload => s.(app := ReturnToUploadStep(st))
      case ErrorDismissed => s.(app := st.(error := None))
      case FieldEdited(path, value) =>
        (match ReportPaths.HandleUpdate(st.report, path, value)
         case Ok(report) => s.(app := st.(report := report))
         case Err(_) => s)
      case AnswerSent(_) => s.(app := BeginClarification(st).state)
      case ClarificationSettled(outcome) => s.(app := SettleClarification(st, outcome))
      case PackageRequested =>
        var b := BeginPackaging(st);
        Session(b.state, s.analysing, b.started)
      case PackageSettled(packaged) => Session(SettlePackaging(st, packaged), s.analysing, false)
      case BackToUpload => s.(app := GoBackToUpload(st))
  }

  /** The session after a run of events. */
  function Run(w: Wiring, s: Session, events: seq<Event>): Session
    decreases |events|
  {
    if |events| == 0 then s else Run(w, Next(w, s, events[0]), events[1..])
  }

  predicate HasObjectReport(st: AppState) {
    st.report.Some? && st.report.value.JObj?
  }

  /** What holds between events: the spinner is up exactly while the
      analysis or the package is in flight, never both; a stored warning
      only exists on the processing step after the analysis; the processing
      step is only shown while analysing or warning; and the report form
      always has an object report. */
  predicate Inv(s: Session) {
    var st := s.app;
    (s.analysing ==> st.step == Processing && st.loading == Some(AnalysingMessage)
                     && st.warning == NullText && !s.packaging)
    && (s.packaging ==> st.loading == Some(PackagingMessage)
                        && (st.step == Verification || st.step == ReportGenerated))
    && (!s.analysing && !s.packaging ==> st.loading == None)
    && (st.warning != NullText ==> st.step == Processing && !s.analysing && HasObjectReport(st))
    && (st.step == Processing ==> s.analysing || st.warning != NullText)
    && ((st.step == Verification || st.step == ReportGenerated) ==> HasObjectReport(st))
  }

  lemma OpeningInv()
    ensures Inv(Opening)
  {
  }

  /** Every event keeps the invariant, under either wiring. */
  lemma NextKeepsInv(w: Wiring, s: Session, e: Event)
    requires Inv(s)
    ensures Inv(Next(w, s, e))
  {
    if Enabled(w, s, e) {
      match e
      case AnalysisSettled(loadedAt, outcome) =>
        if outcome.Ok? && s.app.config.Some? {
          SettledAnalysisWarnsOrOpensForm(loadedAt, s.app, outcome.value);
        }
      case _ =>
    }
  }

  lemma {:induction false} RunKeepsInv(w: Wiring, s: Session, events: seq<Event>)
    requires Inv(s)
    ensures Inv(Run(w, s, events))
    decreases |events|
  {
    if |events| > 0 {
      NextKeepsInv(w, s, events[0]);
      RunKeepsInv(w, Next(w, s, events[0]), events[1..]);
    }
  }

  /** An event the user (or a call in flight) can always produce in the
      corrected wiring. */
  function Rescue(s: Session): Event {
    if s.analysing then AnalysisSettled("", Err(""))
    else if s.packaging then PackageSettled(true)
    else if s.app.warning != NullText then ContinueAnyway
    else
      match s.app.step
      case LandingPage => StartClicked
      case SelectCountry => CountryChosen(AppConfig(UK, English))
      case UploadMedia => FilesAdded(None)
      case Processing => ContinueAnyway
      case Verification => FieldEdited("", JNull)
      case ReportGenerated => PackageRequested
  }

  /** With the corrected wiring no reachable session is a dead end: some
      control is always usable or some call is in flight. */
  lemma CorrectedNeverStuck(s: Session)
    requires Inv(s)
    ensures Enabled(Corrected, s, Rescue(s))
  {
  }

  /** "Send to AI" is disabled while an answer is being clarified; the only
      way on is the clarification settling. */
  lemma SendDisabledWhileClarifying(w: Wiring, s: Session, answer: string, reply: Result<Json, string>)
    requires s.app.clarifying
    ensures !Enabled(w, s, AnswerSent(answer))
    ensures Enabled(w, s, ClarificationSettled(reply))
    ensures !Next(w, s, ClarificationSettled(reply)).app.clarifying
  {
  }

  /** Whenever "Start Analysis" can be clicked, the hook starts the
      analysis: its empty-files branch is never taken from the page. */
  lemma SubmitGuardMatchesHandler(w: Wiring, s: Session)
    requires Enabled(w, s, AnalysisRequested)
    ensures BeginProcessing(s.app).started
    ensures Next(w, s, AnalysisRequested).analysing
    ensures Next(w, s, AnalysisRequested).app.error.None?
  {
  }

  /** A position the device reports is stored, and the extraction prompt
      built from the stored location carries its coordinates. */
  lemma LocatedPositionReachesPrompt(w: Wiring, s: Session, at: Location, config: AppConfig)
    requires Enabled(w, s, Located(MediaUploader.Position(at)))
    ensures Next(w, s, Located(MediaUploader.Position(at))).app.location == Some(at)
    ensures var st := Next(w, s, Located(MediaUploader.Position(at))).app;
            Contains(GeminiService.ExtractionRequestFor(st.files, config, st.location).prompt,
                     GeminiService.Coordinates(at))
  {
    var st := Next(w, s, Located(MediaUploader.Position(at))).app;
    GeminiService.PromptCarriesLocation(GeminiService.GroupFiles(st.files), config, st.location);
  }

  /** The trace to the analysis: start, choose a country, add one file and
      request the analysis. */
  function ToAnalysis(config: AppConfig, f: MediaUploader.IncomingFile): seq<Event> {
    [StartClicked, CountryChosen(config), FilesAdded(Some([f])), AnalysisRequested]
  }

  lemma ToAnalysisReaches(w: Wiring, config: AppConfig, f: MediaUploader.IncomingFile)
    ensures var s := Run(w, Opening, ToAnalysis(config, f));
            Inv(s) && s.analysing && s.app.config == Some(config) && !s.app.clarifying && s.app.error == None
  {
    var s1 := Session(Initial.(step := SelectCountry), false, false);
    var s2 := Session(Initial.(step := UploadMedia, config := Some(config)), false, false);
    var s3 := s2.(app := s2.app.(files := MediaUploader.Ingest([], Some([f]))));
    assert Next(w, Opening, StartClicked) == s1;
    assert Next(w, s1, CountryChosen(config)) == s2;
    assert Next(w, s2, FilesAdded(Some([f]))) == s3;
    assert |s3.app.files| == 1;
    var s4 := Next(w, s3, AnalysisRequested);
    assert s4.analysing && s4.app.config == Some(config) && s4.app.error == None && !s4.app.clarifying;
    var t := ToAnalysis(config, f);
    RunStep(w, s3, AnalysisRequested, []);
    RunStep(w, s2, FilesAdded(Some([f])), [AnalysisRequested]);
    RunStep(w, s1, CountryChosen(config), [FilesAdded(Some([f])), AnalysisRequested]);
    RunStep(w, Opening, StartClicked, [CountryChosen(config), FilesAdded(Some([f])), AnalysisRequested]);
    assert Run(w, Opening, t) == s4;
    OpeningInv();
    RunKeepsInv(w, Opening, t);
  }

  lemma RunStep(w: Wiring, s: Session, e: Event, rest: seq<Event>)
    ensures Run(w, s, [e] + rest) == Run(w, Next(w, s, e), rest)
  {
    assert ([e] + rest)[1..] == rest;
  }

  /** The settling of the analysis in flight. */
  lemma AnalysisSettles(w: Wiring, s: Session, loadedAt: string, outcome: Result<GeminiService.Analysis, string>)
    requires s.analysing
    ensures Next(w, s, AnalysisSettled(loadedAt, outcome)) == Session(SettleProcessing(loadedAt, s.app, outcome), false, s.packaging)
  {
    assert Enabled(w, s, AnalysisSettled(loadedAt, outcome));
  }

  /** The processing step with nothing in flight, no error, and a warning
      that is `undefined` or empty: as written nothing can happen. */
  lemma DeadEndAsWritten(t: Session)
    requires t.app.step == Processing && !t.analysing && !t.packaging && !t.app.clarifying
    requires t.app.error == None && t.app.loading == None
    requires t.app.warning == UndefinedText || t.app.warning == Text("")
    ensures forall e :: !Enabled(AsWritten, t, e)
  {
  }

  /** A readability question whose text is missing or empty, answered to a
      session waiting for its analysis with no error shown and no
      clarification pending: as written, the page is left on the processing
      step with no overlay, no error and nothing rendered, and no event is
      possible any more. */
  lemma StuckAsWritten(s: Session, loadedAt: string, a: GeminiService.Analysis)
    requires Inv(s) && s.analysing && s.app.config.Some? && !s.app.clarifying && s.app.error == None
    requires |a.questions| > 0 && IsQualityQuestion(a.questions[0])
    requires a.questions[0].question.None? || a.questions[0].question == Some("")
    ensures var t := Next(AsWritten, s, AnalysisSettled(loadedAt, Ok(a)));
            Inv(t) && t.app.step == Processing && !SpinnerShown(t) && !ModalShown(AsWritten, t)
            && forall e :: !Enabled(AsWritten, t, e)
  {
    var t := Next(AsWritten, s, AnalysisSettled(loadedAt, Ok(a)));
    NextKeepsInv(AsWritten, s, AnalysisSettled(loadedAt, Ok(a)));
    AnalysisSettles(AsWritten, s, loadedAt, Ok(a));
    var r := SettleProcessing(loadedAt, s.app, Ok(a));
    assert t == Session(r, false, s.packaging);
    QualityQuestionPauses(loadedAt, s.app, a);
    assert r.warning == WarningOf(a.questions[0]);
    DeadEndAsWritten(t);
  }

  /** The same answer under the corrected wiring shows the warning, so the
      user can continue or upload again. */
  lemma CorrectedShowsWarning(s: Session, loadedAt: string, a: GeminiService.Analysis)
    requires s.analysing && s.app.config.Some?
    requires |a.questions| > 0 && IsQualityQuestion(a.questions[0])
    ensures var t := Next(Corrected, s, AnalysisSettled(loadedAt, Ok(a)));
            ModalShown(Corrected, t) && Enabled(Corrected, t, ContinueAnyway) && Enabled(Corrected, t, Reupload)
  {
    AnalysisSettles(Corrected, s, loadedAt, Ok(a));
    QualityQuestionPauses(loadedAt, s.app, a);
    assert SettleProcessing(loadedAt, s.app, Ok(a)).warning == WarningOf(a.questions[0]);
  }

  /** Starting from the opening screen: the dead end is reachable in five
      events as written. */
  lemma StuckReachable(config: AppConfig, f: MediaUploader.IncomingFile, loadedAt: string, a: GeminiService.Analysis)
    requires |a.questions| > 0 && a.questions[0] == AIQuestion(Some("document_quality"), Some(""))
    ensures var t := Run(AsWritten, Opening, ToAnalysis(config, f) + [AnalysisSettled(loadedAt, Ok(a))]);
            t.app.step == Processing && forall e :: !Enabled(AsWritten, t, e)
  {
    var pre := ToAnalysis(config, f);
    var s := Run(AsWritten, Opening, pre);
    ToAnalysisReaches(AsWritten, config, f);
    StuckAsWritten(s, loadedAt, a);
    RunAppend(AsWritten, Opening, pre, [AnalysisSettled(loadedAt, Ok(a))]);
    var ev := [AnalysisSettled(loadedAt, Ok(a))];
    assert ev[1..] == [];
  }

  lemma {:induction false} RunAppend(w: Wiring, s: Session, xs: seq<Event>, ys: seq<Event>)
    ensures Run(w, s, xs + ys) == Run(w, Run(w, s, xs), ys)
    decreases |xs|
  {
    if |xs| > 0 {
      assert (xs + ys)[0] == xs[0];
      assert (xs + ys)[1..] == xs[1..] + ys;
      RunAppend(w, Next(w, s, xs[0]), xs[1..], ys);
    } else {
      assert xs + ys == ys;
    }
  }
}

=== FILE: base.dfy ===
/** Small building blocks shared by the whole model: optional values, results,
    and the handful of sequence and string operations the application code uses
    (`Array.prototype.find`, `filter`, `String.prototype.trim`, `startsWith`,
    `includes` and `join`). */
module Base {

  /** A value that may be absent (`undefined` / `null` in the application). */
  datatype Option<+T> = None | Some(value: T) {
    function GetOr(default: T): T {
      match this
      case Some(v) => v
      case None => default
    }
  }

  /** The outcome of a step that may throw: `Ok(value)` or the thrown error. */
  datatype Result<+T, +E> = Ok(value: T) | Err(error: E) {
    predicate IsFailure() {
      Err?
    }

    function PropagateFailure<U>(): Result<U, E>
      requires Err?
    {
      Err(error)
    }

    function Extract(): T
      requires Ok?
    {
      value
    }
  }

  // ---------------------------------------------------------------------------
  // Sequences
  // ---------------------------------------------------------------------------

  /** `xs.find(p)`: the first element satisfying `p`, if any. */
  function FirstWhere<T(==)>(xs: seq<T>, p: T -> bool): (r: Option<T>)
    ensures r.Some? ==> r.value in xs && p(r.value)
    ensures r.None? <==> forall i :: 0 <= i < |xs| ==> !p(xs[i])
    ensures r.Some? ==> exists i :: 0 <= i < |xs| && xs[i] == r.value
                                   && forall j :: 0 <= j < i ==> !p(xs[j])
  {
    if |xs| == 0 then None
    else if p(xs[0]) then
      assert xs[0] == xs[0];
      Some(xs[0])
    else
      var r := FirstWhere(xs[1..], p);
      if r.Some? then
        var i :| 0 <= i < |xs[1..]| && xs[1..][i] == r.value
                 && forall j :: 0 <= j < i ==> !p(xs[1..][j]);
        assert xs[i + 1] == r.value;
        assert forall j :: 0 <= j < i + 1 ==> !p(xs[j]) by {
          forall j | 0 <= j < i + 1 ensures !p(xs[j]) {
            if j > 0 { assert xs[j] == xs[1..][j - 1]; }
          }
        }
        r
      else
        r
  }

  /** When every element satisfying `p` is the same value, `find` returns that
      value however the sequence is ordered. */
  lemma FirstWhereOrderIndependent<T>(xs: seq<T>, ys: seq<T>, p: T -> bool)
    requires forall x :: x in xs <==> x in ys
    requires forall x, y :: x in xs && y in xs && p(x) && p(y) ==> x == y
    ensures FirstWhere(xs, p) == FirstWhere(ys, p)
  {
  }

  /** `xs.filter(p)`: the elements satisfying `p`, in their original order. */
  function Filter<T(==)>(xs: seq<T>, p: T -> bool): (r: seq<T>)
    ensures |r| <= |xs|
    ensures forall i :: 0 <= i < |r| ==> r[i] in xs && p(r[i])
    ensures forall i :: 0 <= i < |xs| && p(xs[i]) ==> xs[i] in r
  {
    if |xs| == 0 then []
    else if p(xs[0]) then [xs[0]] + Filter(xs[1..], p)
    else Filter(xs[1..], p)
  }

  lemma {:induction false} FilterAppend<T>(xs: seq<T>, ys: seq<T>, p: T -> bool)
    ensures Filter(xs + ys, p) == Filter(xs, p) + Filter(ys, p)
  {
    if |xs| == 0 {
      assert xs + ys == ys;
    } else {
      assert (xs + ys)[1..] == xs[1..] + ys;
      FilterAppend(xs[1..], ys, p);
    }
  }

  lemma {:induction false} FilterAll<T>(xs: seq<T>, p: T -> bool)
    requires forall i :: 0 <= i < |xs| ==> p(xs[i])
    ensures Filter(xs, p) == xs
  {
    if |xs| > 0 {
      FilterAll(xs[1..], p);
    }
  }

  /** `xs.filter(x => x !== v)`: every occurrence of `v` dropped. */
  function RemoveAll<T(==)>(xs: seq<T>, v: T): (r: seq<T>)
    ensures v !in r
    ensures forall i :: 0 <= i < |r| ==> r[i] in xs
    ensures forall i :: 0 <= i < |xs| && xs[i] != v ==> xs[i] in r
    ensures v !in xs ==> r == xs
  {
    if |xs| == 0 then []
    else if xs[0] == v then RemoveAll(xs[1..], v)
    else [xs[0]] + RemoveAll(xs[1..], v)
  }

  lemma {:induction false} RemoveAllAppend<T>(xs: seq<T>, ys: seq<T>, v: T)
    ensures RemoveAll(xs + ys, v) == RemoveAll(xs, v) + RemoveAll(ys, v)
  {
    if |xs| == 0 {
      assert xs + ys == ys;
    } else {
      assert (xs + ys)[1..] == xs[1..] + ys;
      RemoveAllAppend(xs[1..], ys, v);
    }
  }

  /** `xs.filter((_, i) => i !== index)`, walking positions from `from` on. */
  function DropIndexFrom<T>(xs: seq<T>, index: nat, from: nat): (r: seq<T>)
    ensures index < from ==> r == xs
    ensures from <= index < from + |xs| ==> |r| == |xs| - 1
    ensures from <= index < from + |xs| ==>
              (forall j :: 0 <= j < index - from ==> r[j] == xs[j])
              && (forall j :: index - from <= j < |r| ==> r[j] == xs[j + 1])
    ensures index >= from + |xs| ==> r == xs
  {
    if |xs| == 0 then []
    else if from == index then DropIndexFrom(xs[1..], index, from + 1)
    else [xs[0]] + DropIndexFrom(xs[1..], index, from + 1)
  }

  /** `xs.filter((_, i) => i !== index)`. */
  function RemoveAt<T>(xs: seq<T>, index: nat): (r: seq<T>)
    ensures index < |xs| ==> r == xs[..index] + xs[index + 1..]
    ensures index >= |xs| ==> r == xs
  {
    var r := DropIndexFrom(xs, index, 0);
    if index < |xs| then
      assert r == xs[..index] + xs[index + 1..];
      r
    else
      r
  }

  // ---------------------------------------------------------------------------
  // Strings
  // ---------------------------------------------------------------------------

  /** `s.startsWith(prefix)`. */
  predicate HasPrefix(s: string, prefix: string) {
    |prefix| <= |s| && s[..|prefix|] == prefix
  }

  /** `s.includes(t)`, searching from position `from`. */
  predicate ContainsFrom(s: string, t: string, from: nat)
    decreases |s| - from
  {
    from + |t| <= |s| && (s[from..from + |t|] == t || ContainsFrom(s, t, from + 1))
  }

  /** `s.includes(t)`. */
  predicate Contains(s: string, t: string) {
    ContainsFrom(s, t, 0)
  }

  lemma {:induction false} ContainsFromAt(s: string, t: string, from: nat, at: nat)
    requires from <= at && at + |t| <= |s| && s[at..at + |t|] == t
    ensures ContainsFrom(s, t, from)
    decreases at - from
  {
    if from < at {
      ContainsFromAt(s, t, from + 1, at);
    }
  }

  /** A string contains every piece it is assembled from. */
  lemma ContainsPiece(a: string, t: string, b: string)
    ensures Contains(a + t + b, t)
  {
    var s := a + t + b;
    assert s[|a|..|a| + |t|] == t;
    ContainsFromAt(s, t, 0, |a|);
  }

  /** Where a search succeeds: a position at or after `from` holding `t`. */
  lemma {:induction false} ContainsFromWitness(s: string, t: string, from: nat) returns (at: nat)
    requires ContainsFrom(s, t, from)
    ensures from <= at && at + |t| <= |s| && s[at..at + |t|] == t
    decreases |s| - from
  {
    if s[from..from + |t|] == t {
      at := from;
    } else {
      at := ContainsFromWitness(s, t, from + 1);
    }
  }

  /** A string containing `t` still contains it once text is put around it. */
  lemma ContainsWithin(a: string, s: string, b: string, t: string)
    requires Contains(s, t)
    ensures Contains(a + s + b, t)
  {
    var at := ContainsFromWitness(s, t, 0);
    var u := a + s + b;
    assert u[|a| + at..|a| + at + |t|] == s[at..at + |t|];
    ContainsFromAt(u, t, 0, |a| + at);
  }

  lemma ContainsSelf(s: string)
    ensures Contains(s, s)
  {
    assert s[0..|s|] == s;
    ContainsFromAt(s, s, 0, 0);
  }

  /** Text appended after a string keeps what it contains. */
  lemma ContainsBefore(s: string, b: string, t: string)
    requires Contains(s, t)
    ensures Contains(s + b, t)
  {
    var at := ContainsFromWitness(s, t, 0);
    assert (s + b)[at..at + |t|] == s[at..at + |t|];
    ContainsFromAt(s + b, t, 0, at);
  }

  /** Text put before a string keeps what it contains. */
  lemma ContainsAfter(a: string, s: string, t: string)
    requires Contains(s, t)
    ensures Contains(a + s, t)
  {
    var at := ContainsFromWitness(s, t, 0);
    assert (a + s)[|a| + at..|a| + at + |t|] == s[at..at + |t|];
    ContainsFromAt(a + s, t, 0, |a| + at);
  }

  /** A string containing `t` holds each of its characters. */
  lemma {:induction false} ContainsHasChars(s: string, t: string, from: nat, j: nat)
    requires ContainsFrom(s, t, from) && j < |t|
    ensures t[j] in s
    decreases |s| - from
  {
    if s[from..from + |t|] == t {
      assert s[from + j] == t[j];
    } else {
      ContainsHasChars(s, t, from + 1, j);
    }
  }

  /** The characters JavaScript's `trim` and `parseInt` skip: WhiteSpace and
      LineTerminator of ECMAScript, i.e. tab, line tabulation, form feed, space,
      no-break space, the byte order mark, the space separators of Unicode and
      the four line terminators. */
  predicate IsJsSpace(c: char) {
    c == '\t' || c == '\n' || c == '\r' || c == ' '
    || c == '\U{000B}' || c == '\U{000C}' || c == '\U{00A0}' || c == '\U{1680}'
    || ('\U{2000}' <= c <= '\U{200A}')
    || c == '\U{2028}' || c == '\U{2029}' || c == '\U{202F}' || c == '\U{205F}'
    || c == '\U{3000}' || c == '\U{FEFF}'
  }

  predicate AllSpace(s: string) {
    forall i :: 0 <= i < |s| ==> IsJsSpace(s[i])
  }

  function TrimStart(s: string): (r: string)
    ensures |r| <= |s| && r == s[|s| - |r|..]
    ensures |r| > 0 ==> !IsJsSpace(r[0])
    ensures AllSpace(s[..|s| - |r|])
  {
    if |s| > 0 && IsJsSpace(s[0]) then
      var r := TrimStart(s[1..]);
      assert s[1..][..|s[1..]| - |r|] == s[1..|s| - |r|];
      r
    else s
  }

  function TrimEnd(s: string): (r: string)
    ensures |r| <= |s| && r == s[..|r|]
    ensures |r| > 0 ==> !IsJsSpace(r[|r| - 1])
    ensures AllSpace(s[|r|..])
  {
    if |s| > 0 && IsJsSpace(s[|s| - 1]) then
      var r := TrimEnd(s[..|s| - 1]);
      assert s[..|s| - 1][..|r|] == s[..|r|];
      r
    else s
  }

  /** `s.trim()`. */
  function Trim(s: string): string {
    TrimEnd(TrimStart(s))
  }

  /** `trim()` leaves nothing exactly when the string is all white space. */
  lemma TrimEmptyIffAllSpace(s: string)
    ensures Trim(s) == "" <==> AllSpace(s)
  {
    var t := TrimStart(s);
    if Trim(s) == "" {
      assert s[..|s|] == s;
    } else {
      var r := Trim(s);
      assert r[0] == t[0];
      assert t[0] == s[|s| - |t|];
    }
  }

  /** Trimming a trimmed string changes nothing. */
  lemma TrimIdempotent(s: string)
    ensures Trim(Trim(s)) == Trim(s)
  {
    var t := TrimStart(s);
    var r := Trim(s);
    if |r| > 0 {
      assert r[0] == t[0];
      assert TrimStart(r) == r;
    }
  }

  /** `xs.join(sep)`. */
  function Join(xs: seq<string>, sep: string): string {
    if |xs| == 0 then ""
    else if |xs| == 1 then xs[0]
    else xs[0] + sep + Join(xs[1..], sep)
  }

  /** A joined list contains each of its items. */
  lemma {:induction false} JoinContains(xs: seq<string>, sep: string, i: nat)
    requires i < |xs|
    ensures Contains(Join(xs, sep), xs[i])
    decreases |xs|
  {
    if |xs| == 1 {
      ContainsPiece("", xs[0], "");
      assert "" + xs[0] + "" == xs[0];
    } else if i == 0 {
      ContainsPiece("", xs[0], sep + Join(xs[1..], sep));
      assert "" + xs[0] + (sep + Join(xs[1..], sep)) == Join(xs, sep);
    } else {
      JoinContains(xs[1..], sep, i - 1);
      ContainsWithin(xs[0] + sep, Join(xs[1..], sep), "", xs[i]);
      assert xs[0] + sep + Join(xs[1..], sep) + "" == Join(xs, sep);
    }
  }
}

=== FILE: constants.dfy ===
/** The fixed data of the application: the empty report every session starts
    from (two vehicle, driver and insurance slots labelled A and B) and the four
    jurisdictions' catalogs of alleged violations. */
module Constants {
  import opened Base
  import opened JsonValue
  import opened Types

  /** The blank diagram the skeleton carries before any drawing exists. */
  const BlankDiagramSvg: string :=
    "<svg width=\"400\" height=\"300\" xmlns=\"http://www.w3.org/2000/svg\" style=\"background-color:#334155;\"></svg>"

  const Empty: Json := JStr("")

  function DefaultVehicle(slot: string): map<string, Json> {
    map["label" := JStr(slot), "plate" := Empty, "make_model" := Empty, "first_impact" := Empty,
        "manoeuvre" := Empty, "alleged_offences" := JArr([])]
  }

  function DefaultDriver(vehicle: string): map<string, Json> {
    map["vehicle" := JStr(vehicle), "name" := Empty, "id_no" := Empty, "licence_no" := Empty,
        "phone" := Empty, "statement" := Empty]
  }

  function DefaultInsurance(vehicle: string): map<string, Json> {
    map["vehicle" := JStr(vehicle), "company" := Empty, "policy_no" := Empty]
  }

  /** The accident section. Its timestamp is the moment the application was
      loaded (the first sixteen characters of an ISO date), an opaque string
      here. */
  function DefaultAccident(loadedAt: string): Json {
    JObj(map["timestamp" := JStr(loadedAt), "geo" := JObj(map["address" := Empty]),
             "weather" := Empty, "light" := Empty])
  }

  const DefaultDiagram: Json :=
    JObj(map["svg" := JStr(BlankDiagramSvg), "sketch_base64" := JNull, "notes" := Empty])

  const DefaultSignatures: Json := JObj(map["A" := JNull, "B" := JNull])

  const DefaultConsent: Json := JObj(map["A" := JBool(false), "B" := JBool(false)])

  /** The sections of the initial report. */
  function InitialReportFields(loadedAt: string): map<string, Json> {
    map[
      "locale" := JStr("UK"),
      "accident" := DefaultAccident(loadedAt),
      "vehicles" := JArr([JObj(DefaultVehicle("A")), JObj(DefaultVehicle("B"))]),
      "drivers" := JArr([JObj(DefaultDriver("A")), JObj(DefaultDriver("B"))]),
      "insurance" := JArr([JObj(DefaultInsurance("A")), JObj(DefaultInsurance("B"))]),
      "witnesses" := JArr([]),
      "diagram" := DefaultDiagram,
      "signatures" := DefaultSignatures,
      "consent" := DefaultConsent
    ]
  }

  function InitialReport(loadedAt: string): Json {
    JObj(InitialReportFields(loadedAt))
  }

  /** The two-element arrays of the skeleton are indexed by "0" and "1"; "2"
      is past their end. */
  lemma SmallIndices()
    ensures ArrayIndex("0") == Some(0) && ArrayIndex("1") == Some(1) && ArrayIndex("2") == Some(2)
  {
    assert NatToDecimal(0) == "0" && NatToDecimal(1) == "1" && NatToDecimal(2) == "2";
  }

  /** The skeleton has exactly the report's sections. */
  lemma InitialReportKeys(loadedAt: string)
    ensures InitialReportFields(loadedAt).Keys == ReportSections
  {
  }

  /** The skeleton's locale is the UK's, it has no witnesses and its
      diagram has no sketch. */
  lemma InitialReportBlank(loadedAt: string)
    ensures GetPath(InitialReport(loadedAt), ["locale"]) == Some(JStr("UK"))
    ensures GetPath(InitialReport(loadedAt), ["witnesses"]) == Some(JArr([]))
    ensures GetPath(InitialReport(loadedAt), ["diagram", "sketch_base64"]) == Some(JNull)
  {
    InitialSection(loadedAt, "locale", JStr("UK"));
    InitialSection(loadedAt, "witnesses", JArr([]));
    InitialSection(loadedAt, "diagram", DefaultDiagram);
    SectionPath(loadedAt, "diagram", ["sketch_base64"]);
    assert ["diagram", "sketch_base64"] == ["diagram"] + ["sketch_base64"];
  }

  /** The skeleton's signatures are both null and its consents both
      false. */
  lemma InitialReportUnsigned(loadedAt: string)
    ensures GetPath(InitialReport(loadedAt), ["signatures", "A"]) == Some(JNull)
    ensures GetPath(InitialReport(loadedAt), ["signatures", "B"]) == Some(JNull)
    ensures GetPath(InitialReport(loadedAt), ["consent", "A"]) == Some(JBool(false))
    ensures GetPath(InitialReport(loadedAt), ["consent", "B"]) == Some(JBool(false))
  {
    InitialSection(loadedAt, "signatures", DefaultSignatures);
    InitialSection(loadedAt, "consent", DefaultConsent);
    SectionPath(loadedAt, "signatures", ["A"]);
    SectionPath(loadedAt, "signatures", ["B"]);
    SectionPath(loadedAt, "consent", ["A"]);
    SectionPath(loadedAt, "consent", ["B"]);
    assert ["signatures", "A"] == ["signatures"] + ["A"];
    assert ["signatures", "B"] == ["signatures"] + ["B"];
    assert ["consent", "A"] == ["consent"] + ["A"];
    assert ["consent", "B"] == ["consent"] + ["B"];
  }

  /** A single section of the skeleton. */
  lemma InitialSection(loadedAt: string, key: string, v: Json)
    requires (key == "locale" && v == JStr("UK")) || (key == "witnesses" && v == JArr([]))
             || (key == "diagram" && v == DefaultDiagram) || (key == "signatures" && v == DefaultSignatures)
             || (key == "consent" && v == DefaultConsent)
             || (key == "vehicles" && v == JArr([JObj(DefaultVehicle("A")), JObj(DefaultVehicle("B"))]))
             || (key == "drivers" && v == JArr([JObj(DefaultDriver("A")), JObj(DefaultDriver("B"))]))
             || (key == "insurance" && v == JArr([JObj(DefaultInsurance("A")), JObj(DefaultInsurance("B"))]))
    ensures key in InitialReportFields(loadedAt) && InitialReportFields(loadedAt)[key] == v
  {
  }

  /** The value of section `key` of the skeleton, one step at a time. */
  lemma SectionPath(loadedAt: string, key: string, rest: seq<string>)
    requires key in InitialReportFields(loadedAt)
    ensures GetPath(InitialReport(loadedAt), [key] + rest) == GetPath(InitialReportFields(loadedAt)[key], rest)
  {
    assert ([key] + rest)[1..] == rest;
  }

  /** The element at `"0"` or `"1"` of a two-element array. */
  lemma PairPath(a: Json, b: Json, rest: seq<string>)
    ensures GetPath(JArr([a, b]), ["0"] + rest) == GetPath(a, rest)
    ensures GetPath(JArr([a, b]), ["1"] + rest) == GetPath(b, rest)
    ensures GetPath(JArr([a, b]), ["2"] + rest) == None
  {
    SmallIndices();
    assert (["0"] + rest)[1..] == rest;
    assert (["1"] + rest)[1..] == rest;
  }

  /** The vehicle slots of the skeleton are labelled A and then B, and there
      are only two. */
  lemma InitialVehicleSlots(loadedAt: string)
    ensures GetPath(InitialReport(loadedAt), ["vehicles", "0", "label"]) == Some(JStr("A"))
    ensures GetPath(InitialReport(loadedAt), ["vehicles", "1", "label"]) == Some(JStr("B"))
    ensures GetPath(InitialReport(loadedAt), ["vehicles", "2"]) == None
  {
    InitialSection(loadedAt, "vehicles", JArr([JObj(DefaultVehicle("A")), JObj(DefaultVehicle("B"))]));
    PairSlotPaths(InitialReportFields(loadedAt), "vehicles", DefaultVehicle("A"), DefaultVehicle("B"), "label");
  }

  /** The driver slots of the skeleton belong to A and then B. */
  lemma InitialDriverSlots(loadedAt: string)
    ensures GetPath(InitialReport(loadedAt), ["drivers", "0", "vehicle"]) == Some(JStr("A"))
    ensures GetPath(InitialReport(loadedAt), ["drivers", "1", "vehicle"]) == Some(JStr("B"))
  {
    InitialSection(loadedAt, "drivers", JArr([JObj(DefaultDriver("A")), JObj(DefaultDriver("B"))]));
    PairSlotPaths(InitialReportFields(loadedAt), "drivers", DefaultDriver("A"), DefaultDriver("B"), "vehicle");
  }

  /** The insurance slots of the skeleton belong to A and then B. */
  lemma InitialInsuranceSlots(loadedAt: string)
    ensures GetPath(InitialReport(loadedAt), ["insurance", "0", "vehicle"]) == Some(JStr("A"))
    ensures GetPath(InitialReport(loadedAt), ["insurance", "1", "vehicle"]) == Some(JStr("B"))
  {
    InitialSection(loadedAt, "insurance", JArr([JObj(DefaultInsurance("A")), JObj(DefaultInsurance("B"))]));
    PairSlotPaths(InitialReportFields(loadedAt), "insurance", DefaultInsurance("A"), DefaultInsurance("B"), "vehicle");
  }

  /** Reading a field of the first, second and (missing) third slot of a
      two-slot section. */
  lemma PairSlotPaths(m: map<string, Json>, section: string, x: map<string, Json>, y: map<string, Json>, field: string)
    requires section in m && m[section] == JArr([JObj(x), JObj(y)])
    requires field in x && field in y
    ensures GetPath(JObj(m), [section, "0", field]) == Some(x[field])
    ensures GetPath(JObj(m), [section, "1", field]) == Some(y[field])
    ensures GetPath(JObj(m), [section, "2"]) == None
  {
    PairPath(JObj(x), JObj(y), [field]);
    PairPath(JObj(x), JObj(y), []);
    SectionStep(m, section, ["0", field]);
    SectionStep(m, section, ["1", field]);
    SectionStep(m, section, ["2"]);
    assert [section, "0", field] == [section] + ["0", field];
    assert [section, "1", field] == [section] + ["1", field];
    assert [section, "2"] == [section] + ["2"];
    assert ["0", field] == ["0"] + [field];
    assert ["1", field] == ["1"] + [field];
    assert ["2"] == ["2"] + [];
    assert [field] == [field] + [];
    assert GetPath(x[field], []) == Some(x[field]);
  }

  /** Reading `[key] + rest` in an object reads `rest` in its section. */
  lemma SectionStep(m: map<string, Json>, key: string, rest: seq<string>)
    requires key in m
    ensures GetPath(JObj(m), [key] + rest) == GetPath(m[key], rest)
  {
    assert ([key] + rest)[1..] == rest;
  }

  /** Every text field of every slot starts empty and every slot starts with
      no alleged offences. */
  lemma DefaultSlotsEmpty(slot: string)
    ensures forall k :: k in DefaultVehicle(slot) && k != "label" && k != "alleged_offences" ==>
                          DefaultVehicle(slot)[k] == Empty
    ensures DefaultVehicle(slot)["alleged_offences"] == JArr([])
    ensures forall k :: k in DefaultDriver(slot) && k != "vehicle" ==> DefaultDriver(slot)[k] == Empty
    ensures forall k :: k in DefaultInsurance(slot) && k != "vehicle" ==> DefaultInsurance(slot)[k] == Empty
  {
  }

  // ---------------------------------------------------------------------------
  // Violation catalogs
  // ---------------------------------------------------------------------------

  datatype Violation = Violation(id: string, text: string)

  const UkViolations: seq<Violation> := [
    Violation("uk_1", "Failed to give way"),
    Violation("uk_2", "Exceeding speed limit"),
    Violation("uk_3", "Improper lane change"),
    Violation("uk_4", "Following too closely"),
    Violation("uk_5", "Disregarded traffic signal")
  ]

  const CaliforniaViolations: seq<Violation> := [
    Violation("ca_1", "Unsafe lane change (CVC 22107)"),
    Violation("ca_2", "Speeding (CVC 22350)"),
    Violation("ca_3", "Failure to yield (CVC 21800)"),
    Violation("ca_4", "Following too closely (CVC 21703)"),
    Violation("ca_5", "Disobeyed traffic signal (CVC 21453)")
  ]

  const NewYorkViolations: seq<Violation> := [
    Violation("ny_1", "Imprudent speed (VTL 1180)"),
    Violation("ny_2", "Following too closely (VTL 1129)"),
    Violation("ny_3", "Failed to yield right-of-way (VTL 1140)"),
    Violation("ny_4", "Unsafe lane change (VTL 1128)"),
    Violation("ny_5", "Disobeyed traffic control device (VTL 1110)")
  ]

  const TurkishViolations: seq<Violation> := [
    Violation("tr_1", "K\U{0131}rm\U{0131}z\U{0131} \U{0131}\U{015F}\U{0131}k ihlali"),
    Violation("tr_2", "H\U{0131}z limitini a\U{015F}ma"),
    Violation("tr_3", "Ge\U{00E7}i\U{015F} \U{00F6}nceli\U{011F}ine uymama"),
    Violation("tr_4", "Hatal\U{0131} \U{015F}erit de\U{011F}i\U{015F}tirme"),
    Violation("tr_5", "Yak\U{0131}n takip")
  ]

  function Ids(vs: seq<Violation>): (r: seq<string>)
    ensures |r| == |vs|
    ensures forall i :: 0 <= i < |vs| ==> r[i] == vs[i].id
  {
    seq(|vs|, i requires 0 <= i < |vs| => vs[i].id)
  }

  /** A catalog whose five ids are `<prefix>1` ... `<prefix>5`, in order. */
  ghost predicate NumberedFrom(vs: seq<Violation>, prefix: string) {
    |vs| == 5 && forall i :: 0 <= i < 5 ==> vs[i].id == prefix + [DigitChar(i + 1)]
  }

  /** The ids of a numbered catalog are pairwise different. */
  lemma NumberedDistinct(vs: seq<Violation>, prefix: string)
    requires NumberedFrom(vs, prefix)
    ensures forall i, j :: 0 <= i < j < |vs| ==> vs[i].id != vs[j].id
  {
    forall i, j | 0 <= i < j < |vs| ensures vs[i].id != vs[j].id {
      assert vs[i].id[|prefix|] != vs[j].id[|prefix|];
    }
  }

  /** Two catalogs numbered under different prefixes of equal length share
      no id. */
  lemma NumberedDisjoint(vs: seq<Violation>, p: string, ws: seq<Violation>, q: string)
    requires NumberedFrom(vs, p) && NumberedFrom(ws, q)
    requires |p| == |q| && p != q
    ensures forall i, j :: 0 <= i < |vs| && 0 <= j < |ws| ==> vs[i].id != ws[j].id
  {
    forall i, j | 0 <= i < |vs| && 0 <= j < |ws| ensures vs[i].id != ws[j].id {
      assert vs[i].id[..|p|] == p;
      assert ws[j].id[..|q|] == q;
    }
  }

  /** Each catalog holds exactly five entries numbered 1 to 5 under its own
      prefix. */
  lemma CatalogsNumbered()
    ensures NumberedFrom(UkViolations, "uk_")
    ensures NumberedFrom(CaliforniaViolations, "ca_")
    ensures NumberedFrom(NewYorkViolations, "ny_")
    ensures NumberedFrom(TurkishViolations, "tr_")
  {
  }
}

=== FILE: gemini_service.dfy ===
/** The AI service: the extraction prompt, the grouping of evidence files it
    lists, the three generation calls of an analysis (structured extraction,
    schematic diagram, sketch image), the clarification call, and the
    messages both surface when anything fails. The remote models, the file
    reader and `JSON.parse` are parameters (`Services`), so the model shows
    which request each call receives and what the service makes of each
    possible answer. */
module GeminiService {
  import opened Base
  import opened JsonValue
  import opened Types

  // ---------------------------------------------------------------------------
  // Grouping the files for the prompt
  // ---------------------------------------------------------------------------

  /** The group a file is listed under: documents and recordings by kind and
      owner, scene material in one group of its own whatever its owner. */
  datatype GroupKey = GroupKey(kind: FileKind, owner: Option<Owner>)

  function KeyOf(f: UploadedFile): GroupKey {
    if f.kind == Document || f.kind == Audio then GroupKey(f.kind, f.owner) else GroupKey(Scene, None)
  }

  /** The text the source indexes its groups by: `document_A`, `audio_B`,
      `scene`, and `document_undefined` or `audio_undefined` for an ownerless
      document or recording. */
  function KeyName(k: GroupKey): string {
    if k.kind == Scene then "scene"
    else KindName(k.kind) + "_" + (if k.owner.Some? then OwnerName(k.owner.value) else "undefined")
  }

  /** Different groups have different names, so grouping by the structured
      key groups exactly as grouping by its text does. */
  lemma KeyNameInjective(k1: GroupKey, k2: GroupKey)
    requires k1 == KeyOf(UploadedFile("", "", k1.kind, k1.owner))
    requires k2 == KeyOf(UploadedFile("", "", k2.kind, k2.owner))
    ensures KeyName(k1) == KeyName(k2) ==> k1 == k2
  {
    if KeyName(k1) == KeyName(k2) {
      var n := KeyName(k1);
      if k1.kind == Scene || k2.kind == Scene {
        assert |n| == 5 || k1.kind == k2.kind;
      } else {
        assert n[0] == KindName(k1.kind)[0] == KindName(k2.kind)[0];
        assert k1.kind == k2.kind;
        var w := |KindName(k1.kind)| + 1;
        assert n[w..] == (if k1.owner.Some? then OwnerName(k1.owner.value) else "undefined");
        assert n[w..] == (if k2.owner.Some? then OwnerName(k2.owner.value) else "undefined");
      }
    }
  }

  /** The files of group `k`, in upload order. */
  function Members(files: seq<UploadedFile>, k: GroupKey): (r: seq<UploadedFile>)
    ensures |r| <= |files|
  {
    if files == [] then []
    else (if KeyOf(files[0]) == k then [files[0]] else []) + Members(files[1..], k)
  }

  /** The members of a group are exactly the files with its key. */
  lemma {:induction false} MembersAreKeyed(files: seq<UploadedFile>, k: GroupKey, f: UploadedFile)
    ensures f in Members(files, k) <==> f in files && KeyOf(f) == k
  {
    if files != [] {
      MembersAreKeyed(files[1..], k, f);
      assert files == [files[0]] + files[1..];
    }
  }

  /** The keys that occur among the files. */
  function Keys(files: seq<UploadedFile>): set<GroupKey> {
    set i | 0 <= i < |files| :: KeyOf(files[i])
  }

  /** The record the source's `reduce` builds: each file pushed, in order,
      onto the list of its key, which is created on first use. So there is a
      list exactly for the keys that occur, and each is that key's files in
      upload order. */
  function GroupFiles(files: seq<UploadedFile>): (r: map<GroupKey, seq<UploadedFile>>)
    ensures r.Keys == Keys(files)
  {
    map k | k in Keys(files) :: Members(files, k)
  }

  /** `filesByType[k] || []`. */
  function Group(groups: map<GroupKey, seq<UploadedFile>>, k: GroupKey): seq<UploadedFile> {
    if k in groups then groups[k] else []
  }

  /** Looking up any key in the grouping gives that key's files in upload
      order, and nothing for a key no file has. */
  lemma GroupIsMembers(files: seq<UploadedFile>, k: GroupKey)
    ensures Group(GroupFiles(files), k) == Members(files, k)
    ensures k in GroupFiles(files) <==> Members(files, k) != []
  {
    if Members(files, k) != [] {
      var f := Members(files, k)[0];
      MembersAreKeyed(files, k, f);
      var i :| 0 <= i < |files| && files[i] == f;
      assert k in Keys(files);
    }
    if k in Keys(files) {
      var i :| 0 <= i < |files| && KeyOf(files[i]) == k;
      MembersAreKeyed(files, k, files[i]);
    }
  }

  // ---------------------------------------------------------------------------
  // The extraction prompt
  // ---------------------------------------------------------------------------

  /** The groups the prompt lists, in the order it lists them. */
  const MediaOrder: seq<GroupKey> :=
    [GroupKey(Document, Some(A)), GroupKey(Document, Some(B)), GroupKey(Scene, None),
     GroupKey(Audio, Some(A)), GroupKey(Audio, Some(B))]

  function Heading(k: GroupKey): string {
    match k
    case GroupKey(Document, Some(A)) => "Driver A Documents (Extract details for Vehicle A/Driver A from these)"
    case GroupKey(Document, _) => "Driver B Documents (Extract details for Vehicle B/Driver B from these)"
    case GroupKey(Scene, _) => "Accident Scene Photos/Videos (Use for impact points, location, weather, light conditions)"
    case GroupKey(Audio, Some(A)) => "Driver A Audio Statement (Transcribe and use for statement and manoeuvre)"
    case GroupKey(Audio, _) => "Driver B Audio Statement (Transcribe and use for statement and manoeuvre)"
  }

  function Names(fs: seq<UploadedFile>): (r: seq<string>)
    ensures |r| == |fs| && forall i :: 0 <= i < |fs| ==> r[i] == fs[i].name
  {
    seq(|fs|, i requires 0 <= i < |fs| => fs[i].name)
  }

  /** The names of a group's files, as the prompt lists them. */
  function NameList(fs: seq<UploadedFile>): string {
    Join(Names(fs), ", ")
  }

  /** The line of group `k`, present only when the group has files. */
  function MediaLine(groups: map<GroupKey, seq<UploadedFile>>, k: GroupKey): string {
    if |Group(groups, k)| > 0 then "\n- " + Heading(k) + ": " + NameList(Group(groups, k))
    else ""
  }

  function MediaLines(groups: map<GroupKey, seq<UploadedFile>>, keys: seq<GroupKey>): string {
    if keys == [] then "" else MediaLine(groups, keys[0]) + MediaLines(groups, keys[1..])
  }

  function Coordinates(at: Location): string {
    "Latitude: " + at.lat + ", Longitude: " + at.lng
  }

  function LocationLine(location: Option<Location>): string {
    match location
    case None => ""
    case Some(at) => "\n- USER'S CURRENT LOCATION (Use to determine 'accident.geo.address'): " + Coordinates(at)
  }

  function ProfileLine(config: AppConfig): string {
    "\nCONTEXT:\n- Country Profile: " + LocaleCode(config.locale)
  }

  function LanguageLine(config: AppConfig): string {
    "\n- Language for response: " + LanguageCode(config.language)
  }

  const MediaIntro: string := "\n- You are an AI assistant processing an accident report.\n\nMEDIA INPUTS:\n"
  const ExtractionTask: string := "\n\nTASK:\nPopulate the provided JSON schema with data extracted from the media. Return ONLY the valid JSON object.\n"

  /** The text part of the extraction request. */
  function BuildPrompt(groups: map<GroupKey, seq<UploadedFile>>, config: AppConfig, location: Option<Location>): string {
    ProfileLine(config) + LanguageLine(config) + MediaIntro
    + MediaLines(groups, MediaOrder) + LocationLine(location) + ExtractionTask
  }

  /** A file's name reaches the prompt exactly when its group is one of the
      five listed: scene material, and documents and recordings that have an
      owner. An ownerless document or recording is sent to the model but
      never named. */
  lemma ListedIffSceneOrOwned(f: UploadedFile)
    ensures KeyOf(f) in MediaOrder <==> f.kind == Scene || f.owner.Some?
  {
    if f.kind == Scene {
      assert MediaOrder[2] == KeyOf(f);
    } else if f.owner.Some? {
      match (f.kind, f.owner.value) {
        case (Document, A) => assert MediaOrder[0] == KeyOf(f);
        case (Document, B) => assert MediaOrder[1] == KeyOf(f);
        case (Audio, A) => assert MediaOrder[3] == KeyOf(f);
        case (Audio, B) => assert MediaOrder[4] == KeyOf(f);
      }
    }
  }

  lemma {:induction false} MediaLinesContain(groups: map<GroupKey, seq<UploadedFile>>, keys: seq<GroupKey>, j: nat, t: string)
    requires j < |keys| && Contains(MediaLine(groups, keys[j]), t)
    ensures Contains(MediaLines(groups, keys), t)
    decreases |keys|
  {
    if j == 0 {
      ContainsBefore(MediaLine(groups, keys[0]), MediaLines(groups, keys[1..]), t);
    } else {
      MediaLinesContain(groups, keys[1..], j - 1, t);
      ContainsAfter(MediaLine(groups, keys[0]), MediaLines(groups, keys[1..]), t);
    }
  }

  /** Every scene file and every owned document or recording is named in the
      prompt built from the grouping. */
  lemma PromptNamesListedFiles(files: seq<UploadedFile>, config: AppConfig, location: Option<Location>, i: nat)
    requires i < |files| && (files[i].kind == Scene || files[i].owner.Some?)
    ensures Contains(BuildPrompt(GroupFiles(files), config, location), files[i].name)
  {
    var groups := GroupFiles(files);
    var f := files[i];
    var k := KeyOf(f);
    ListedIffSceneOrOwned(f);
    var j :| 0 <= j < |MediaOrder| && MediaOrder[j] == k;
    var g := Group(groups, k);
    GroupIsMembers(files, k);
    MembersAreKeyed(files, k, f);
    var n :| 0 <= n < |g| && g[n] == f;
    JoinContains(Names(g), ", ", n);
    assert Names(g)[n] == f.name;
    var lead := "\n- " + Heading(k) + ": ";
    ContainsAfter(lead, NameList(g), f.name);
    assert MediaLine(groups, k) == lead + NameList(g);
    MediaLinesContain(groups, MediaOrder, j, f.name);
    PromptContainsMedia(groups, config, location, f.name);
  }

  /** Whatever the media lines contain, the prompt contains. */
  lemma PromptContainsMedia(groups: map<GroupKey, seq<UploadedFile>>, config: AppConfig, location: Option<Location>, t: string)
    requires Contains(MediaLines(groups, MediaOrder), t)
    ensures Contains(BuildPrompt(groups, config, location), t)
  {
    var head := ProfileLine(config) + LanguageLine(config) + MediaIntro;
    ContainsAfter(head, MediaLines(groups, MediaOrder), t);
    ContainsBefore(head + MediaLines(groups, MediaOrder), LocationLine(location), t);
    ContainsBefore(head + MediaLines(groups, MediaOrder) + LocationLine(location), ExtractionTask, t);
  }

  /** The prompt names the country profile and the response language. */
  lemma PromptCarriesConfig(groups: map<GroupKey, seq<UploadedFile>>, config: AppConfig, location: Option<Location>)
    ensures Contains(BuildPrompt(groups, config, location), ProfileLine(config))
    ensures Contains(BuildPrompt(groups, config, location), LanguageLine(config))
  {
    var p1, p2 := ProfileLine(config), LanguageLine(config);
    ContainsSelf(p1);
    ContainsBefore(p1, p2, p1);
    ContainsSelf(p2);
    ContainsAfter(p1, p2, p2);
    PromptContainsHead(groups, config, location, p1);
    PromptContainsHead(groups, config, location, p2);
  }

  /** Whatever the profile and language lines contain, the prompt
      contains. */
  lemma PromptContainsHead(groups: map<GroupKey, seq<UploadedFile>>, config: AppConfig, location: Option<Location>, u: string)
    requires Contains(ProfileLine(config) + LanguageLine(config), u)
    ensures Contains(BuildPrompt(groups, config, location), u)
  {
    var p1, p2 := ProfileLine(config), LanguageLine(config);
    var media, loc := MediaLines(groups, MediaOrder), LocationLine(location);
    ContainsBefore(p1 + p2, MediaIntro, u);
    ContainsBefore(p1 + p2 + MediaIntro, media, u);
    ContainsBefore(p1 + p2 + MediaIntro + media, loc, u);
    ContainsBefore(p1 + p2 + MediaIntro + media + loc, ExtractionTask, u);
  }

  /** The prompt carries the device position when there is one. */
  lemma PromptCarriesLocation(groups: map<GroupKey, seq<UploadedFile>>, config: AppConfig, location: Option<Location>)
    requires location.Some?
    ensures Contains(BuildPrompt(groups, config, location), Coordinates(location.value))
  {
    var p1, p2 := ProfileLine(config), LanguageLine(config);
    var media, loc := MediaLines(groups, MediaOrder), LocationLine(location);
    var t := Coordinates(location.value);
    ContainsSelf(t);
    ContainsAfter("\n- USER'S CURRENT LOCATION (Use to determine 'accident.geo.address'): ", t, t);
    ContainsAfter(p1 + p2 + MediaIntro + media, loc, t);
    ContainsBefore(p1 + p2 + MediaIntro + media + loc, ExtractionTask, t);
  }

  // ---------------------------------------------------------------------------
  // The briefs for the diagram and the sketch
  // ---------------------------------------------------------------------------

  /** `report.vehicles?.find(v => v.label === label)`. */
  function FindVehicle(report: PartialReport, slot: string): (r: Option<PartialVehicle>)
    ensures r.Some? ==> report.vehicles.Some? && r.value in report.vehicles.value
                        && r.value.vehicleLabel == Some(slot)
    ensures r.None? <==> report.vehicles.None?
                         || forall i :: 0 <= i < |report.vehicles.value| ==>
                              report.vehicles.value[i].vehicleLabel != Some(slot)
  {
    match report.vehicles
    case None => None
    case Some(vs) => FirstWhere(vs, (v: PartialVehicle) => v.vehicleLabel == Some(slot))
  }

  function ManoeuvreOf(report: PartialReport, slot: string): Option<string> {
    match FindVehicle(report, slot)
    case None => None
    case Some(v) => v.manoeuvre
  }

  function ImpactOf(report: PartialReport, slot: string): Option<string> {
    match FindVehicle(report, slot)
    case None => None
    case Some(v) => v.first_impact
  }

  /** `text || fallback` on a text that may be undefined. */
  function OrElse(text: Option<string>, fallback: string): (r: string)
    ensures r == fallback <==> text.None? || text.value == "" || text.value == fallback
    ensures r != fallback ==> text == Some(r)
  {
    if text.Some? && text.value != "" then text.value else fallback
  }

  /** `${text}` on a text that may be undefined. */
  function Interpolated(text: Option<string>): (r: string)
    ensures text.None? ==> r == "undefined"
    ensures text.Some? ==> r == text.value
  {
    if text.Some? then text.value else "undefined"
  }

  const DiagramIntro: string := "\nBased on the following information, create a simple, schematic SVG diagram of the accident scene."
  const DiagramTask: string := "\n\nTASK:\nReturn ONLY a valid SVG string. The SVG should be 400x300.\n"

  function ManoeuvreItem(report: PartialReport, slot: string): string {
    "\n- Vehicle " + slot + " Manoeuvre: " + OrElse(ManoeuvreOf(report, slot), "Not specified")
  }

  function ImpactPoint(report: PartialReport, slot: string): string {
    "Vehicle " + slot + " - " + Interpolated(ImpactOf(report, slot))
  }

  function ImpactItem(report: PartialReport): string {
    "\n- First Impact Points: " + ImpactPoint(report, "A") + ", " + ImpactPoint(report, "B")
  }

  /** The brief of the diagram call. */
  function DiagramPrompt(report: PartialReport): string {
    DiagramIntro + ManoeuvreItem(report, "A") + ManoeuvreItem(report, "B") + ImpactItem(report) + DiagramTask
  }

  const SketchIntro: string := "\nCreate a simple, black and white, top-down schematic sketch of a traffic accident based on this information:"
  const SketchTask: string := "\n- Use the provided scene photos to inform the road layout.\n- Label the vehicles 'A' and 'B'.\n"

  function SketchItem(report: PartialReport, slot: string): string {
    "\n- Vehicle " + slot + " was " + OrElse(ManoeuvreOf(report, slot), "driving") + "."
  }

  function SketchImpactItem(report: PartialReport, slot: string): string {
    "\n- The impact for Vehicle " + slot + " was on the " + Interpolated(ImpactOf(report, slot)) + "."
  }

  /** The brief of the sketch call. */
  function SketchPrompt(report: PartialReport): string {
    SketchIntro + SketchItem(report, "A") + SketchItem(report, "B")
    + SketchImpactItem(report, "A") + SketchImpactItem(report, "B") + SketchTask
  }

  /** When the reply has no vehicle with a label, the diagram brief says its
      manoeuvre is not specified and its impact point is "undefined". */
  lemma DiagramBriefWithoutVehicle(report: PartialReport, slot: string)
    requires slot == "A" || slot == "B"
    requires FindVehicle(report, slot).None?
    ensures ManoeuvreItem(report, slot) == "\n- Vehicle " + slot + " Manoeuvre: " + "Not specified"
    ensures ImpactPoint(report, slot) == "Vehicle " + slot + " - " + "undefined"
    ensures Contains(DiagramPrompt(report), ManoeuvreItem(report, slot))
    ensures Contains(DiagramPrompt(report), ImpactPoint(report, slot))
  {
    var x, a, b, i := DiagramIntro, ManoeuvreItem(report, "A"), ManoeuvreItem(report, "B"), ImpactItem(report);
    var pa, pb := ImpactPoint(report, "A"), ImpactPoint(report, "B");
    var m, p := ManoeuvreItem(report, slot), ImpactPoint(report, slot);
    ContainsSelf(m);
    if slot == "A" {
      ContainsAfter(x, a, m);
      ContainsBefore(x + a, b, m);
    } else {
      ContainsAfter(x + a, b, m);
    }
    ContainsBefore(x + a + b, i, m);
    ContainsBefore(x + a + b + i, DiagramTask, m);
    ContainsSelf(p);
    if slot == "A" {
      ContainsAfter("\n- First Impact Points: ", pa, p);
      ContainsBefore("\n- First Impact Points: " + pa, ", ", p);
      ContainsBefore("\n- First Impact Points: " + pa + ", ", pb, p);
    } else {
      ContainsAfter("\n- First Impact Points: " + pa + ", ", pb, p);
    }
    ContainsAfter(x + a + b, i, p);
    ContainsBefore(x + a + b + i, DiagramTask, p);
  }

  /** When the reply has no vehicle with a label, the sketch brief says it
      was driving and was hit on the "undefined". */
  lemma SketchBriefWithoutVehicle(report: PartialReport, slot: string)
    requires slot == "A" || slot == "B"
    requires FindVehicle(report, slot).None?
    ensures SketchItem(report, slot) == "\n- Vehicle " + slot + " was " + "driving" + "."
    ensures SketchImpactItem(report, slot) == "\n- The impact for Vehicle " + slot + " was on the " + "undefined" + "."
    ensures Contains(SketchPrompt(report), SketchItem(report, slot))
    ensures Contains(SketchPrompt(report), SketchImpactItem(report, slot))
  {
    var x, a, b := SketchIntro, SketchItem(report, "A"), SketchItem(report, "B");
    var c, d := SketchImpactItem(report, "A"), SketchImpactItem(report, "B");
    var m, p := SketchItem(report, slot), SketchImpactItem(report, slot);
    ContainsSelf(m);
    if slot == "A" {
      ContainsAfter(x, a, m);
      ContainsBefore(x + a, b, m);
    } else {
      ContainsAfter(x + a, b, m);
    }
    ContainsBefore(x + a + b, c, m);
    ContainsBefore(x + a + b + c, d, m);
    ContainsBefore(x + a + b + c + d, SketchTask, m);
    ContainsSelf(p);
    if slot == "A" {
      ContainsAfter(x + a + b, c, p);
      ContainsBefore(x + a + b + c, d, p);
    } else {
      ContainsAfter(x + a + b + c, d, p);
    }
    ContainsBefore(x + a + b + c + d, SketchTask, p);
  }

  /** The pictures sent with the diagram request: the files of the scene
      group whose MIME type is an image. */
  function ScenePhotos(groups: map<GroupKey, seq<UploadedFile>>): seq<UploadedFile> {
    Filter(Group(groups, GroupKey(Scene, None)), (f: UploadedFile) => HasPrefix(f.mime, "image/"))
  }

  /** The diagram request carries exactly the files marked as scene material
      whose MIME type is an image: a video, or a picture marked as a
      document, is not sent. */
  lemma ScenePhotosAreSceneImages(files: seq<UploadedFile>, f: UploadedFile)
    ensures f in ScenePhotos(GroupFiles(files)) <==> f in files && f.kind == Scene && HasPrefix(f.mime, "image/")
  {
    var k := GroupKey(Scene, None);
    GroupIsMembers(files, k);
    MembersAreKeyed(files, k, f);
    var g := Group(GroupFiles(files), k);
    if f in g && HasPrefix(f.mime, "image/") {
      var j :| 0 <= j < |g| && g[j] == f;
    }
  }

  // ---------------------------------------------------------------------------
  // The calls
  // ---------------------------------------------------------------------------

  /** What a failing step throws: an `Error` with its message, or some other
      value (the file reader rejects with its progress event). */
  datatype Thrown = Raised(message: string) | NotAnError

  /** The message of the `TypeError` a property read on `undefined` throws.
      Messages the service raises itself are written in short pieces. */
  const UndefinedReadText: string := "Cannot read properties" + " of undefined"
  const EmptyExtractionText: string := "AI returned an empty" + " response for data " + "extraction."
  const EmptyClarificationText: string := "AI returned an empty" + " response during " + "clarification."

  const InvalidKeyMessage: string := "Invalid API Key. Please check your settings."
  const ConnectionMessage: string := "Could not connect" + " to the AI server or" + " process the response."
  const ClarificationMessage: string := "An error occurred while processing your answer with the AI."

  datatype ExtractionRequest = ExtractionRequest(prompt: string, files: seq<UploadedFile>)
  datatype DiagramRequest = DiagramRequest(prompt: string, photos: seq<UploadedFile>)
  datatype ClarificationRequest = ClarificationRequest(report: Json, questions: string, answer: string)

  /** Which of the two concurrent calls of an analysis fails first when both
      fail. */
  datatype Call = DiagramCall | SketchCall

  /** The outside world of the service. The text calls answer with the
      reply's `text`, which may be undefined; the image call answers with the
      bytes of each generated image, each of which may be undefined. */
  datatype Services = Services(
    readable: UploadedFile -> bool,
    extract: ExtractionRequest -> Result<Option<string>, Thrown>,
    parseReport: string -> Result<PartialReport, Thrown>,
    draw: DiagramRequest -> Result<Option<string>, Thrown>,
    paint: string -> Result<seq<Option<string>>, Thrown>,
    firstRejected: Call,
    clarify: ClarificationRequest -> Result<Option<string>, Thrown>,
    parseJson: string -> Result<Json, Thrown>)

  /** What a successful analysis hands back. */
  datatype Analysis = Analysis(report: PartialReport, questions: seq<AIQuestion>, diagram: string, sketch: Option<string>)

  /** The message an analysis failure surfaces: the invalid-key message for
      an error mentioning the key, the connection message otherwise. */
  function AnalysisMessage(t: Thrown): (m: string)
    ensures m == InvalidKeyMessage <==> t.Raised? && Contains(t.message, "API_KEY")
    ensures m == InvalidKeyMessage || m == ConnectionMessage
  {
    assert InvalidKeyMessage != ConnectionMessage by {
      assert InvalidKeyMessage[0] == 'I';
      assert "Could not connect"[0] == 'C';
    }
    if t.Raised? && Contains(t.message, "API_KEY") then InvalidKeyMessage else ConnectionMessage
  }

  /** `Promise.all` of the two concurrent calls: both answers, or the
      rejection that came first. */
  function BothSettled(diagram: Result<Option<string>, Thrown>, sketch: Result<seq<Option<string>>, Thrown>,
                       first: Call): (r: Result<(Option<string>, seq<Option<string>>), Thrown>)
    ensures r.Ok? <==> diagram.Ok? && sketch.Ok?
    ensures r.Ok? ==> r.value == (diagram.value, sketch.value)
    ensures diagram.Err? && (sketch.Ok? || first == DiagramCall) ==> r == Err(diagram.error)
    ensures sketch.Err? && (diagram.Ok? || first == SketchCall) ==> r == Err(sketch.error)
  {
    match (diagram, sketch)
    case (Ok(d), Ok(s)) => Ok((d, s))
    case (Err(e), Ok(_)) => Err(e)
    case (Ok(_), Err(e)) => Err(e)
    case (Err(e1), Err(e2)) => if first == DiagramCall then Err(e1) else Err(e2)
  }

  /** The extraction request: the prompt built from the grouping, then
      every file, in upload order. */
  function ExtractionRequestFor(files: seq<UploadedFile>, config: AppConfig, location: Option<Location>): (r: ExtractionRequest)
    ensures r.files == files
  {
    ExtractionRequest(BuildPrompt(GroupFiles(files), config, location), files)
  }

  /** The extraction step: the reply's text is trimmed, an empty one is
      rejected, and the rest is parsed. */
  function ExtractReport(s: Services, req: ExtractionRequest): (r: Result<PartialReport, Thrown>)
    ensures var reply := s.extract(req);
            r.Ok? <==> reply.Ok? && reply.value.Some? && !AllSpace(reply.value.value)
                       && s.parseReport(Trim(reply.value.value)).Ok?
    ensures r.Ok? ==> r == s.parseReport(Trim(s.extract(req).value.value))
    ensures var reply := s.extract(req);
            reply.Ok? && reply.value.Some? && AllSpace(reply.value.value) ==> r == Err(Raised(EmptyExtractionText))
    ensures s.extract(req).Err? ==> r == s.extract(req).PropagateFailure()
  {
    match s.extract(req)
    case Err(t) => Err(t)
    case Ok(None) => Err(Raised(UndefinedReadText))
    case Ok(Some(text)) =>
      TrimEmptyIffAllSpace(text);
      if Trim(text) == "" then Err(Raised(EmptyExtractionText))
      else s.parseReport(Trim(text))
  }

  /** The diagram and sketch step: both calls are made, and both must
      succeed. The diagram is the trimmed reply text, the sketch the bytes of
      the first generated image. */
  function Illustrate(s: Services, photos: seq<UploadedFile>, report: PartialReport): (r: Result<(string, Option<string>), Thrown>)
    ensures s.draw(DiagramRequest(DiagramPrompt(report), photos)).Err? ==> r.Err?
    ensures s.paint(SketchPrompt(report)).Err? ==> r.Err?
    ensures r.Ok? ==> Trim(r.value.0) == r.value.0
    ensures r.Ok? ==> s.paint(SketchPrompt(report)).Ok? && s.paint(SketchPrompt(report)).value != []
                      && r.value.1 == s.paint(SketchPrompt(report)).value[0]
    ensures r.Ok? ==> s.draw(DiagramRequest(DiagramPrompt(report), photos)).Ok?
                      && s.draw(DiagramRequest(DiagramPrompt(report), photos)).value.Some?
                      && r.value.0 == Trim(s.draw(DiagramRequest(DiagramPrompt(report), photos)).value.value)
  {
    match BothSettled(s.draw(DiagramRequest(DiagramPrompt(report), photos)), s.paint(SketchPrompt(report)), s.firstRejected)
    case Err(t) => Err(t)
    case Ok((None, _)) => Err(Raised(UndefinedReadText))
    case Ok((Some(svg), images)) =>
      if images == [] then Err(Raised(UndefinedReadText))
      else
        TrimIdempotent(svg);
        Ok((Trim(svg), images[0]))
  }

  /** The `try` block of an analysis: read every file, extract, then brief
      the diagram and the sketch calls and wait for both. */
  function Analyse(s: Services, files: seq<UploadedFile>, config: AppConfig, location: Option<Location>): (r: Result<Analysis, Thrown>)
    ensures r.Ok? ==> forall i :: 0 <= i < |files| ==> s.readable(files[i])
    ensures r.Ok? ==> r.value.questions == r.value.report.questions.GetOr([])
    ensures r.Ok? ==> Trim(r.value.diagram) == r.value.diagram
    ensures r.Ok? ==> ExtractReport(s, ExtractionRequestFor(files, config, location)) == Ok(r.value.report)
                      && Illustrate(s, ScenePhotos(GroupFiles(files)), r.value.report) == Ok((r.value.diagram, r.value.sketch))
  {
    if exists i :: 0 <= i < |files| && !s.readable(files[i]) then Err(NotAnError)
    else
      match ExtractReport(s, ExtractionRequestFor(files, config, location))
      case Err(t) => Err(t)
      case Ok(report) =>
        match Illustrate(s, ScenePhotos(GroupFiles(files)), report)
        case Err(t) => Err(t)
        case Ok((svg, sketch)) => Ok(Analysis(report, report.questions.GetOr([]), svg, sketch))
  }

  /** `processMediaWithAI`: an analysis, or one of its two messages. */
  function ProcessMediaWithAI(s: Services, files: seq<UploadedFile>, config: AppConfig, location: Option<Location>): (r: Result<Analysis, string>)
    ensures r.Err? ==> r.error == InvalidKeyMessage || r.error == ConnectionMessage
    ensures r.Ok? ==> forall i :: 0 <= i < |files| ==> s.readable(files[i])
    ensures r.Ok? ==> r.value.questions == r.value.report.questions.GetOr([])
    ensures r.Ok? ==> Trim(r.value.diagram) == r.value.diagram
  {
    match Analyse(s, files, config, location)
    case Err(t) => Err(AnalysisMessage(t))
    case Ok(a) => Ok(a)
  }

  /** No message the service raises itself mentions the key. */
  lemma OwnMessagesLackKey()
    ensures !Contains(UndefinedReadText, "API_KEY")
    ensures !Contains(EmptyExtractionText, "API_KEY")
    ensures !Contains(EmptyClarificationText, "API_KEY")
  {
    assert '_' !in "Cannot read properties" && '_' !in " of undefined";
    assert '_' !in "AI returned an empty" && '_' !in " response for data " && '_' !in "extraction.";
    assert '_' !in " response during " && '_' !in "clarification.";
    if Contains(UndefinedReadText, "API_KEY") { ContainsHasChars(UndefinedReadText, "API_KEY", 0, 3); }
    if Contains(EmptyExtractionText, "API_KEY") { ContainsHasChars(EmptyExtractionText, "API_KEY", 0, 3); }
    if Contains(EmptyClarificationText, "API_KEY") { ContainsHasChars(EmptyClarificationText, "API_KEY", 0, 3); }
  }

  /** An extraction reply that is empty or all white space fails the whole
      analysis with the connection message. */
  lemma BlankExtractionFails(s: Services, files: seq<UploadedFile>, config: AppConfig, location: Option<Location>)
    requires forall i :: 0 <= i < |files| ==> s.readable(files[i])
    requires var reply := s.extract(ExtractionRequestFor(files, config, location));
             reply.Ok? && reply.value.Some? && AllSpace(reply.value.value)
    ensures ProcessMediaWithAI(s, files, config, location) == Err(ConnectionMessage)
  {
    OwnMessagesLackKey();
    assert Analyse(s, files, config, location) == Err(Raised(EmptyExtractionText));
  }

  /** The extraction is answered, but the diagram call or the sketch call
      fails: the whole analysis fails too, and the extracted report is lost. */
  lemma SideCallFailureFailsAnalysis(s: Services, files: seq<UploadedFile>, config: AppConfig, location: Option<Location>)
    requires forall i :: 0 <= i < |files| ==> s.readable(files[i])
    requires var report := ExtractReport(s, ExtractionRequestFor(files, config, location));
             report.Ok?
             && (s.draw(DiagramRequest(DiagramPrompt(report.value), ScenePhotos(GroupFiles(files)))).Err?
                 || s.paint(SketchPrompt(report.value)).Err?)
    ensures ProcessMediaWithAI(s, files, config, location).Err?
  {
    var report := ExtractReport(s, ExtractionRequestFor(files, config, location)).value;
    assert Illustrate(s, ScenePhotos(GroupFiles(files)), report).Err?;
    IllustrationFailureFailsAnalysis(s, files, config, location);
  }

  lemma IllustrationFailureFailsAnalysis(s: Services, files: seq<UploadedFile>, config: AppConfig, location: Option<Location>)
    requires forall i :: 0 <= i < |files| ==> s.readable(files[i])
    requires var report := ExtractReport(s, ExtractionRequestFor(files, config, location));
             report.Ok? && Illustrate(s, ScenePhotos(GroupFiles(files)), report.value).Err?
    ensures Analyse(s, files, config, location).Err?
  {
  }

  /** An analysis that succeeds sent every file, in upload order, with a
      prompt built from their grouping; the report it returns is the parsed
      trimmed reply; the diagram request carried the scene pictures and the
      diagram is its trimmed reply; and the sketch is the first generated
      image. */
  lemma AnalysisRequests(s: Services, files: seq<UploadedFile>, config: AppConfig, location: Option<Location>)
    requires ProcessMediaWithAI(s, files, config, location).Ok?
    ensures var req := ExtractionRequestFor(files, config, location);
            var a := ProcessMediaWithAI(s, files, config, location).value;
            var reply := s.extract(req);
            reply.Ok? && reply.value.Some? && !AllSpace(reply.value.value)
            && s.parseReport(Trim(reply.value.value)) == Ok(a.report)
            && s.draw(DiagramRequest(DiagramPrompt(a.report), ScenePhotos(GroupFiles(files)))).Ok?
            && s.draw(DiagramRequest(DiagramPrompt(a.report), ScenePhotos(GroupFiles(files)))).value.Some?
            && a.diagram == Trim(s.draw(DiagramRequest(DiagramPrompt(a.report), ScenePhotos(GroupFiles(files)))).value.value)
            && s.paint(SketchPrompt(a.report)).Ok?
            && s.paint(SketchPrompt(a.report)).value != []
            && a.sketch == s.paint(SketchPrompt(a.report)).value[0]
  {
  }

  // ---------------------------------------------------------------------------
  // Clarification
  // ---------------------------------------------------------------------------

  /** `q.question` as `join` renders it: undefined becomes the empty text. */
  function QuestionText(q: AIQuestion): string {
    q.question.GetOr("")
  }

  /** The bullet list of the questions asked, as the prompt shows it. */
  function QuestionList(questions: seq<AIQuestion>): (r: string)
    ensures HasPrefix(r, "- ")
  {
    "- " + Join(seq(|questions|, i requires 0 <= i < |questions| => QuestionText(questions[i])), "\n- ")
  }

  lemma QuestionListShowsEach(questions: seq<AIQuestion>, i: nat)
    requires i < |questions|
    ensures Contains(QuestionList(questions), QuestionText(questions[i]))
  {
    var texts := seq(|questions|, i requires 0 <= i < |questions| => QuestionText(questions[i]));
    JoinContains(texts, "\n- ", i);
    ContainsWithin("- ", Join(texts, "\n- "), "", texts[i]);
    assert "- " + Join(texts, "\n- ") + "" == QuestionList(questions);
  }

  /** `clarifyReportWithAI`: the parsed reply, whatever JSON it is, or the
      one clarification message, whatever went wrong. */
  function ClarifyReportWithAI(s: Services, report: Json, questions: seq<AIQuestion>, answer: string): (r: Result<Json, string>)
    ensures r.Err? ==> r.error == ClarificationMessage
    ensures var reply := s.clarify(ClarificationRequest(report, QuestionList(questions), answer));
            r.Ok? <==> reply.Ok? && reply.value.Some? && Trim(reply.value.value) != ""
                       && s.parseJson(Trim(reply.value.value)).Ok?
    ensures var reply := s.clarify(ClarificationRequest(report, QuestionList(questions), answer));
            r.Ok? ==> r.value == s.parseJson(Trim(reply.value.value)).value
  {
    match s.clarify(ClarificationRequest(report, QuestionList(questions), answer))
    case Err(_) => Err(ClarificationMessage)
    case Ok(None) => Err(ClarificationMessage)
    case Ok(Some(text)) =>
      if Trim(text) == "" then Err(ClarificationMessage)
      else
        match s.parseJson(Trim(text))
        case Err(_) => Err(ClarificationMessage)
        case Ok(j) => Ok(j)
  }
}

=== FILE: json.dfy ===
/** The JSON-like values the application keeps its report in, and the parts of
    JavaScript's property semantics the report code relies on: truthiness,
    canonical array-index keys, `parseInt`'s "is it a number" test, property
    reads that may throw, and reading a value at a key path. */
module JsonValue {
  import opened Base

  /** A value produced by `JSON.parse` or by the application's own object
      literals. Numbers do not occur in the report and are not modelled. */
  datatype Json =
    | JNull
    | JBool(b: bool)
    | JStr(s: string)
    | JArr(items: seq<Json>)
    | JObj(fields: map<string, Json>)

  /** The errors JavaScript code can raise on such values. `Unrepresentable`
      stands for behaviour whose result a `Json` value cannot express (an
      array with holes, a named property on an array). */
  datatype JsError = TypeError | Unrepresentable

  /** JavaScript truthiness: `null`, `false` and `""` are falsy; arrays and
      objects, even empty ones, are truthy. */
  predicate Truthy(j: Json) {
    match j
    case JNull => false
    case JBool(b) => b
    case JStr(s) => s != ""
    case _ => true
  }

  /** Truthiness of a value that may be `undefined` (`None`). */
  predicate TruthyOpt(o: Option<Json>) {
    o.Some? && Truthy(o.value)
  }

  // ---------------------------------------------------------------------------
  // Decimal digits and array-index keys
  // ---------------------------------------------------------------------------

  predicate IsDigit(c: char) {
    '0' <= c <= '9'
  }

  predicate AllDigits(s: string) {
    forall i :: 0 <= i < |s| ==> IsDigit(s[i])
  }

  function DigitChar(d: nat): (c: char)
    requires d < 10
    ensures IsDigit(c)
    ensures c as int - '0' as int == d
  {
    ('0' as int + d) as char
  }

  /** The value of a string of decimal digits. */
  function DecimalValue(s: string): nat
    requires AllDigits(s)
  {
    if |s| == 0 then 0
    else DecimalValue(s[..|s| - 1]) * 10 + (s[|s| - 1] as int - '0' as int)
  }

  /** `String(n)` for a natural number: its shortest decimal spelling. */
  function NatToDecimal(n: nat): (r: string)
    ensures |r| > 0 && AllDigits(r)
    ensures |r| > 1 ==> r[0] != '0'
  {
    if n < 10 then [DigitChar(n)]
    else NatToDecimal(n / 10) + [DigitChar(n % 10)]
  }

  lemma {:induction false} DecimalValueOfNatToDecimal(n: nat)
    ensures DecimalValue(NatToDecimal(n)) == n
  {
    if n >= 10 {
      var p := NatToDecimal(n / 10);
      var r := p + [DigitChar(n % 10)];
      assert r[..|r| - 1] == p;
      DecimalValueOfNatToDecimal(n / 10);
    }
  }

  /** Array indices are below 2^32 - 1 in JavaScript. */
  const MaxArrayIndex: nat := 4294967295

  /** The index a property key denotes on an array: only canonical decimal
      spellings (`"0"`, `"17"`, not `"017"` or `"+1"`) below the array-index
      limit name elements; every other key names an ordinary property. */
  function ArrayIndex(key: string): (r: Option<nat>)
    ensures r.Some? ==> key == NatToDecimal(r.value) && r.value < MaxArrayIndex
  {
    if |key| > 0 && AllDigits(key) && NatToDecimal(DecimalValue(key)) == key
       && DecimalValue(key) < MaxArrayIndex
    then Some(DecimalValue(key))
    else None
  }

  /** Every index below the limit is denoted by its decimal spelling, so
      different keys never name the same element. */
  lemma ArrayIndexOfDecimal(i: nat)
    requires i < MaxArrayIndex
    ensures ArrayIndex(NatToDecimal(i)) == Some(i)
  {
    DecimalValueOfNatToDecimal(i);
  }

  /** `!isNaN(parseInt(key, 10))`: after leading white space and an optional
      sign the key starts with a decimal digit. */
  predicate ParsesAsInt(key: string) {
    var t := TrimStart(key);
    var u := if |t| > 0 && (t[0] == '+' || t[0] == '-') then t[1..] else t;
    |u| > 0 && IsDigit(u[0])
  }

  // ---------------------------------------------------------------------------
  // Reading
  // ---------------------------------------------------------------------------

  /** The value at a key path, or `None` when some step is missing (a key
      absent from an object, an index past an array's end, or a step into a
      string, boolean or `null`). */
  function GetPath(j: Json, path: seq<string>): Option<Json>
    decreases |path|
  {
    if |path| == 0 then Some(j)
    else
      match j
      case JObj(m) =>
        if path[0] in m then GetPath(m[path[0]], path[1..]) else None
      case JArr(a) =>
        (match ArrayIndex(path[0])
         case Some(i) => if i < |a| then GetPath(a[i], path[1..]) else None
         case None => None)
      case _ => None
  }

  /** `o[key]`: reading a property of `null` throws; reading a missing
      property yields `undefined` (`None`). Properties that strings and
      booleans inherit or own (`length`, character indices) are not modelled. */
  function Prop(o: Json, key: string): (r: Result<Option<Json>, JsError>)
    ensures r.Err? <==> o.JNull?
    ensures r.Err? ==> r.error == TypeError
    ensures r.Ok? ==> r.value == GetPath(o, [key])
  {
    match o
    case JNull => Err(TypeError)
    case JObj(m) => Ok(if key in m then Some(m[key]) else None)
    case JArr(a) =>
      Ok(match ArrayIndex(key)
         case Some(i) => if i < |a| then Some(a[i]) else None
         case None => None)
    case _ => Ok(None)
  }

  /** `o[key]` where `o` itself may be `undefined` (`None`), which throws. */
  function PropOf(o: Option<Json>, key: string): (r: Result<Option<Json>, JsError>)
    ensures o.None? ==> r == Err(TypeError)
    ensures o.Some? ==> r == Prop(o.value, key)
  {
    match o
    case None => Err(TypeError)
    case Some(j) => Prop(j, key)
  }

  lemma {:induction false} GetPathAppend(j: Json, p: seq<string>, q: seq<string>)
    ensures GetPath(j, p + q) ==
              (match GetPath(j, p)
               case Some(k) => GetPath(k, q)
               case None => None)
    decreases |p|
  {
    if |p| > 0 {
      assert (p + q)[0] == p[0];
      assert (p + q)[1..] == p[1..] + q;
      if j.JObj? && p[0] in j.fields {
        GetPathAppend(j.fields[p[0]], p[1..], q);
      } else if j.JArr? && ArrayIndex(p[0]).Some? && ArrayIndex(p[0]).value < |j.items| {
        GetPathAppend(j.items[ArrayIndex(p[0]).value], p[1..], q);
      }
    } else {
      assert p + q == q;
    }
  }
}

=== FILE: media_uploader.dfy ===
/** The upload screen: classifying dropped or picked files, the per-file
    kind and owner selectors, removing a file, the optional device location,
    and the guard of the "Start Analysis" button. */
module MediaUploader {
  import opened Base
  import opened JsonValue
  import opened Types

  /** A file as the browser hands it over: its name and MIME type. */
  datatype IncomingFile = IncomingFile(name: string, mime: string)

  /** The kind a file gets on arrival: pictures and videos show the scene,
      sound is a recording, everything else a document. */
  function Classify(mime: string): (k: FileKind)
    ensures k == Scene <==> HasPrefix(mime, "image/") || HasPrefix(mime, "video/")
    ensures k == Audio <==> !HasPrefix(mime, "image/") && !HasPrefix(mime, "video/") && HasPrefix(mime, "audio/")
    ensures k == Document <==> !HasPrefix(mime, "image/") && !HasPrefix(mime, "video/") && !HasPrefix(mime, "audio/")
  {
    if HasPrefix(mime, "image/") then Scene
    else if HasPrefix(mime, "video/") then Scene
    else if HasPrefix(mime, "audio/") then Audio
    else Document
  }

  /** The owner a file of kind `k` starts with: driver A, except scene
      material, which belongs to nobody. */
  function DefaultOwner(k: FileKind): (o: Option<Owner>)
    ensures o.None? <==> k == Scene
    ensures o.Some? ==> o.value == A
  {
    if k != Scene then Some(A) else None
  }

  /** The rule the two selectors keep: a file has an owner exactly when it
      is not scene material. */
  predicate OwnedUnlessScene(f: UploadedFile) {
    f.owner.Some? <==> f.kind != Scene
  }

  predicate AllOwnedUnlessScene(files: seq<UploadedFile>) {
    forall i :: 0 <= i < |files| ==> OwnedUnlessScene(files[i])
  }

  function Arrive(f: IncomingFile): (u: UploadedFile)
    ensures u.name == f.name && u.mime == f.mime
    ensures u.kind == Classify(f.mime)
    ensures OwnedUnlessScene(u) && (u.owner.Some? ==> u.owner.value == A)
  {
    UploadedFile(f.name, f.mime, Classify(f.mime), DefaultOwner(Classify(f.mime)))
  }

  /** Files dropped or picked are appended, in order, after those already
      there; no file list at all changes nothing. */
  function Ingest(existing: seq<UploadedFile>, incoming: Option<seq<IncomingFile>>): (r: seq<UploadedFile>)
    ensures incoming.None? ==> r == existing
    ensures incoming.Some? ==> |r| == |existing| + |incoming.value|
    ensures r[..|existing|] == existing
    ensures incoming.Some? ==> forall j :: 0 <= j < |incoming.value| ==>
              r[|existing| + j].name == incoming.value[j].name
              && r[|existing| + j].mime == incoming.value[j].mime
              && r[|existing| + j].kind == Classify(incoming.value[j].mime)
              && OwnedUnlessScene(r[|existing| + j])
              && (r[|existing| + j].owner.Some? ==> r[|existing| + j].owner.value == A)
  {
    match incoming
    case None => existing
    case Some(fs) => existing + seq(|fs|, j requires 0 <= j < |fs| => Arrive(fs[j]))
  }

  /** What a selector changes: the kind, or the owner. */
  datatype FileUpdate = SetKind(kind: FileKind) | SetOwner(owner: Owner)

  /** A selector change on file `index`: the update is merged into the
      file; a change to scene material then drops any owner, and any other
      change gives an ownerless file driver A. An index past the end would
      create a file with no contents, which the model rejects. */
  function UpdateFile(files: seq<UploadedFile>, index: nat, update: FileUpdate): (r: Result<seq<UploadedFile>, JsError>)
    ensures r.Ok? <==> index < |files|
    ensures r.Ok? ==> |r.value| == |files|
    ensures r.Ok? ==> forall j :: 0 <= j < |files| && j != index ==> r.value[j] == files[j]
    ensures r.Ok? ==> r.value[index].name == files[index].name && r.value[index].mime == files[index].mime
    ensures r.Ok? && update.SetKind? ==> r.value[index].kind == update.kind && OwnedUnlessScene(r.value[index])
    ensures r.Ok? && update.SetKind? && update.kind != Scene && files[index].owner.Some? ==>
              r.value[index].owner == files[index].owner
    ensures r.Ok? && update.SetOwner? ==> r.value[index] == files[index].(owner := Some(update.owner))
  {
    if index >= |files| then Err(Unrepresentable)
    else
      var f := files[index];
      var merged := match update
                    case SetKind(k) => f.(kind := k)
                    case SetOwner(o) => f.(owner := Some(o));
      var setsScene := update.SetKind? && update.kind == Scene;
      var g := if setsScene && merged.owner.Some? then merged.(owner := None)
               else if !setsScene && merged.owner.None? then merged.(owner := Some(A))
               else merged;
      Ok(files[index := g])
  }

  /** The kind selector keeps every file's ownership rule, and so does the
      owner selector, which is only offered for files that are not scene
      material. */
  lemma UpdateKeepsOwnership(files: seq<UploadedFile>, index: nat, update: FileUpdate)
    requires AllOwnedUnlessScene(files) && index < |files|
    requires update.SetOwner? ==> files[index].kind != Scene
    ensures AllOwnedUnlessScene(UpdateFile(files, index, update).value)
  {
  }

  /** Choosing an owner for scene material, which the screen never offers,
      would break the rule. */
  lemma OwnerOnSceneBreaksOwnership()
    ensures var files := [UploadedFile("crash.jpg", "image/jpeg", Scene, None)];
            AllOwnedUnlessScene(files) && !AllOwnedUnlessScene(UpdateFile(files, 0, SetOwner(B)).value)
  {
  }

  /** Turning a file into scene material and back restores driver A as its
      owner, whatever it was before. */
  lemma SceneRoundTripResetsOwner(files: seq<UploadedFile>, index: nat, k: FileKind)
    requires index < |files| && k != Scene
    ensures var once := UpdateFile(files, index, SetKind(Scene)).value;
            UpdateFile(once, index, SetKind(k)).value[index].owner == Some(A)
  {
  }

  /** The cross on a preview removes that file and keeps the others in
      order. */
  function RemoveFile(files: seq<UploadedFile>, index: nat): (r: seq<UploadedFile>)
    ensures index < |files| ==> |r| == |files| - 1 && r == files[..index] + files[index + 1..]
    ensures index >= |files| ==> r == files
  {
    RemoveAt(files, index)
  }

  lemma RemoveKeepsOwnership(files: seq<UploadedFile>, index: nat)
    requires AllOwnedUnlessScene(files)
    ensures AllOwnedUnlessScene(RemoveFile(files, index))
  {
    if index < |files| {
      var r := RemoveFile(files, index);
      forall j | 0 <= j < |r| ensures OwnedUnlessScene(r[j]) {
        if j < index { assert r[j] == files[j]; } else { assert r[j] == files[j + 1]; }
      }
    }
  }

  lemma IngestKeepsOwnership(existing: seq<UploadedFile>, incoming: Option<seq<IncomingFile>>)
    requires AllOwnedUnlessScene(existing)
    ensures AllOwnedUnlessScene(Ingest(existing, incoming))
  {
    var r := Ingest(existing, incoming);
    forall j | 0 <= j < |r| ensures OwnedUnlessScene(r[j]) {
      if j < |existing| {
        assert r[j] == r[..|existing|][j];
      } else {
        assert r[|existing| + (j - |existing|)] == r[j];
      }
    }
  }

  /** "Start Analysis" is disabled until at least one file is there. */
  function SubmitDisabled(files: seq<UploadedFile>): (r: bool)
    ensures r <==> files == []
  {
    |files| == 0
  }

  /** The answer of the device's location service: a position, a refusal or
      failure, or no location service at all. */
  datatype LocationAnswer = Position(at: Location) | Refused | Unsupported

  /** The stored location after asking the device: a position replaces it,
      anything else leaves it as it was (the user only sees an alert). */
  function ApplyLocation(prev: Option<Location>, answer: LocationAnswer): (r: Option<Location>)
    ensures answer.Position? ==> r == Some(answer.at)
    ensures !answer.Position? ==> r == prev
  {
    match answer
    case Position(at) => Some(at)
    case _ => prev
  }
}

=== FILE: report_paths.dfy ===
/** The report editor's generic field setter: a dotted/bracketed path such as
    `vehicles[0].plate` is cut into keys, the report is deep-copied, and the
    value is written at the key path, creating an empty object or array for
    every missing step on the way. */
module ReportPaths {
  import opened Base
  import opened JsonValue

  // ---------------------------------------------------------------------------
  // Cutting a path into keys
  // ---------------------------------------------------------------------------

  /** The characters a path is cut at. */
  predicate IsPathSeparator(c: char) {
    c == '.' || c == '[' || c == ']'
  }

  predicate SeparatorFree(s: string) {
    forall i :: 0 <= i < |s| ==> !IsPathSeparator(s[i])
  }

  /** A key a path can yield: non-empty and free of separators. */
  predicate IsKey(s: string) {
    |s| > 0 && SeparatorFree(s)
  }

  /** The pending segment `cur`, as a list of zero or one keys. */
  function Emit(cur: string): seq<string> {
    if cur == "" then [] else [cur]
  }

  /** Cutting `p` while `cur` holds the characters read since the last
      separator. */
  function SplitFrom(p: string, cur: string): (r: seq<string>)
    requires SeparatorFree(cur)
    ensures forall i :: 0 <= i < |r| ==> IsKey(r[i])
    decreases |p|
  {
    if |p| == 0 then Emit(cur)
    else if IsPathSeparator(p[0]) then Emit(cur) + SplitFrom(p[1..], "")
    else SplitFrom(p[1..], cur + [p[0]])
  }

  /** `path.split(/[.\[\]]+/).filter(Boolean)`: the maximal runs of
      non-separator characters, in order. */
  function SplitPath(p: string): (r: seq<string>)
    ensures forall i :: 0 <= i < |r| ==> IsKey(r[i])
  {
    SplitFrom(p, "")
  }

  /** A separator-free string is one key (or none, if empty). */
  lemma {:induction false} SplitFromSeparatorFree(s: string, cur: string)
    requires SeparatorFree(s) && SeparatorFree(cur)
    ensures SplitFrom(s, cur) == Emit(cur + s)
    decreases |s|
  {
    if |s| == 0 {
      assert cur + s == cur;
    } else {
      assert SeparatorFree(s[1..]);
      SplitFromSeparatorFree(s[1..], cur + [s[0]]);
      assert cur + [s[0]] + s[1..] == cur + s;
    }
  }

  /** A separator cuts the path in two independent halves. */
  lemma {:induction false} SplitFromAtSeparator(x: string, c: char, y: string, cur: string)
    requires IsPathSeparator(c) && SeparatorFree(cur)
    ensures SplitFrom(x + [c] + y, cur) == SplitFrom(x, cur) + SplitFrom(y, "")
    decreases |x|
  {
    var s := x + [c] + y;
    if |x| == 0 {
      assert s == [c] + y;
      assert s[1..] == y;
    } else {
      assert s[0] == x[0];
      assert s[1..] == x[1..] + [c] + y;
      if IsPathSeparator(x[0]) {
        SplitFromAtSeparator(x[1..], c, y, "");
      } else {
        SplitFromAtSeparator(x[1..], c, y, cur + [x[0]]);
      }
    }
  }

  lemma SplitPathAtSeparator(x: string, c: char, y: string)
    requires IsPathSeparator(c)
    ensures SplitPath(x + [c] + y) == SplitPath(x) + SplitPath(y)
  {
    SplitFromAtSeparator(x, c, y, "");
  }

  lemma SplitPathOfKey(k: string)
    requires IsKey(k)
    ensures SplitPath(k) == [k]
  {
    SplitFromSeparatorFree(k, "");
    assert "" + k == k;
  }

  /** Joining keys with dots and cutting the result gives the keys back. */
  lemma {:induction false} SplitJoinRoundTrip(keys: seq<string>)
    requires |keys| > 0
    requires forall i :: 0 <= i < |keys| ==> IsKey(keys[i])
    ensures SplitPath(Join(keys, ".")) == keys
  {
    if |keys| == 1 {
      SplitPathOfKey(keys[0]);
    } else {
      var rest := Join(keys[1..], ".");
      assert Join(keys, ".") == keys[0] + ['.'] + rest;
      SplitPathAtSeparator(keys[0], '.', rest);
      SplitPathOfKey(keys[0]);
      SplitJoinRoundTrip(keys[1..]);
      assert keys == [keys[0]] + keys[1..];
    }
  }

  /** The paths the report form writes to an element of a list, such as
      `drivers[1].phone`, name the list, the index and the field. */
  lemma SplitIndexedPath(list: string, i: nat, field: string)
    requires IsKey(list) && IsKey(field)
    ensures SplitPath(list + "[" + NatToDecimal(i) + "]." + field) == [list, NatToDecimal(i), field]
  {
    var d := NatToDecimal(i);
    assert SeparatorFree(d);
    var tail := d + "]." + field;
    assert list + "[" + d + "]." + field == list + ['['] + tail;
    SplitPathAtSeparator(list, '[', tail);
    assert tail == d + [']'] + ("." + field);
    SplitPathAtSeparator(d, ']', "." + field);
    assert "." + field == "" + ['.'] + field;
    SplitPathAtSeparator("", '.', field);
    SplitPathOfKey(list);
    SplitPathOfKey(d);
    SplitPathOfKey(field);
  }

  /** The paths the form writes to a nested field, such as `consent.A`. */
  lemma SplitDottedPath(section: string, field: string)
    requires IsKey(section) && IsKey(field)
    ensures SplitPath(section + "." + field) == [section, field]
  {
    assert section + "." + field == section + ['.'] + field;
    SplitPathAtSeparator(section, '.', field);
    SplitPathOfKey(section);
    SplitPathOfKey(field);
  }

  // ---------------------------------------------------------------------------
  // Writing at a key path
  // ---------------------------------------------------------------------------

  /** The container created for a missing step: an array when the following
      key reads as an integer, an object otherwise. */
  function Fresh(next: string): (r: Json)
    ensures r.JArr? <==> ParsesAsInt(next)
    ensures r.JObj? <==> !ParsesAsInt(next)
    ensures GetPath(r, [next]) == None
  {
    if ParsesAsInt(next) then JArr([]) else JObj(map[])
  }

  /** Whether `c[key] = v` stores the value in a way a `Json` value can hold:
      any key of an object, and on an array an existing index or the index
      just past the end. */
  predicate Assignable(c: Json, key: string) {
    c.JObj? || (c.JArr? && ArrayIndex(key).Some? && ArrayIndex(key).value <= |c.items|)
  }

  /** `c[key] = v` in strict-mode code. Assigning to a property of `null`, a
      string or a boolean throws; on an array, an index past the end would
      leave holes and any other key would add a named property, neither of
      which the report's values can hold. */
  function Assign(c: Json, key: string, v: Json): (r: Result<Json, JsError>)
    ensures r.Ok? <==> Assignable(c, key)
    ensures (c.JNull? || c.JBool? || c.JStr?) ==> r == Err(TypeError)
    ensures r.Ok? ==> GetPath(r.value, [key]) == Some(v)
    ensures r.Ok? ==> (r.value.JObj? <==> c.JObj?) && (r.value.JArr? <==> c.JArr?)
    ensures r.Ok? && c.JObj? ==> r.value.fields.Keys == c.fields.Keys + {key}
  {
    match c
    case JObj(m) => Ok(JObj(m[key := v]))
    case JArr(a) =>
      (match ArrayIndex(key)
       case Some(i) =>
         if i < |a| then Ok(JArr(a[i := v]))
         else if i == |a| then Ok(JArr(a + [v]))
         else Err(Unrepresentable)
       case None => Err(Unrepresentable))
    case _ => Err(TypeError)
  }

  /** The loop of the setter: walk `keys` from `cur`, stepping into the value
      under each key but the last (or into a fresh container where it is
      missing), then assign the value under the last key. */
  function SetPath(cur: Json, keys: seq<string>, v: Json): (r: Result<Json, JsError>)
    requires |keys| > 0
    ensures r.Ok? ==> (r.value.JObj? <==> cur.JObj?) && (r.value.JArr? <==> cur.JArr?)
    ensures r.Ok? && cur.JObj? ==> r.value.fields.Keys == cur.fields.Keys + {keys[0]}
    ensures (cur.JNull? || cur.JBool? || cur.JStr?) ==> r == Err(TypeError)
    decreases |keys|
  {
    var key := keys[0];
    if |keys| == 1 then Assign(cur, key, v)
    else
      match cur
      case JObj(m) =>
        var child := if key in m then m[key] else Fresh(keys[1]);
        var c :- SetPath(child, keys[1..], v);
        Ok(JObj(m[key := c]))
      case JArr(a) =>
        (match ArrayIndex(key)
         case Some(i) =>
           if i < |a| then
             var c :- SetPath(a[i], keys[1..], v);
             Ok(JArr(a[i := c]))
           else if i == |a| then
             var c :- SetPath(Fresh(keys[1]), keys[1..], v);
             Ok(JArr(a + [c]))
           else Err(Unrepresentable)
         case None =>
           // `a.length` is a number: the next step assigns to a primitive.
           if key == "length" then Err(TypeError) else Err(Unrepresentable))
      case _ => Err(TypeError)
  }

  /** The keys the setter writes along: the cut path, or the single key
      `"undefined"` when the path yields no key at all (then `keys[-1]` is
      `undefined`, which becomes a property name). */
  function EffectiveKeys(path: string): (r: seq<string>)
    ensures |r| > 0
    ensures |SplitPath(path)| > 0 ==> r == SplitPath(path)
    ensures |SplitPath(path)| == 0 ==> r == ["undefined"]
  {
    var keys := SplitPath(path);
    if |keys| == 0 then ["undefined"] else keys
  }

  /** The state updater of the report form: a falsy report (none, `null`,
      `false` or `""`) becomes no report; otherwise a copy of the report with
      `value` written at `path`. The deep copy through JSON text is the
      identity on these values. */
  function HandleUpdate(prev: Option<Json>, path: string, value: Json): (r: Result<Option<Json>, JsError>)
    ensures !TruthyOpt(prev) ==> r == Ok(None)
    ensures TruthyOpt(prev) ==> (r.Ok? <==> SetPath(prev.value, EffectiveKeys(path), value).Ok?)
    ensures TruthyOpt(prev) && r.Ok? ==> r.value.Some?
                                         && GetPath(r.value.value, EffectiveKeys(path)) == Some(value)
    ensures prev.Some? && prev.value.JObj? && r.Ok? ==> r.value.Some? && r.value.value.JObj?
  {
    if !TruthyOpt(prev) then Ok(None)
    else
      var r :- SetPath(prev.value, EffectiveKeys(path), value);
      SetPathReadBack(prev.value, EffectiveKeys(path), value);
      Ok(Some(r))
  }

  /** The report a handler leaves behind, as a JSON value: no report is
      `null`. */
  function ReportOrNull(o: Option<Json>): (r: Json)
    ensures o.Some? ==> r == o.value
    ensures o.None? ==> r.JNull?
  {
    match o
    case Some(j) => j
    case None => JNull
  }

  // ---------------------------------------------------------------------------
  // What the setter guarantees
  // ---------------------------------------------------------------------------

  /** After a successful write, reading the same keys gives the value. */
  lemma {:induction false} SetPathReadBack(j: Json, keys: seq<string>, v: Json)
    requires |keys| > 0 && SetPath(j, keys, v).Ok?
    ensures GetPath(SetPath(j, keys, v).value, keys) == Some(v)
    decreases |keys|
  {
    if |keys| > 1 {
      var key := keys[0];
      match j
      case JObj(m) =>
        var child := if key in m then m[key] else Fresh(keys[1]);
        SetPathReadBack(child, keys[1..], v);
      case JArr(a) =>
        var i := ArrayIndex(key).value;
        if i < |a| {
          SetPathReadBack(a[i], keys[1..], v);
        } else {
          SetPathReadBack(Fresh(keys[1]), keys[1..], v);
        }
    }
  }

  /** Reading deeper than the written keys reads into the written value. */
  lemma SetPathExtension(j: Json, keys: seq<string>, v: Json, q: seq<string>)
    requires |keys| > 0 && SetPath(j, keys, v).Ok?
    ensures GetPath(SetPath(j, keys, v).value, keys + q) == GetPath(v, q)
  {
    SetPathReadBack(j, keys, v);
    GetPathAppend(SetPath(j, keys, v).value, keys, q);
  }

  /** `p` and `q` part ways: at some position they hold different keys, and
      they agree before it. */
  predicate Diverge(p: seq<string>, q: seq<string>)
    decreases |p|
  {
    |p| > 0 && |q| > 0 && (p[0] != q[0] || Diverge(p[1..], q[1..]))
  }

  /** An empty container has nothing under any key path. */
  lemma FreshIsEmpty(next: string, q: seq<string>)
    requires |q| > 0
    ensures GetPath(Fresh(next), q) == None
  {
  }

  /** Two different keys never name the same array element. */
  lemma DistinctKeysDistinctIndices(k1: string, k2: string)
    requires k1 != k2 && ArrayIndex(k1).Some? && ArrayIndex(k2).Some?
    ensures ArrayIndex(k1).value != ArrayIndex(k2).value
  {
  }

  /** A write changes nothing reachable along a key path that parts ways
      with the written one. */
  lemma {:induction false} SetPathFrame(j: Json, keys: seq<string>, v: Json, q: seq<string>)
    requires |keys| > 0 && SetPath(j, keys, v).Ok?
    requires Diverge(keys, q)
    ensures GetPath(SetPath(j, keys, v).value, q) == GetPath(j, q)
    decreases |keys|
  {
    var r := SetPath(j, keys, v).value;
    var key := keys[0];
    if key != q[0] {
      match j
      case JObj(m) =>
      case JArr(a) =>
        if ArrayIndex(q[0]).Some? {
          DistinctKeysDistinctIndices(key, q[0]);
        }
    } else {
      assert Diverge(keys[1..], q[1..]);
      match j
      case JObj(m) =>
        var child := if key in m then m[key] else Fresh(keys[1]);
        SetPathFrame(child, keys[1..], v, q[1..]);
        if key !in m {
          FreshIsEmpty(keys[1], q[1..]);
        }
      case JArr(a) =>
        var i := ArrayIndex(key).value;
        if i < |a| {
          SetPathFrame(a[i], keys[1..], v, q[1..]);
        } else {
          SetPathFrame(Fresh(keys[1]), keys[1..], v, q[1..]);
          FreshIsEmpty(keys[1], q[1..]);
        }
    }
  }

  /** When every step but the last already exists, the write succeeds
      exactly when the last container accepts the last key; it throws a
      `TypeError` when that container is `null`, a string or a boolean. */
  lemma {:induction false} SetPathOnExistingParent(j: Json, keys: seq<string>, v: Json)
    requires |keys| > 0
    requires GetPath(j, keys[..|keys| - 1]).Some?
    ensures SetPath(j, keys, v).Ok? <==> Assignable(GetPath(j, keys[..|keys| - 1]).value, keys[|keys| - 1])
    ensures GetPath(j, keys[..|keys| - 1]).value.JNull? ==> SetPath(j, keys, v) == Err(TypeError)
    decreases |keys|
  {
    if |keys| == 1 {
      assert keys[..0] == [];
    } else {
      var init := keys[..|keys| - 1];
      assert init[0] == keys[0];
      assert init[1..] == keys[1..][..|keys[1..]| - 1];
      var key := keys[0];
      match j
      case JObj(m) =>
        SetPathOnExistingParent(m[key], keys[1..], v);
      case JArr(a) =>
        SetPathOnExistingParent(a[ArrayIndex(key).value], keys[1..], v);
    }
  }
}

=== FILE: report_view.dfy ===
/** The verification screen's own logic: which violation catalog it offers,
    how a checkbox toggles an alleged offence, adding and removing witnesses,
    when the confirm button is disabled, when the chat answer is sent, and
    when the private-agreement notice is shown. Every edit goes through the
    generic setter of `ReportPaths`. */
module ReportView {
  import opened Base
  import opened JsonValue
  import opened Types
  import opened Constants
  import opened ReportPaths

  // ---------------------------------------------------------------------------
  // The violation catalog
  // ---------------------------------------------------------------------------

  /** The catalog offered for the session's jurisdiction; without a
      configuration (and for the UK) the UK catalog. */
  function ViolationsFor(config: Option<AppConfig>): (r: seq<Violation>)
    ensures config.None? ==> r == UkViolations
    ensures r in [UkViolations, CaliforniaViolations, NewYorkViolations, TurkishViolations]
  {
    if config.None? then UkViolations
    else
      match config.value.locale
      case TR => TurkishViolations
      case CA => CaliforniaViolations
      case NY => NewYorkViolations
      case UK => UkViolations
  }

  function LowerAscii(s: string): (r: string)
    ensures |r| == |s|
  {
    seq(|s|, i requires 0 <= i < |s| => if 'A' <= s[i] <= 'Z' then (s[i] as int + 32) as char else s[i])
  }

  /** The catalog offered for a jurisdiction is the one whose ids carry that
      jurisdiction's code, in lower case, as their prefix. */
  lemma CatalogMatchesLocale(c: AppConfig)
    ensures NumberedFrom(ViolationsFor(Some(c)), LowerAscii(LocaleCode(c.locale)) + "_")
  {
    CatalogsNumbered();
    match c.locale
    case TR => assert LowerAscii("TR") == "tr";
    case UK => assert LowerAscii("UK") == "uk";
    case CA => assert LowerAscii("CA") == "ca";
    case NY => assert LowerAscii("NY") == "ny";
  }

  // ---------------------------------------------------------------------------
  // Alleged offences
  // ---------------------------------------------------------------------------

  /** Checking an unchecked id appends it; unchecking a checked id removes
      every occurrence of it. */
  function Toggle(xs: seq<Json>, x: Json): (r: seq<Json>)
    ensures x in r <==> x !in xs
    ensures forall y :: y != x ==> (y in r <==> y in xs)
    ensures x !in xs ==> r == xs + [x]
    ensures x in xs ==> r == RemoveAll(xs, x)
  {
    if x in xs then RemoveAll(xs, x)
    else
      var r := xs + [x];
      assert forall y :: y in r <==> y in xs || y == x;
      r
  }

  /** Unchecking right after checking restores the list. */
  lemma ToggleTwice(xs: seq<Json>, x: Json)
    requires x !in xs
    ensures Toggle(Toggle(xs, x), x) == xs
  {
    RemoveAllAppend(xs, [x], x);
    assert RemoveAll([x], x) == [];
  }

  /** Unchecking keeps the other ids in their relative order: toggling a
      checked id out of a split list removes it from each part in place. */
  lemma ToggleKeepsOrder(xs: seq<Json>, ys: seq<Json>, x: Json)
    requires x in xs + ys
    ensures Toggle(xs + ys, x) == RemoveAll(xs, x) + RemoveAll(ys, x)
  {
    RemoveAllAppend(xs, ys, x);
  }

  /** Toggling ids of a catalog keeps the list within the catalog. */
  lemma ToggleStaysInCatalog(xs: seq<Json>, id: string, catalog: seq<Violation>)
    requires forall j :: 0 <= j < |xs| ==> exists k :: 0 <= k < |catalog| && xs[j] == JStr(catalog[k].id)
    requires exists k :: 0 <= k < |catalog| && id == catalog[k].id
    ensures forall j :: 0 <= j < |Toggle(xs, JStr(id))| ==>
              exists k :: 0 <= k < |catalog| && Toggle(xs, JStr(id))[j] == JStr(catalog[k].id)
  {
    var r := Toggle(xs, JStr(id));
    forall j | 0 <= j < |r|
      ensures exists k :: 0 <= k < |catalog| && r[j] == JStr(catalog[k].id)
    {
      if r[j] != JStr(id) {
        var m :| 0 <= m < |xs| && xs[m] == r[j];
      }
    }
  }

  /** `[...o]`: spreading an array copies its elements, spreading a string
      yields its characters; anything else (including `undefined`) is not
      iterable and throws. */
  function Spread(o: Option<Json>): (r: Result<seq<Json>, JsError>)
    ensures r.Ok? <==> o.Some? && (o.value.JArr? || o.value.JStr?)
    ensures r.Ok? && o.value.JArr? ==> r.value == o.value.items
    ensures r.Ok? && o.value.JStr? ==> |r.value| == |o.value.s|
    ensures r.Ok? && o.value.JStr? ==> forall i :: 0 <= i < |o.value.s| ==> r.value[i] == JStr([o.value.s[i]])
  {
    match o
    case Some(JArr(items)) => Ok(items)
    case Some(JStr(s)) => Ok(seq(|s|, i requires 0 <= i < |s| => JStr([s[i]])))
    case _ => Err(TypeError)
  }

  /** The new offence list for a checkbox click, given the vehicle's
      current `alleged_offences` (missing or falsy counts as empty). An
      array is toggled by element; a non-empty string answers `includes` as
      a substring test and then either has no `filter` or spreads into its
      characters; any other value has no `includes`. */
  function ToggledOffences(current: Option<Json>, id: string): (r: Result<Json, JsError>)
    ensures !TruthyOpt(current) ==> r == Ok(JArr([JStr(id)]))
    ensures TruthyOpt(current) && current.value.JArr? ==>
              r == Ok(JArr(Toggle(current.value.items, JStr(id))))
    ensures TruthyOpt(current) && (current.value.JBool? || current.value.JObj?) ==> r == Err(TypeError)
  {
    var offences := if TruthyOpt(current) then current.value else JArr([]);
    assert Toggle([], JStr(id)) == [JStr(id)];
    match offences
    case JArr(items) => Ok(JArr(Toggle(items, JStr(id))))
    case JStr(s) =>
      if Contains(s, id) then Err(TypeError)
      else
        var chars :- Spread(Some(offences));
        Ok(JArr(chars + [JStr(id)]))
    case _ => Err(TypeError)
  }

  /** `reportData.vehicles[vehicleIndex].alleged_offences`. */
  function OffencesOf(report: Json, vehicleIndex: nat): (r: Result<Option<Json>, JsError>)
    ensures r.Ok? ==> r.value == GetPath(report, ["vehicles", NatToDecimal(vehicleIndex), "alleged_offences"])
    ensures (GetPath(report, ["vehicles", NatToDecimal(vehicleIndex)]).Some?
             && GetPath(report, ["vehicles", NatToDecimal(vehicleIndex)]).value.JObj?) ==> r.Ok?
  {
    var d := NatToDecimal(vehicleIndex);
    assert ["vehicles", d][1..] == [d];
    assert ["vehicles", d, "alleged_offences"][1..] == [d, "alleged_offences"];
    assert [d, "alleged_offences"][1..] == ["alleged_offences"];
    assert [d][1..] == [] && ["alleged_offences"][1..] == [];
    GetPathAppend(report, ["vehicles"], [d]);
    assert ["vehicles"] + [d] == ["vehicles", d];
    var vehicles :- Prop(report, "vehicles");
    var vehicle :- PropOf(vehicles, d);
    PropOf(vehicle, "alleged_offences")
  }

  /** The path a checkbox of vehicle `vehicleIndex` writes to. */
  function OffencesPath(vehicleIndex: nat): string {
    "vehicles[" + NatToDecimal(vehicleIndex) + "].alleged_offences"
  }

  lemma OffencesPathKeys(vehicleIndex: nat)
    ensures EffectiveKeys(OffencesPath(vehicleIndex)) == ["vehicles", NatToDecimal(vehicleIndex), "alleged_offences"]
  {
    SplitIndexedPath("vehicles", vehicleIndex, "alleged_offences");
    assert OffencesPath(vehicleIndex) == "vehicles" + "[" + NatToDecimal(vehicleIndex) + "]." + "alleged_offences";
  }

  /** A checkbox click: read the vehicle's offences from the report, toggle
      the id, and write the new list back at `vehicles[i].alleged_offences`. */
  function HandleViolationChange(report: Json, vehicleIndex: nat, id: string): (r: Result<Json, JsError>)
    ensures r.Ok? ==> OffencesOf(report, vehicleIndex).Ok?
                      && ToggledOffences(OffencesOf(report, vehicleIndex).value, id).Ok?
                      && GetPath(r.value, ["vehicles", NatToDecimal(vehicleIndex), "alleged_offences"])
                         == Some(ToggledOffences(OffencesOf(report, vehicleIndex).value, id).value)
    ensures report.JObj? && r.Ok? ==> r.value.JObj?
  {
    OffencesPathKeys(vehicleIndex);
    var current :- OffencesOf(report, vehicleIndex);
    var offences :- ToggledOffences(current, id);
    var updated :- HandleUpdate(Some(report), OffencesPath(vehicleIndex), offences);
    Ok(ReportOrNull(updated))
  }

  /** Clicking a box of a vehicle whose offences are a list toggles that id
      in the list, and leaves every part of the report off that path as it
      was. */
  lemma ViolationChangeToggles(report: Json, vehicleIndex: nat, id: string, q: seq<string>)
    requires report.JObj? && "vehicles" in report.fields
    requires GetPath(report, ["vehicles", NatToDecimal(vehicleIndex)]).Some?
    requires GetPath(report, ["vehicles", NatToDecimal(vehicleIndex)]).value.JObj?
    requires GetPath(report, ["vehicles", NatToDecimal(vehicleIndex), "alleged_offences"]).Some?
    requires GetPath(report, ["vehicles", NatToDecimal(vehicleIndex), "alleged_offences"]).value.JArr?
    requires Diverge(["vehicles", NatToDecimal(vehicleIndex), "alleged_offences"], q)
    ensures HandleViolationChange(report, vehicleIndex, id).Ok?
    ensures GetPath(HandleViolationChange(report, vehicleIndex, id).value,
                    ["vehicles", NatToDecimal(vehicleIndex), "alleged_offences"])
            == Some(JArr(Toggle(GetPath(report, ["vehicles", NatToDecimal(vehicleIndex), "alleged_offences"]).value.items, JStr(id))))
    ensures GetPath(HandleViolationChange(report, vehicleIndex, id).value, q) == GetPath(report, q)
  {
    var keys := ["vehicles", NatToDecimal(vehicleIndex), "alleged_offences"];
    var current := OffencesOf(report, vehicleIndex).value;
    var offences := ToggledOffences(current, id).value;
    OffencesPathKeys(vehicleIndex);
    assert keys[..|keys| - 1] == ["vehicles", NatToDecimal(vehicleIndex)];
    SetPathOnExistingParent(report, keys, offences);
    SetPathFrame(report, keys, offences, q);
  }

  // ---------------------------------------------------------------------------
  // Witnesses
  // ---------------------------------------------------------------------------

  const BlankWitness: Json := JObj(map["name" := JStr(""), "phone" := JStr("")])

  /** `[...reportData.witnesses, { name: '', phone: '' }]` written back. */
  function AddWitness(report: Json): (r: Result<Json, JsError>)
    ensures r.Ok? ==> (match GetPath(report, ["witnesses"])
                       case Some(JArr(ws)) => GetPath(r.value, ["witnesses"]) == Some(JArr(ws + [BlankWitness]))
                       case _ => true)
    ensures (GetPath(report, ["witnesses"]).None? || GetPath(report, ["witnesses"]) == Some(JNull)) ==> r.Err?
    ensures report.JObj? && r.Ok? ==> r.value.JObj?
  {
    SplitPathOfKey("witnesses");
    var witnesses :- Prop(report, "witnesses");
    var items :- Spread(witnesses);
    var updated :- HandleUpdate(Some(report), "witnesses", JArr(items + [BlankWitness]));
    Ok(ReportOrNull(updated))
  }

  /** `reportData.witnesses.filter((_, i) => i !== index)` written back. */
  function RemoveWitness(report: Json, index: nat): (r: Result<Json, JsError>)
    ensures r.Ok? ==> GetPath(report, ["witnesses"]).Some? && GetPath(report, ["witnesses"]).value.JArr?
    ensures r.Ok? ==> GetPath(r.value, ["witnesses"]) == Some(JArr(RemoveAt(GetPath(report, ["witnesses"]).value.items, index)))
    ensures report.JObj? && r.Ok? ==> r.value.JObj?
  {
    SplitPathOfKey("witnesses");
    var witnesses :- Prop(report, "witnesses");
    match witnesses
    case Some(JArr(ws)) =>
      var updated :- HandleUpdate(Some(report), "witnesses", JArr(RemoveAt(ws, index)));
      Ok(ReportOrNull(updated))
    case _ => Err(TypeError)
  }

  /** Adding a witness to an object report with a witness array appends the
      blank witness under `witnesses`. */
  lemma AddWitnessAppends(report: Json)
    requires report.JObj? && "witnesses" in report.fields && report.fields["witnesses"].JArr?
    ensures AddWitness(report)
            == Ok(JObj(report.fields["witnesses" := JArr(report.fields["witnesses"].items + [BlankWitness])]))
  {
    SplitPathOfKey("witnesses");
  }

  /** Removing a witness from an object report with a witness array stores
      the shortened array under `witnesses`. */
  lemma RemoveWitnessStores(report: Json, index: nat)
    requires report.JObj? && "witnesses" in report.fields && report.fields["witnesses"].JArr?
    ensures RemoveWitness(report, index)
            == Ok(JObj(report.fields["witnesses" := JArr(RemoveAt(report.fields["witnesses"].items, index))]))
  {
    SplitPathOfKey("witnesses");
  }

  /** Removing the witness just added gives the report back. */
  lemma RemoveAddedWitness(report: Json)
    requires report.JObj? && "witnesses" in report.fields && report.fields["witnesses"].JArr?
    ensures AddWitness(report).Ok?
    ensures RemoveWitness(AddWitness(report).value, |report.fields["witnesses"].items|) == Ok(report)
  {
    var m := report.fields;
    var ws := m["witnesses"].items;
    AddWitnessAppends(report);
    var m' := m["witnesses" := JArr(ws + [BlankWitness])];
    assert RemoveAt(ws + [BlankWitness], |ws|) == ws by {
      assert (ws + [BlankWitness])[..|ws|] == ws;
      assert (ws + [BlankWitness])[|ws| + 1..] == [];
    }
    RemoveWitnessStores(JObj(m'), |ws|);
    assert m'["witnesses" := JArr(ws)] == m;
  }

  // ---------------------------------------------------------------------------
  // Confirmation, chat and notice
  // ---------------------------------------------------------------------------

  /** The confirm button's guard: disabled unless at least one signature is
      present and both parties consented. The reads short-circuit: without a
      signature the consents are never read. */
  function ConfirmationDisabled(report: Json): (r: Result<bool, JsError>)
    ensures r.Ok? ==> (r.value <==> !(TruthyOpt(GetPath(report, ["signatures", "A"]))
                                      || TruthyOpt(GetPath(report, ["signatures", "B"])))
                                    || !TruthyOpt(GetPath(report, ["consent", "A"]))
                                    || !TruthyOpt(GetPath(report, ["consent", "B"])))
  {
    var signatures :- Prop(report, "signatures");
    var sigA :- PropOf(signatures, "A");
    assert GetPath(report, ["signatures", "A"]) == GetPath(signatures.value, ["A"]);
    assert GetPath(report, ["signatures", "B"]) == GetPath(signatures.value, ["B"]);
    if TruthyOpt(sigA) then ConsentMissing(report)
    else
      match PropOf(signatures, "B")
      case Err(e) => Err(e)
      case Ok(sigB) => if TruthyOpt(sigB) then ConsentMissing(report) else Ok(true)
  }

  /** `!reportData.consent.A || !reportData.consent.B`. */
  function ConsentMissing(report: Json): (r: Result<bool, JsError>)
    ensures r.Ok? ==> (r.value <==> !TruthyOpt(GetPath(report, ["consent", "A"]))
                                    || !TruthyOpt(GetPath(report, ["consent", "B"])))
    ensures r.Err? <==> report.JNull? || GetPath(report, ["consent"]).None?
                        || GetPath(report, ["consent"]) == Some(JNull)
  {
    var consent :- Prop(report, "consent");
    var consentA :- PropOf(consent, "A");
    assert GetPath(report, ["consent", "A"]) == GetPath(consent.value, ["A"]);
    assert GetPath(report, ["consent", "B"]) == GetPath(consent.value, ["B"]);
    if !TruthyOpt(consentA) then Ok(true)
    else
      match PropOf(consent, "B")
      case Err(e) => Err(e)
      case Ok(consentB) => Ok(!TruthyOpt(consentB))
  }

  /** The confirm button's guard never throws on a report whose signatures
      and consents are objects, and is then off exactly when a signature is
      present and both consents are given. */
  lemma ConfirmationOnWellFormedReport(report: Json)
    requires report.JObj?
    requires "signatures" in report.fields && report.fields["signatures"].JObj?
    requires "consent" in report.fields && report.fields["consent"].JObj?
    ensures ConfirmationDisabled(report).Ok?
    ensures !ConfirmationDisabled(report).value <==>
              (TruthyOpt(GetPath(report, ["signatures", "A"])) || TruthyOpt(GetPath(report, ["signatures", "B"])))
              && TruthyOpt(GetPath(report, ["consent", "A"])) && TruthyOpt(GetPath(report, ["consent", "B"]))
  {
  }

  /** The confirm button's guard throws when the report has no signatures
      object, and also when a signature is present but the consents are
      missing. */
  lemma ConfirmationThrows(report: Json)
    ensures GetPath(report, ["signatures"]).None? ==> ConfirmationDisabled(report) == Err(TypeError)
    ensures (GetPath(report, ["signatures"]).Some? && GetPath(report, ["signatures"]).value.JObj?
             && TruthyOpt(GetPath(report, ["signatures", "A"]))
             && GetPath(report, ["consent"]).None?) ==> ConfirmationDisabled(report) == Err(TypeError)
  {
  }

  /** A fresh report keeps the confirm button disabled. */
  lemma InitialReportNeedsSignatureAndConsent(loadedAt: string)
    ensures ConfirmationDisabled(InitialReport(loadedAt)) == Ok(true)
  {
    InitialReportUnsigned(loadedAt);
  }

  /** Writing a report field through the form. */
  function Edit(report: Json, path: string, value: Json): (r: Result<Json, JsError>)
    ensures !Truthy(report) ==> r == Ok(JNull)
    ensures Truthy(report) && r.Ok? ==> GetPath(r.value, EffectiveKeys(path)) == Some(value)
    ensures r.Ok? <==> HandleUpdate(Some(report), path, value).Ok?
  {
    var updated :- HandleUpdate(Some(report), path, value);
    Ok(ReportOrNull(updated))
  }

  /** Writing `section.field` into an existing object section replaces that
      one field and nothing else. */
  lemma EditDotted(report: Json, section: string, field: string, value: Json)
    requires IsKey(section) && IsKey(field)
    requires report.JObj? && section in report.fields && report.fields[section].JObj?
    ensures Edit(report, section + "." + field, value)
            == Ok(JObj(report.fields[section := JObj(report.fields[section].fields[field := value])]))
  {
    SplitDottedPath(section, field);
    assert [section, field][1..] == [field];
    var inner := JObj(report.fields[section].fields[field := value]);
    assert SetPath(report.fields[section], [field], value) == Ok(inner);
    assert SetPath(report, [section, field], value) == Ok(JObj(report.fields[section := inner]));
    assert HandleUpdate(Some(report), section + "." + field, value) == Ok(Some(JObj(report.fields[section := inner])));
  }

  /** Signing as A and ticking both consent boxes succeeds on any report
      whose signatures and consents are objects, and enables its confirm
      button. */
  lemma SigningAndConsentingEnablesConfirmation(report: Json, signature: string)
    requires signature != ""
    requires report.JObj?
    requires "signatures" in report.fields && report.fields["signatures"].JObj?
    requires "consent" in report.fields && report.fields["consent"].JObj?
    ensures var r1 := Edit(report, "signatures.A", JStr(signature));
            r1.Ok? && r1.value.JObj? && "consent" in r1.value.fields && r1.value.fields["consent"].JObj?
    ensures var r1 := Edit(report, "signatures.A", JStr(signature)).value;
            var r2 := Edit(r1, "consent.A", JBool(true));
            r2.Ok? && r2.value.JObj? && "consent" in r2.value.fields && r2.value.fields["consent"].JObj?
    ensures var r1 := Edit(report, "signatures.A", JStr(signature)).value;
            var r2 := Edit(r1, "consent.A", JBool(true)).value;
            var r3 := Edit(r2, "consent.B", JBool(true));
            r3.Ok? && ConfirmationDisabled(r3.value) == Ok(false)
  {
    var m0 := report.fields;
    var sig0 := m0["signatures"].fields;
    var con0 := m0["consent"].fields;
    var m1 := m0["signatures" := JObj(sig0["A" := JStr(signature)])];
    var m2 := m1["consent" := JObj(con0["A" := JBool(true)])];
    var m3 := m2["consent" := JObj(con0["A" := JBool(true)]["B" := JBool(true)])];
    SignStep(report, signature);
    assert Edit(report, "signatures.A", JStr(signature)) == Ok(JObj(m1));
    ConsentStep(JObj(m1), "A");
    assert "consent." + "A" == "consent.A";
    assert Edit(JObj(m1), "consent.A", JBool(true)) == Ok(JObj(m2));
    ConsentStep(JObj(m2), "B");
    assert "consent." + "B" == "consent.B";
    assert Edit(JObj(m2), "consent.B", JBool(true)) == Ok(JObj(m3));
    assert m3["signatures"] == JObj(sig0["A" := JStr(signature)]);
    assert m3["consent"] == JObj(con0["A" := JBool(true)]["B" := JBool(true)]);
    SignedAndConsented(JObj(m3));
  }

  lemma SignStep(report: Json, signature: string)
    requires report.JObj?
    requires "signatures" in report.fields && report.fields["signatures"].JObj?
    ensures Edit(report, "signatures.A", JStr(signature))
            == Ok(JObj(report.fields["signatures" := JObj(report.fields["signatures"].fields["A" := JStr(signature)])]))
  {
    assert "signatures" + "." + "A" == "signatures.A";
    EditDotted(report, "signatures", "A", JStr(signature));
  }

  lemma ConsentStep(report: Json, party: string)
    requires party == "A" || party == "B"
    requires report.JObj?
    requires "consent" in report.fields && report.fields["consent"].JObj?
    ensures Edit(report, "consent." + party, JBool(true))
            == Ok(JObj(report.fields["consent" := JObj(report.fields["consent"].fields[party := JBool(true)])]))
  {
    assert "consent." + party == "consent" + "." + party;
    EditDotted(report, "consent", party, JBool(true));
  }

  lemma SignedAndConsented(report: Json)
    requires report.JObj?
    requires "signatures" in report.fields && report.fields["signatures"].JObj?
    requires "A" in report.fields["signatures"].fields && Truthy(report.fields["signatures"].fields["A"])
    requires "consent" in report.fields && report.fields["consent"].JObj?
    requires "A" in report.fields["consent"].fields && report.fields["consent"].fields["A"] == JBool(true)
    requires "B" in report.fields["consent"].fields && report.fields["consent"].fields["B"] == JBool(true)
    ensures ConfirmationDisabled(report) == Ok(false)
  {
    ConfirmationOnWellFormedReport(report);
  }

  /** What a click on "Send to AI" does with the answer box: an answer that
      is only white space is not sent and stays in the box; any other answer
      is sent as typed, untrimmed, and the box is cleared. */
  datatype ChatSubmit = ChatSubmit(sent: Option<string>, box: string)

  function HandleSubmitChat(answer: string): (r: ChatSubmit)
    ensures r.sent.Some? <==> !AllSpace(answer)
    ensures r.sent.Some? ==> r.sent.value == answer && r.box == ""
    ensures r.sent.None? ==> r.box == answer
  {
    TrimEmptyIffAllSpace(answer);
    if Trim(answer) == "" then ChatSubmit(None, answer) else ChatSubmit(Some(answer), "")
  }

  /** The "private agreement, not a police report" notice: shown on the
      verification step for the UK, California and New York, never for
      Turkey or without a configuration. */
  function PrivateAgreementNoticeShown(config: Option<AppConfig>, step: AppStep): (r: bool)
    ensures r <==> step == Verification && config.Some? && config.value.locale != TR
  {
    var code := if config.Some? then LocaleCode(config.value.locale) else "";
    code in ["UK", "CA", "NY"] && step == Verification
  }
}

=== FILE: types.dfy ===
/** The application's enumerations and records: the six steps, the session
    configuration, an uploaded evidence file, a follow-up question, and the
    partial report the extraction call returns, whose shape the response schema
    fixes. */
module Types {
  import opened Base
  import opened JsonValue

  /** The steps of a session, in the order the user meets them. */
  datatype AppStep =
    | LandingPage
    | SelectCountry
    | UploadMedia
    | Processing
    | Verification
    | ReportGenerated

  const AllSteps: seq<AppStep> :=
    [LandingPage, SelectCountry, UploadMedia, Processing, Verification, ReportGenerated]

  /** The string each step is stored as. */
  function StepName(s: AppStep): string {
    match s
    case LandingPage => "LANDING_PAGE"
    case SelectCountry => "SELECT_COUNTRY"
    case UploadMedia => "UPLOAD_MEDIA"
    case Processing => "PROCESSING"
    case Verification => "VERIFICATION"
    case ReportGenerated => "REPORT_GENERATED"
  }

  /** There are exactly six steps and they have six different names. */
  lemma SixSteps()
    ensures |AllSteps| == 6
    ensures forall s: AppStep :: s in AllSteps
    ensures forall i, j :: 0 <= i < j < |AllSteps| ==> StepName(AllSteps[i]) != StepName(AllSteps[j])
  {
    forall s: AppStep ensures s in AllSteps {
      match s {
        case LandingPage => assert AllSteps[0] == s;
        case SelectCountry => assert AllSteps[1] == s;
        case UploadMedia => assert AllSteps[2] == s;
        case Processing => assert AllSteps[3] == s;
        case Verification => assert AllSteps[4] == s;
        case ReportGenerated => assert AllSteps[5] == s;
      }
    }
  }

  /** The jurisdiction whose rules frame the report. */
  datatype Locale = TR | UK | CA | NY

  /** The language the extraction answers in. */
  datatype Language = Turkish | English

  datatype AppConfig = AppConfig(locale: Locale, language: Language)

  function LocaleCode(l: Locale): string {
    match l
    case TR => "TR"
    case UK => "UK"
    case CA => "CA"
    case NY => "NY"
  }

  function LanguageCode(l: Language): string {
    match l
    case Turkish => "TR"
    case English => "EN"
  }

  /** A locale is one of four codes and a language one of two, and no two
      locales share a code. */
  lemma ConfigCodes(c: AppConfig)
    ensures LocaleCode(c.locale) in {"TR", "UK", "CA", "NY"}
    ensures LanguageCode(c.language) in {"TR", "EN"}
    ensures forall l1: Locale, l2: Locale :: LocaleCode(l1) == LocaleCode(l2) ==> l1 == l2
  {
  }

  /** The coarse kind of an evidence file. */
  datatype FileKind = Document | Scene | Audio

  function KindName(k: FileKind): string {
    match k
    case Document => "document"
    case Scene => "scene"
    case Audio => "audio"
  }

  /** The driver an evidence file belongs to. */
  datatype Owner = A | B

  function OwnerName(o: Owner): string {
    match o
    case A => "A"
    case B => "B"
  }

  /** An evidence file: its name and MIME type (the bytes and the preview
      handle are not modelled), its kind and its optional owner. */
  datatype UploadedFile = UploadedFile(name: string, mime: string, kind: FileKind, owner: Option<Owner>)

  /** A position reported by the device. Its coordinates are kept as the
      text JavaScript prints for the numbers, which is all that reaches the
      prompt. */
  datatype Location = Location(lat: string, lng: string)

  /** A follow-up question. The schema marks no property as required, so
      either part may be missing from a reply. */
  datatype AIQuestion = AIQuestion(field: Option<string>, question: Option<string>)

  // ---------------------------------------------------------------------------
  // The partial report of an extraction reply (the response schema)
  // ---------------------------------------------------------------------------

  datatype PartialGeo = PartialGeo(address: Option<string>)

  datatype PartialAccident = PartialAccident(
    timestamp: Option<string>,
    geo: Option<PartialGeo>,
    weather: Option<string>,
    light: Option<string>)

  datatype PartialVehicle = PartialVehicle(
    vehicleLabel: Option<string>,  // the "label" property
    plate: Option<string>,
    make_model: Option<string>,
    first_impact: Option<string>,
    manoeuvre: Option<string>)

  datatype PartialDriver = PartialDriver(
    vehicle: Option<string>,
    name: Option<string>,
    id_no: Option<string>,
    licence_no: Option<string>,
    phone: Option<string>,
    statement: Option<string>)

  datatype PartialInsurance = PartialInsurance(
    vehicle: Option<string>,
    company: Option<string>,
    policy_no: Option<string>)

  /** What `JSON.parse` yields for an extraction reply that follows the
      response schema: every property optional. */
  datatype PartialReport = PartialReport(
    accident: Option<PartialAccident>,
    vehicles: Option<seq<PartialVehicle>>,
    drivers: Option<seq<PartialDriver>>,
    insurance: Option<seq<PartialInsurance>>,
    questions: Option<seq<AIQuestion>>)

  /** The properties the response schema declares, per object. */
  const SchemaTopLevel: set<string> := {"accident", "vehicles", "drivers", "insurance", "questions"}
  const SchemaAccidentProps: set<string> := {"timestamp", "geo", "weather", "light"}
  const SchemaVehicleProps: set<string> := {"label", "plate", "make_model", "first_impact", "manoeuvre"}
  const SchemaDriverProps: set<string> := {"vehicle", "name", "id_no", "licence_no", "phone", "statement"}
  const SchemaInsuranceProps: set<string> := {"vehicle", "company", "policy_no"}
  const SchemaQuestionProps: set<string> := {"field", "question"}

  /** The top-level sections of a report record. */
  const ReportSections: set<string> :=
    {"locale", "accident", "vehicles", "drivers", "insurance", "witnesses", "diagram", "signatures", "consent"}

  /** A property that is present only when the parsed reply carries it. */
  function Present(key: string, v: Option<string>): (r: map<string, Json>)
    ensures r.Keys <= {key}
    ensures key in r <==> v.Some?
    ensures v.Some? ==> r[key] == JStr(v.value)
  {
    if v.Some? then map[key := JStr(v.value)] else map[]
  }

  function AccidentFields(a: PartialAccident): (r: map<string, Json>)
    ensures r.Keys <= SchemaAccidentProps
  {
    Present("timestamp", a.timestamp)
    + (if a.geo.Some? then map["geo" := JObj(Present("address", a.geo.value.address))] else map[])
    + Present("weather", a.weather)
    + Present("light", a.light)
  }

  function VehicleFields(v: PartialVehicle): (r: map<string, Json>)
    ensures r.Keys <= SchemaVehicleProps
    ensures "label" in r <==> v.vehicleLabel.Some?
    ensures v.vehicleLabel.Some? ==> r["label"] == JStr(v.vehicleLabel.value)
  {
    Present("label", v.vehicleLabel) + Present("plate", v.plate) + Present("make_model", v.make_model)
    + Present("first_impact", v.first_impact) + Present("manoeuvre", v.manoeuvre)
  }

  function DriverFields(d: PartialDriver): (r: map<string, Json>)
    ensures r.Keys <= SchemaDriverProps
    ensures "vehicle" in r <==> d.vehicle.Some?
    ensures d.vehicle.Some? ==> r["vehicle"] == JStr(d.vehicle.value)
  {
    Present("vehicle", d.vehicle) + Present("name", d.name) + Present("id_no", d.id_no)
    + Present("licence_no", d.licence_no) + Present("phone", d.phone) + Present("statement", d.statement)
  }

  function InsuranceFields(i: PartialInsurance): (r: map<string, Json>)
    ensures r.Keys <= SchemaInsuranceProps
    ensures "vehicle" in r <==> i.vehicle.Some?
    ensures i.vehicle.Some? ==> r["vehicle"] == JStr(i.vehicle.value)
  {
    Present("vehicle", i.vehicle) + Present("company", i.company) + Present("policy_no", i.policy_no)
  }

  function QuestionFields(q: AIQuestion): (r: map<string, Json>)
    ensures r.Keys <= SchemaQuestionProps
  {
    Present("field", q.field) + Present("question", q.question)
  }

  function VehiclesJson(vs: seq<PartialVehicle>): Json {
    JArr(seq(|vs|, i requires 0 <= i < |vs| => JObj(VehicleFields(vs[i]))))
  }

  function DriversJson(ds: seq<PartialDriver>): Json {
    JArr(seq(|ds|, i requires 0 <= i < |ds| => JObj(DriverFields(ds[i]))))
  }

  function InsuranceJson(ins: seq<PartialInsurance>): Json {
    JArr(seq(|ins|, i requires 0 <= i < |ins| => JObj(InsuranceFields(ins[i]))))
  }

  function QuestionsJson(qs: seq<AIQuestion>): Json {
    JArr(seq(|qs|, i requires 0 <= i < |qs| => JObj(QuestionFields(qs[i]))))
  }

  /** The value of one top-level section of the parsed reply, if present. */
  function SectionValue(p: PartialReport, key: string): Option<Json> {
    if key == "accident" && p.accident.Some? then Some(JObj(AccidentFields(p.accident.value)))
    else if key == "vehicles" && p.vehicles.Some? then Some(VehiclesJson(p.vehicles.value))
    else if key == "drivers" && p.drivers.Some? then Some(DriversJson(p.drivers.value))
    else if key == "insurance" && p.insurance.Some? then Some(InsuranceJson(p.insurance.value))
    else if key == "questions" && p.questions.Some? then Some(QuestionsJson(p.questions.value))
    else None
  }

  /** The parsed reply as a plain object: one property per section present. */
  function PartialFields(p: PartialReport): (r: map<string, Json>)
    ensures r.Keys <= SchemaTopLevel
    ensures "accident" in r <==> p.accident.Some?
    ensures "questions" in r <==> p.questions.Some?
    ensures "vehicles" in r <==> p.vehicles.Some?
    ensures "drivers" in r <==> p.drivers.Some?
    ensures "insurance" in r <==> p.insurance.Some?
    ensures p.accident.Some? ==> r["accident"] == JObj(AccidentFields(p.accident.value))
  {
    map k | k in SchemaTopLevel && SectionValue(p, k).Some? :: SectionValue(p, k).value
  }

  /** The extraction schema reaches only accident facts, vehicles, drivers,
      insurance and questions: a reply can never carry witnesses, a diagram,
      signatures, consent or a locale, and its vehicles never carry alleged
      offences. */
  lemma SchemaCoverage(p: PartialReport, v: PartialVehicle)
    ensures PartialFields(p).Keys !! {"witnesses", "diagram", "signatures", "consent", "locale"}
    ensures "alleged_offences" !in VehicleFields(v)
    ensures SchemaTopLevel - {"questions"} < ReportSections
  {
  }
}
